=== FILE: README.md ===
# YTMP3 conversion core and player utilities, modelled in Dafny

This project models the core of the YTMP3 Android app (package
`com.example.musicplayer2`) and proves properties of that model. The core has
two parts.

- **Playlist to MP3 conversion.** `ConversionService` does the following:
  - fetches a playlist;
  - fills the shared conversion queue with one `WAITING` item per video;
  - converts each video's best audio stream with FFmpeg;
  - saves the result under the Music directory;
  - writes an M3U manifest of the saved files;
  - reports every step to the playlist screen by broadcast.

  A cancel-all that lands at the loop's check before an item marks every
  unfinished item `CANCELLED`. Two more screens take
  part: the playlist screen (`PlaylistConverterActivity`) and the
  single-video converter (`YTConverterActivity`). Its fragment twin
  `YTConverterFragment` runs the same code at other line numbers.
- **Music-player helpers.** These cover:
  - the next and previous queue steps, and the "smart back" restart rule;
  - the zero defaults of the player getters;
  - the `m:ss` duration text;
  - a song's title, folder, duration, `equals` and `hashCode`;
  - the M3U export of a playlist;
  - the sleep-timer screen, and the player screen's view of the timer.

The model uses immutable datatypes and pure functions. Everything the program
asks of the outside world is an explicit input rather than an effect:

- the network lookups of `PlaylistInfo` and `StreamInfo`;
- the exit code of FFmpeg;
- the media store;
- clocks and timestamps;
- the moment a cancel-all arrives.

A call that may throw is modelled as `Attempt<T>`, which holds either a value
or a thrown exception's nullable message.

The modules follow the program's structure:

| module | file | models |
|---|---|---|
| `Common` | common.dfy | Kotlin `Int` wrap-around, decimal printing and `toIntOrNull`, `trim`, `take`, `split`/`joinToString` |
| `Sanitize` | sanitize.dfy | the title and playlist-name cleaners, the `<clean>_<timestamp>` file stem |
| `ConversionItems` | conversion_item.dfy | `ConversionItem`, `ConversionStatus` |
| `Manifest` | manifest.dfy | `createM3UPlaylist`, `File.name`, `File.nameWithoutExtension` |
| `Pipeline` | pipeline.dfy | `onStartCommand`, `startConversion`, the per-item body, `cancelAllConversions` |
| `SingleVideo` | single_video.dfy | `processUrl`, `extractYouTubeUrl`, `convertToMp3` of the single-video screen |
| `PlaylistScreen` | playlist_screen.dfy | `startConversionService`, the broadcast receiver, `updateButtonStates` |
| `Playback` | playback.dfy | `playNext`, `playPrev`, `position`, `duration`, `createTime` |
| `Songs` | song.dfy | `Song`: title from the file name, `equals`, `folderName`, `extractDuration`, `hashCode` |
| `ImportExport` | import_export.dfy | `m3uConverter` with its `trimIndent` template |
| `SleepTimer` | sleep_timer.dfy | `SleepTimeFragment` and `PlayerFragment`'s timer check |

### Behaviour the proofs bring out

- **Temporary MP3 of the playlist service.** `saveFile`'s `finally` deletes
  the temporary MP3 only when FFmpeg returned 0. On a non-zero exit code, or
  when FFmpeg throws, the file stays in the cache
  (`Pipeline.TempLeftExactlyWhenFFmpegFails`).
- **Title cleaning.**
  - A cleaned title cut at 50 characters can end in a space
    (`Sanitize.CleanTitleMayEndInSpace`), because `trim()` runs before
    `take(50)`.
  - A title `"Audio"` and an empty title give the same file stem
    (`Sanitize.FileStemFallbackCollides`).
- **Playlist names.** A playlist name made only of symbols becomes the empty
  name. The `Playlist_<millis>` fallback only covers a null name
  (`Sanitize.PlaylistNameEmpty`). Unlike the title cleaner, nothing is trimmed:
  the name is the title cleaner's collapse with each space made an
  underscore, cut at 50 (`Sanitize.PlaylistNameIsUnderscoredCollapse`).
- **Cancel-all landing at the check before an item.**
  - The loop stops.
  - The saved-path list is cleared.
  - The manifest is still written, as a header-only file.
  - `CONVERSION_FINISHED` is still sent (`Pipeline.RunJobManifest`,
    `Pipeline.RunJobEvents`).
- **Sleep timer "already passed".** The branch cannot be taken: the delay
  is measured from the start of the day that holds the clock, and a time
  that has passed moves to tomorrow, so the delay is always positive
  (`SleepTimer.SwitchOnActivates`). If the branch were taken, it would show
  "already passed" and leave an alarm set earlier armed, since it neither
  schedules nor cancels (`SleepTimer.AlreadyPassedKeepsAlarm`).
- **Broadcast guard.** The playlist screen's `UPDATE_ITEM` guard only
  excludes -1, so a negative index such as -2 passes it
  (`PlaylistScreen.UpdateItemGuard`).
- **Single-video screen.**
  - The "No audio stream found" branch cannot be reached: `maxByOrNull` of a
    non-empty list is never null (`SingleVideo.NoAudioBranchUnreachable`).
  - A non-zero FFmpeg exit code cleans nothing up. The output file stays,
    and on scoped storage the media-store row stays pending
    (`SingleVideo.NoCleanupOnFailure`).
- **FFmpeg argument vector.** It has 11 elements (`SingleVideo.Command`).
- **Back button after `stop()`.** `stop()` resets the song start time to 0,
  so once the clock is past three seconds the back button only restarts
  (`Playback.StoppedPrevRestarts`).
- **Player screen's timer check.** It reduces to "the stored time differs
  from the current minute" (`SleepTimer.StillActiveIffNotNow`). The screen
  reads the stored time with default 0, while the timer screen uses 36480
  (10:08).
- **Song titles.** A file name `.<ext>` with no other dot keeps its dot in
  the song title, where `nameWithoutExtension` gives the empty string
  (`Songs.TitleVersusNameWithoutExtension`).
- **M3U export.** A blank song title keeps three lines per song, but its
  info line ends in trailing spaces and its path line keeps a four-space
  indent, `"    <path>"`, because the template's indent is not removed
  (`ImportExport.TrimIndentOfBlankTitle`).

Paths below are relative to `app/src/main/java/com/example/musicplayer2/`,
written out in full in the table.

## Model

| member | source | states |
|---|---|---|
| Sanitize.StripDisallowed | app/src/main/java/com/example/musicplayer2/ConversionService.kt:205 | the filtered title holds only characters of `[A-Za-z0-9 \-_]` and is no longer than the input |
| Sanitize.StripDisallowedFixpoint | app/src/main/java/com/example/musicplayer2/ConversionService.kt:205 | the filter leaves a string unchanged exactly when every character is allowed |
| Sanitize.StripDisallowedAppend | app/src/main/java/com/example/musicplayer2/ConversionService.kt:205 | filtering a concatenation concatenates the filtered parts |
| Sanitize.StripDisallowedVisible | app/src/main/java/com/example/musicplayer2/ConversionService.kt:205 | a visible (allowed, non-space) character survives the filter exactly when the input has one |
| Sanitize.ReplaceSpaceRunsKeepsVisible | app/src/main/java/com/example/musicplayer2/ConversionService.kt:206 | collapsing whitespace runs to one space keeps every non-space character, in order |
| Sanitize.ReplaceSpaceRunsIdentity | app/src/main/java/com/example/musicplayer2/ConversionService.kt:206 | text whose only whitespace is single spaces is left unchanged by the collapse |
| Sanitize.CleanTitle | app/src/main/java/com/example/musicplayer2/ConversionService.kt:205-208 | the cleaned title has at most 50 characters, all allowed, no two adjacent spaces and no leading space |
| Sanitize.CleanTitleOfClean | app/src/main/java/com/example/musicplayer2/ConversionService.kt:205-208 | an already clean title is only cut to 50 characters |
| Sanitize.CleanTitleEmpty | app/src/main/java/com/example/musicplayer2/ConversionService.kt:205-209 | the cleaned title is empty exactly when the title has no visible allowed character |
| Sanitize.CleanTitleNoTrailingSpaceWhenShort | app/src/main/java/com/example/musicplayer2/ConversionService.kt:205-208 | when the trimmed text is at most 50 long, the cleaned title does not end in a space |
| Sanitize.CleanTitleMayEndInSpace | app/src/main/java/com/example/musicplayer2/ConversionService.kt:207-208 | a 49-letter word followed by " b" cleans to the word plus a trailing space (take after trim) |
| Sanitize.StemBase | app/src/main/java/com/example/musicplayer2/ConversionService.kt:209 | the part before `_<timestamp>` is non-empty, at most 50 allowed characters, not starting with a space |
| Sanitize.FileStemFallback | app/src/main/java/com/example/musicplayer2/ConversionService.kt:209 | the stem is `Audio_<ts>` when the title is null or has nothing visible, and `<clean>_<ts>` otherwise |
| Sanitize.FileStemFallbackCollides | app/src/main/java/com/example/musicplayer2/ConversionService.kt:209 | the titles "Audio" and "" give the same stem |
| Sanitize.FileStemShape | app/src/main/java/com/example/musicplayer2/ConversionService.kt:209 | a stem never starts with '#', has no '.' before the timestamp, and has no '/' or line break unless the timestamp brings one |
| Sanitize.FileStem | app/src/main/java/com/example/musicplayer2/ConversionService.kt:209 | the stem is a non-empty base of at most 50 allowed characters, not starting with a space, followed by "_" and the timestamp |
| Sanitize.PlaylistName | app/src/main/java/com/example/musicplayer2/ConversionService.kt:90-91 | a non-null name cleans to at most 50 allowed characters with no space; a null name gives `Playlist_<millis>` |
| Sanitize.PlaylistNameKeepsVisible | app/src/main/java/com/example/musicplayer2/ConversionService.kt:90-91 | the name's allowed non-whitespace characters all appear in order before the cut at 50, and the result is a prefix of that uncut text |
| Sanitize.PlaylistNameOfClean | app/src/main/java/com/example/musicplayer2/ConversionService.kt:90-91 | a name of at most 50 allowed characters without spaces is used unchanged |
| Sanitize.ReplaceSpaceRunsKeepsOrder | app/src/main/java/com/example/musicplayer2/ConversionService.kt:206 | replacing whitespace runs by any text keeps every non-whitespace character, in order |
| Sanitize.UnderscoreRunsAreCollapsedSpaces | app/src/main/java/com/example/musicplayer2/ConversionService.kt:90-91 | replacing each whitespace run by "_" equals collapsing each run to one space and then turning every space into "_": each run becomes exactly one underscore |
| Sanitize.PlaylistNameIsUnderscoredCollapse | app/src/main/java/com/example/musicplayer2/ConversionService.kt:90-91 | a non-null name is the filtered name, collapsed as the title cleaner does, with each space made "_", cut at 50 and not trimmed |
| Sanitize.PlaylistNameEmpty | app/src/main/java/com/example/musicplayer2/ConversionService.kt:90-91 | a non-null name with no allowed character becomes the empty name, not the fallback |
| ConversionItems.NewItem | app/src/main/java/com/example/musicplayer2/ConversionItem.kt:6-13 | a new item keeps the given id, title, url and status, with no job and empty progress |
| ConversionItems.Update | app/src/main/java/com/example/musicplayer2/ConversionService.kt:118-119 | a status/progress update changes only those two fields |
| Manifest.FileName | app/src/main/java/com/example/musicplayer2/ConversionService.kt:190-192 | `File.name` is the '/'-free suffix after the last '/', or the whole path when there is none |
| Manifest.NameWithoutExtension | app/src/main/java/com/example/musicplayer2/ConversionService.kt:191 | the name up to its last '.', or the whole name when it has no '.' |
| Manifest.ManifestText | app/src/main/java/com/example/musicplayer2/ConversionService.kt:186-193 | the manifest starts with the `#EXTM3U` header line |
| Manifest.ManifestRoundTrip | app/src/main/java/com/example/musicplayer2/ConversionService.kt:188-193 | split at line breaks, the manifest is the header followed by an `#EXTINF:-1,<name>` line and a file-name line per saved path, in order |
| Manifest.InfoLinePerPath | app/src/main/java/com/example/musicplayer2/ConversionService.kt:189-192 | the manifest has exactly one `#EXTINF:` line per saved path |
| Pipeline.ScanMax | app/src/main/java/com/example/musicplayer2/ConversionService.kt:123 | the `maxByOrNull` scan ends at the earliest position holding the largest bitrate |
| Pipeline.BestIndex | app/src/main/java/com/example/musicplayer2/ConversionService.kt:123 | there is no best stream exactly when the list is empty; otherwise it is the first maximum |
| Pipeline.BestAudio | app/src/main/java/com/example/musicplayer2/ConversionService.kt:123 | `maxByOrNull` is null exactly for an empty list and otherwise returns a stream at the first maximum |
| Pipeline.FirstMaxUnique | app/src/main/java/com/example/musicplayer2/ConversionService.kt:123 | the first maximum is unique, so the chosen stream is determined |
| Pipeline.Populate | app/src/main/java/com/example/musicplayer2/ConversionService.kt:99-108 | the refilled queue has one WAITING item per video, with the video's url, id `<millis>_<index>` and title `name ?: "Unknown <index+1>"` |
| Pipeline.ItemIdRoundTrip | app/src/main/java/com/example/musicplayer2/ConversionService.kt:102 | an item id splits at its '_' back into the millis and the index it was built from |
| Pipeline.ItemIdsDistinct | app/src/main/java/com/example/musicplayer2/ConversionService.kt:102 | items at different positions get different ids, whatever the clock reads |
| Pipeline.PopulateIdsDistinct | app/src/main/java/com/example/musicplayer2/ConversionService.kt:99-108 | all ids in a freshly populated queue are pairwise distinct |
| Pipeline.Shown | app/src/main/java/com/example/musicplayer2/ConversionService.kt:118-154 | an item shows "Fetching stream info...", then "Converting to MP3..." exactly when encoding started, then its final state |
| Pipeline.ItemOutcome | app/src/main/java/com/example/musicplayer2/ConversionService.kt:117-153 | an item ends COMPLETED or FAILED; COMPLETED exactly when a path was saved; it reaches encoding exactly when a best stream with a URL exists |
| Pipeline.ItemCompletes | app/src/main/java/com/example/musicplayer2/ConversionService.kt:122-136 | an item completes exactly when a stream with a URL is found, FFmpeg returns 0 and saving returns a path |
| Pipeline.ItemFailureTexts | app/src/main/java/com/example/musicplayer2/ConversionService.kt:137-152 | each failure carries the text of the step that failed: `Error: <message>`, no stream, conversion failed, save failed |
| Pipeline.TempLeftExactlyWhenFFmpegFails | app/src/main/java/com/example/musicplayer2/ConversionService.kt:222-263 | the temporary file is left in the cache exactly when FFmpeg ran and did not return 0 |
| Pipeline.ConvertAndSaveAgree | app/src/main/java/com/example/musicplayer2/ConversionService.kt:204-232 | with equal timestamps, the saved file has the temporary file's name |
| Pipeline.ProcessItem | app/src/main/java/com/example/musicplayer2/ConversionService.kt:117-154 | one loop body settles item i only, appends its saved path, its UPDATE_ITEM broadcasts and any leftover temp, and changes nothing else |
| Pipeline.CancelItem | app/src/main/java/com/example/musicplayer2/ConversionService.kt:175-178 | a WAITING or CONVERTING item becomes CANCELLED with "Cancelled by user"; a final item is untouched |
| Pipeline.CancelItems | app/src/main/java/com/example/musicplayer2/ConversionService.kt:174-179 | cancel-all treats every queue position independently and keeps the length |
| Pipeline.CancelAll | app/src/main/java/com/example/musicplayer2/ConversionService.kt:172-184 | after cancel-all every item is final, unfinished items are CANCELLED with their id/title/url kept, saved paths are cleared, UPDATE_ALL is sent, the job is inactive and the service stops |
| Pipeline.CancelAllIdempotent | app/src/main/java/com/example/musicplayer2/ConversionService.kt:172-184 | a second cancel-all changes no item |
| Pipeline.CancelAfterJobKeepsQueue | app/src/main/java/com/example/musicplayer2/ConversionService.kt:172-184 | a cancel-all after a job over a fetched playlist changes no item, since every item of a finished job is final |
| Pipeline.Loop | app/src/main/java/com/example/musicplayer2/ConversionService.kt:112-155 | the loop keeps the queue length, the playlist name and folder, and the manifests |
| Pipeline.LoopQueue | app/src/main/java/com/example/musicplayer2/ConversionService.kt:112-155 | after the loop, items before the stop point carry their outcome and the rest are cancelled |
| Pipeline.LoopSongs | app/src/main/java/com/example/musicplayer2/ConversionService.kt:112-155 | after the loop, the saved paths are those of the processed items in order, or empty after a cancel-all |
| Pipeline.LoopEvents | app/src/main/java/com/example/musicplayer2/ConversionService.kt:112-155 | the loop's broadcasts are the processed items' UPDATE_ITEMs in order, plus UPDATE_ALL on a cancel-all |
| Pipeline.RunJob | app/src/main/java/com/example/musicplayer2/ConversionService.kt:85-170 | a job always ends inactive, stopped and with CONVERSION_FINISHED last; a failed playlist fetch leaves the queue as it was and posts the failure text |
| Pipeline.OnStartCommand | app/src/main/java/com/example/musicplayer2/ConversionService.kt:57-83 | a URL while a job is active is ignored (even together with the cancel action); a URL with no job active runs a whole job, with "Starting conversion..." shown first, and the cancel action then cancels everything; with no URL the cancel action cancels everything and any other intent is ignored |
| Pipeline.RunJobQueue | app/src/main/java/com/example/musicplayer2/ConversionService.kt:96-155 | a job's final queue has one final item per video with the populated id/title/url; items before the stop point have their outcome, the rest are CANCELLED |
| Pipeline.RunJobSongs | app/src/main/java/com/example/musicplayer2/ConversionService.kt:94-155 | a job that ran to the end saved exactly one path per COMPLETED item in queue order; a cancel-all leaves none |
| Pipeline.SavedCountsCompleted | app/src/main/java/com/example/musicplayer2/ConversionService.kt:133-136 | the number of saved paths equals the number of COMPLETED items |
| Pipeline.RunJobEvents | app/src/main/java/com/example/musicplayer2/ConversionService.kt:109-161 | a job broadcasts QUEUE_READY, then UPDATE_ITEMs only for processed items, then UPDATE_ALL if cancelled, then CONVERSION_FINISHED |
| Pipeline.EventsFromIndices | app/src/main/java/com/example/musicplayer2/ConversionService.kt:120-154 | every item broadcast names an index in the processed range |
| Pipeline.RunJobManifest | app/src/main/java/com/example/musicplayer2/ConversionService.kt:158-201 | the manifest `<folder>/<name>.m3u` lists exactly the saved paths; after a cancel-all it is the bare header |
| SingleVideo.RouteOf | app/src/main/java/com/example/musicplayer2/YTConverterActivity.kt:192-212 | a URL handed on is the trimmed, non-empty input |
| SingleVideo.EmptyRouteIffBlank | app/src/main/java/com/example/musicplayer2/YTConverterActivity.kt:193-197 | nothing is started exactly when the input is blank |
| SingleVideo.RoutePrecedence | app/src/main/java/com/example/musicplayer2/YTConverterActivity.kt:199-211 | a YouTube host wins over the `http` prefix, the prefix alone gives a direct conversion, and anything else is rejected (each an if-and-only-if) |
| SingleVideo.Command | app/src/main/java/com/example/musicplayer2/YTConverterActivity.kt:316-324 | the FFmpeg argument vector has 11 elements and ends with the output path |
| SingleVideo.CommandReadsBack | app/src/main/java/com/example/musicplayer2/YTConverterActivity.kt:316-324 | read back as option/value pairs, the vector gives the input URL, libmp3lame, 192k and 44100 |
| SingleVideo.OutputStem | app/src/main/java/com/example/musicplayer2/YTConverterActivity.kt:276-283 | the single-video file name is the shared `<clean or Audio>_<timestamp>` stem |
| SingleVideo.Convert | app/src/main/java/com/example/musicplayer2/YTConverterActivity.kt:275-368 | FFmpeg gets the stream URL; a public file appears only without scoped storage; a success status names the file |
| SingleVideo.ConvertSucceedsIff | app/src/main/java/com/example/musicplayer2/YTConverterActivity.kt:329-359 | the song is published or saved exactly when FFmpeg ran and returned 0 |
| SingleVideo.NoCleanupOnFailure | app/src/main/java/com/example/musicplayer2/YTConverterActivity.kt:354-367 | on a non-zero exit code the output file stays and the media-store row stays pending; an insert exception leaves nothing behind |
| SingleVideo.SameNameAsService | app/src/main/java/com/example/musicplayer2/YTConverterActivity.kt:276-312 | for the same title and timestamp, the single-video screen names FFmpeg's output file as the playlist service names its saved file, on both storage paths, and on scoped storage the media-store row carries that name too |
| SingleVideo.ScopedOutput | app/src/main/java/com/example/musicplayer2/YTConverterActivity.kt:289-305 | with scoped storage and a created row, FFmpeg writes `<stem>.mp3` into the cache folder and the row's display name is `<stem>.mp3` |
| SingleVideo.ExtractOutcome | app/src/main/java/com/example/musicplayer2/YTConverterActivity.kt:215-273 | a conversion starts only after a non-empty stream list and a successful title lookup |
| SingleVideo.ProcessUrl | app/src/main/java/com/example/musicplayer2/YTConverterActivity.kt:192-213 | blank and invalid inputs produce their toasts only; a conversion starts only on the extract or direct route |
| SingleVideo.NoAudioBranchUnreachable | app/src/main/java/com/example/musicplayer2/YTConverterActivity.kt:234-253 | the status "No audio stream found" is never shown |
| SingleVideo.DirectLinkConverts | app/src/main/java/com/example/musicplayer2/YTConverterActivity.kt:204-207 | a direct link is converted from the trimmed input under the title "DirectAudio" |
| SingleVideo.DirectAudioIsClean | app/src/main/java/com/example/musicplayer2/YTConverterActivity.kt:206 | "DirectAudio" survives cleaning unchanged |
| PlaylistScreen.ButtonStates | app/src/main/java/com/example/musicplayer2/PlaylistConverterActivity.kt:196-200 | convert is enabled exactly when the service is not running; cancel exactly when it runs over a non-empty queue |
| PlaylistScreen.ButtonsExclusive | app/src/main/java/com/example/musicplayer2/PlaylistConverterActivity.kt:196-200 | the two buttons are never both enabled, and both are off exactly while the service runs over an empty queue |
| PlaylistScreen.StartConversionService | app/src/main/java/com/example/musicplayer2/PlaylistConverterActivity.kt:181-194 | the URL sent to the service is the trimmed, non-empty input |
| PlaylistScreen.StartsIffNotBlank | app/src/main/java/com/example/musicplayer2/PlaylistConverterActivity.kt:182-186 | the service is started exactly when the input is not blank |
| PlaylistScreen.SendStart | app/src/main/java/com/example/musicplayer2/PlaylistConverterActivity.kt:181-194 | a blank input leaves the service untouched; any other input reaches `onStartCommand` as the trimmed URL with no action |
| PlaylistScreen.SendCancel | app/src/main/java/com/example/musicplayer2/PlaylistConverterActivity.kt:106-112 | the cancel button's intent makes the service run cancel-all |
| PlaylistScreen.Encode | app/src/main/java/com/example/musicplayer2/ConversionService.kt:267-274 | every broadcast carries an action; an item update carries the item's index, and every other broadcast reads back as -1 because no index was put |
| PlaylistScreen.OnReceive | app/src/main/java/com/example/musicplayer2/PlaylistConverterActivity.kt:41-78 | the buttons are refreshed from the service state, and the whole list is redrawn only on QUEUE_READY or UPDATE_ALL |
| PlaylistScreen.ReceiveEncoded | app/src/main/java/com/example/musicplayer2/PlaylistConverterActivity.kt:45-75 | each event the service sends, with an item index inside the queue, refreshes the buttons and gets its own status text and redraw: loaded and redraw all, redraw of that row, updated and redraw all, finished |
| PlaylistScreen.ReceiveEncodedInjective | app/src/main/java/com/example/musicplayer2/PlaylistConverterActivity.kt:45-75 | two different events never cause the same reaction on screen |
| PlaylistScreen.OnlyKnownActionsAct | app/src/main/java/com/example/musicplayer2/PlaylistConverterActivity.kt:45-75 | a broadcast is ignored exactly when its action is missing or unknown, or it is an UPDATE_ITEM failing the index guard |
| PlaylistScreen.ServiceUpdatesAreApplied | app/src/main/java/com/example/musicplayer2/PlaylistConverterActivity.kt:53-61 | every item update the service sends for a queue position redraws that row |
| PlaylistScreen.UpdateItemGuard | app/src/main/java/com/example/musicplayer2/PlaylistConverterActivity.kt:53-61 | an UPDATE_ITEM is applied exactly when its index is not -1 and below the queue size, so -2 passes |
| Playback.NextIndex | app/src/main/java/com/example/musicplayer2/MediaPlayerUtil.kt:131-135 | next stays on repeat, wraps from last to first, else moves one on; it stays inside the queue |
| Playback.PrevIndex | app/src/main/java/com/example/musicplayer2/MediaPlayerUtil.kt:161-175 | previous stays on repeat, wraps from first to last, else moves one back; it stays inside the queue |
| Playback.StepsAreInverse | app/src/main/java/com/example/musicplayer2/MediaPlayerUtil.kt:131-175 | without repeat, next is +1 modulo the queue length and next and previous undo each other |
| Playback.NextTimesCycles | app/src/main/java/com/example/musicplayer2/MediaPlayerUtil.kt:131-135 | k presses of next advance k positions modulo the queue length |
| Playback.RepeatStays | app/src/main/java/com/example/musicplayer2/MediaPlayerUtil.kt:131-166 | on repeat both buttons keep the current song |
| Playback.Position | app/src/main/java/com/example/musicplayer2/MediaPlayerUtil.kt:355-365 | position is 0 without a player or when the getter throws, else the player's value |
| Playback.Duration | app/src/main/java/com/example/musicplayer2/MediaPlayerUtil.kt:367-377 | duration is 0 without a player or when the getter throws, else the player's value |
| Playback.IsStopped | app/src/main/java/com/example/musicplayer2/MediaPlayerUtil.kt:328-329 | the player counts as stopped exactly when there is none, and a stopped player reads position and duration 0 |
| Playback.StoppedReadsZero | app/src/main/java/com/example/musicplayer2/MediaPlayerUtil.kt:328-377 | with no player `isStopped` holds and `position` and `duration` are 0; a player whose getters answer reads their values, so a non-zero reading means it is not stopped |
| Playback.PlayPrev | app/src/main/java/com/example/musicplayer2/MediaPlayerUtil.kt:142-176 | nothing happens exactly without a queue; selecting another song is always the previous index, never on repeat |
| Playback.PrevSelectsIff | app/src/main/java/com/example/musicplayer2/MediaPlayerUtil.kt:147-175 | back moves to another song exactly when neither position nor time played exceeds 3000 ms and repeat is off |
| Playback.StoppedPrevRestarts | app/src/main/java/com/example/musicplayer2/MediaPlayerUtil.kt:147-155 | with the start time reset to 0, back only restarts once the clock is past 3000 ms |
| Playback.PlayNext | app/src/main/java/com/example/musicplayer2/MediaPlayerUtil.kt:127-139 | nothing happens exactly without a queue; with a queue the song at `NextIndex` is selected |
| Playback.NextThenQuickPrev | app/src/main/java/com/example/musicplayer2/MediaPlayerUtil.kt:127-176 | next followed by a back within three seconds returns to the song that was playing |
| Playback.CreateTime | app/src/main/java/com/example/musicplayer2/MediaPlayerUtil.kt:388-394 | the duration text contains a ':' |
| Playback.CreateTimeRoundTrip | app/src/main/java/com/example/musicplayer2/MediaPlayerUtil.kt:389-394 | the text splits at its ':' into minutes and two-digit seconds below 60 that add back to the whole seconds of the clamped duration |
| Playback.NegativeDurationIsZero | app/src/main/java/com/example/musicplayer2/MediaPlayerUtil.kt:390 | a negative duration shows as "0:00" |
| Songs.TitleFromFileName | app/src/main/java/com/example/musicplayer2/data/Song.kt:65 | the title is a prefix of the file name; when shorter it stops at the last '.', which is not the first character |
| Songs.SongFromFile | app/src/main/java/com/example/musicplayer2/data/Song.kt:62-68 | the file-only constructor takes its title from the file's name, with no album |
| Songs.TitleKeepsDotlessName | app/src/main/java/com/example/musicplayer2/data/Song.kt:65 | a name without a '.' after its first character is kept whole |
| Songs.TitleStripsExtension | app/src/main/java/com/example/musicplayer2/data/Song.kt:65 | `<stem>.<ext>` with a non-empty stem gives the stem |
| Songs.TitleVersusNameWithoutExtension | app/src/main/java/com/example/musicplayer2/data/Song.kt:65 | the title differs from `nameWithoutExtension` exactly for names whose only '.' is the first character |
| Songs.EqualsIsEquivalence | app/src/main/java/com/example/musicplayer2/data/Song.kt:73-75 | `equals` is reflexive, symmetric and transitive, and false for null |
| Songs.SongEquals | app/src/main/java/com/example/musicplayer2/data/Song.kt:73-75 | a song equals itself, and nothing equals null or a value of another type (`Songs.EqualsIsEquivalence` adds symmetry and transitivity) |
| Songs.FolderName | app/src/main/java/com/example/musicplayer2/data/Song.kt:82-86 | the folder has no '/', and is "Unknown" for a path without '/' |
| Songs.FolderNameIsParent | app/src/main/java/com/example/musicplayer2/data/Song.kt:82-86 | the folder of `<dir>/<name>` is the last segment of dir, which is "" for a top-level file |
| Songs.FolderNameOfLayout | app/src/main/java/com/example/musicplayer2/data/Song.kt:82-86 | the folder of `<dir>/<folder>/<name>` is folder |
| Songs.ExtractDuration | app/src/main/java/com/example/musicplayer2/data/Song.kt:77-80 | the duration is an `Int`, 0 when the metadata is missing |
| Songs.ExtractDurationReadsBack | app/src/main/java/com/example/musicplayer2/data/Song.kt:77-80 | a printed `Int` reads back as itself; text that does not parse gives 0 |
| Songs.MixInjective | app/src/main/java/com/example/musicplayer2/data/Song.kt:113 | one `31 * result + h` step determines the previous result |
| Songs.MixSeparates | app/src/main/java/com/example/musicplayer2/data/Song.kt:113 | one step with different hashes gives different results |
| Songs.ChainSeparates | app/src/main/java/com/example/musicplayer2/data/Song.kt:111-120 | field hashes differing at exactly one later position give different results |
| Songs.HashCodeAsWrittenBreaksEquals | app/src/main/java/com/example/musicplayer2/data/Song.kt:111-120 | two songs with the same id and file but titles "a" and "b" are equal yet hash differently |
| Songs.HashCodeAsWritten | app/src/main/java/com/example/musicplayer2/data/Song.kt:111-120 | the hash, chained with 31 over the fields, is a 32-bit `Int`; `Songs.HashCodeAsWrittenBreaksEquals` shows it disagrees with `equals` |
| Songs.EqualSongsHashEqually | app/src/main/java/com/example/musicplayer2/data/Song.kt:73-75 | with the hash of the id alone, equal songs hash equally |
| Common.ToIntOrNullRoundTrip | app/src/main/java/com/example/musicplayer2/data/Song.kt:79 | `toIntOrNull` reads back every printed `Int` |
| Common.ToIntOrNull | app/src/main/java/com/example/musicplayer2/data/Song.kt:79 | a parsed value always fits in an `Int`; `Common.ToIntOrNullRoundTrip` gives back every printed `Int` |
| ImportExport.Lines | app/src/main/java/com/example/musicplayer2/utils/ImportExportUtils.kt:67-71 | the text splits into at least one line, none holding a line terminator |
| ImportExport.LinesAtNewline | app/src/main/java/com/example/musicplayer2/utils/ImportExportUtils.kt:67-71 | a line followed by '\n' splits off as the first line |
| ImportExport.IndentWidth | app/src/main/java/com/example/musicplayer2/utils/ImportExportUtils.kt:71 | the indent is the blank prefix of the line, ended by a non-whitespace character |
| ImportExport.MinIndentIsLeast | app/src/main/java/com/example/musicplayer2/utils/ImportExportUtils.kt:71 | the minimal indent is absent exactly when all lines are blank, else the least indent of a non-blank line |
| ImportExport.TrimIndent | app/src/main/java/com/example/musicplayer2/utils/ImportExportUtils.kt:71 | a text without line breaks trims to itself without leading whitespace, or to "" when blank |
| ImportExport.TrimIndentOfTitle | app/src/main/java/com/example/musicplayer2/utils/ImportExportUtils.kt:67-72 | for a one-line non-blank title the template trims to the title without leading whitespace, then "\n" |
| ImportExport.TrimIndentOfBlankTitle | app/src/main/java/com/example/musicplayer2/utils/ImportExportUtils.kt:67-72 | for a blank title the template keeps its four-space indent: `<pad><title>\n<pad>` |
| ImportExport.IndexOf | app/src/main/java/com/example/musicplayer2/utils/ImportExportUtils.kt:66 | `indexOf` is the first position with an equal (same id) song, or -1 when there is none |
| ImportExport.PrintedIndex | app/src/main/java/com/example/musicplayer2/utils/ImportExportUtils.kt:66 | the printed number is at most the position, and equal to it exactly when no earlier song has the same id |
| ImportExport.DistinctSongsNumberedInOrder | app/src/main/java/com/example/musicplayer2/utils/ImportExportUtils.kt:64-66 | songs with distinct ids are numbered 0, 1, 2, ... in list order |
| ImportExport.ExportText | app/src/main/java/com/example/musicplayer2/utils/ImportExportUtils.kt:62-75 | the export starts with "#EXTM3U\n\n" |
| ImportExport.BodyLinesFrom | app/src/main/java/com/example/musicplayer2/utils/ImportExportUtils.kt:64-75 | every song contributes three lines |
| ImportExport.EntryShape | app/src/main/java/com/example/musicplayer2/utils/ImportExportUtils.kt:65-74 | an entry is `#EXTINF:<index>, <title>` then the path, then a blank line |
| ImportExport.EntriesLines | app/src/main/java/com/example/musicplayer2/utils/ImportExportUtils.kt:64-75 | the entries split into the info, path and blank lines of each song in order |
| ImportExport.ExportRoundTrip | app/src/main/java/com/example/musicplayer2/utils/ImportExportUtils.kt:63-75 | read back line by line, the export is the header, a blank line, then per song its info line, its path and a blank line |
| SleepTimer.ConvertInt | app/src/main/java/com/example/musicplayer2/ui/sleeptime/SleepTimeFragment.kt:73-75 | the stored value is a whole number of minutes within one day |
| SleepTimer.DecodeTime | app/src/main/java/com/example/musicplayer2/ui/sleeptime/SleepTimeFragment.kt:77-85 | a non-negative stored value decodes to a non-negative hour and a minute below 60 |
| SleepTimer.DecodeConvert | app/src/main/java/com/example/musicplayer2/ui/sleeptime/SleepTimeFragment.kt:73-85 | decoding a stored picker position gives the same hour and minute |
| SleepTimer.ConvertDecode | app/src/main/java/com/example/musicplayer2/ui/sleeptime/SleepTimeFragment.kt:73-85 | every whole-minute value within one day decodes to a valid position that stores back to itself |
| SleepTimer.DefaultIsTenOhEight | app/src/main/java/com/example/musicplayer2/ui/sleeptime/SleepTimeFragment.kt:79-81 | the default 36480 shows as 10:08 |
| SleepTimer.AmPm | app/src/main/java/com/example/musicplayer2/ui/sleeptime/SleepTimeFragment.kt:69-70 | the marker is "AM" or "PM" |
| SleepTimer.AmIffMorning | app/src/main/java/com/example/musicplayer2/ui/sleeptime/SleepTimeFragment.kt:69-70 | "AM" exactly before 12 o'clock |
| SleepTimer.DelayInRange | app/src/main/java/com/example/musicplayer2/ui/sleeptime/SleepTimeFragment.kt:140-162 | with the clock inside the current day, the delay is positive and at most one day |
| SleepTimer.DelayUntil | app/src/main/java/com/example/musicplayer2/ui/sleeptime/SleepTimeFragment.kt:140-162 | the alarm is set for the chosen time today while that is still ahead, otherwise for the same time tomorrow; the delay is positive whenever the clock is less than a day past today's chosen time |
| SleepTimer.OnBackPressed | app/src/main/java/com/example/musicplayer2/ui/sleeptime/SleepTimeFragment.kt:94-134 | leaving stores a value that decodes to the picked time and the switch state; with the switch off the alarm is cancelled and the timer inactive; with the switch on the alarm is never cancelled, and it is left untouched exactly when the timer does not become active |
| SleepTimer.AlreadyPassedKeepsAlarm | app/src/main/java/com/example/musicplayer2/ui/sleeptime/SleepTimeFragment.kt:114-124 | the "already passed" branch neither schedules nor cancels, so it would leave an earlier alarm armed; it is entered only with a clock outside the day that `midnight` starts, which the app never produces (`SleepTimer.SwitchOnActivates`) |
| SleepTimer.SwitchOnActivates | app/src/main/java/com/example/musicplayer2/ui/sleeptime/SleepTimeFragment.kt:103-192 | with the switch on the timer is active, "already passed" is never shown, an exact alarm is set exactly when allowed, and it fires within a day |
| SleepTimer.NowSeconds | app/src/main/java/com/example/musicplayer2/ui/player/PlayerFragment.kt:324 | the player's "now" is computed as the timer screen stores a picked time |
| SleepTimer.StillActiveIffNotNow | app/src/main/java/com/example/musicplayer2/ui/player/PlayerFragment.kt:321-339 | in 32-bit arithmetic, the timer counts as active exactly when it is not set to the current minute |
| SleepTimer.IsStillActive | app/src/main/java/com/example/musicplayer2/ui/player/PlayerFragment.kt:321-339 | a timer later than now is active (`SleepTimer.StillActiveIffNotNow` gives the full answer in 32-bit arithmetic) |
| SleepTimer.CheckBoxChecked | app/src/main/java/com/example/musicplayer2/ui/player/PlayerFragment.kt:299-319 | the box is checked only when the preferences and the clock were read and the switch is on |
| SleepTimer.CheckBoxIff | app/src/main/java/com/example/musicplayer2/ui/player/PlayerFragment.kt:299-339 | the box is checked exactly when the switch is on and the stored time (default 0) differs from the current minute |
| SleepTimer.ToastAgreesWithPicker | app/src/main/java/com/example/musicplayer2/ui/player/PlayerFragment.kt:355-357 | the player's toast decodes every non-negative stored value as the timer screen does |
| SleepTimer.ToastTime | app/src/main/java/com/example/musicplayer2/ui/player/PlayerFragment.kt:355-357 | for a non-negative value, the hours and minutes are the whole hours and the remaining whole minutes (minutes below 60); a negative value gives non-positive parts, as Kotlin's division truncates |

## Left out

- Network lookups (`PlaylistInfo.getInfo`, `StreamInfo.getInfo`), FFmpeg, the media store, file copies, the media scanner and notifications are effects: the model takes their results as inputs and does not model how they come about.
- `SongsData` is not part of this model. Its `lastInQueue`, `firstInQueue`, `playNext` and `playPrev` are modelled by their evident meaning: index == count - 1, index == 0, +1 and -1.
- `Album` and `Playlist` are not part of this model. A song's album hash and a playlist's song list are inputs.
- `MediaPlayerUtil.startPlaying`, `fadeOutAndStop`, `togglePlayPause` and `seekTo` drive the platform player and are left out. `playNext` and `playPrev` are modelled up to the index or restart they decide.
- The UI wiring (views, permissions, receivers' registration, `isServiceRunning`) is left out. Whether the service runs is an input.
- Coroutines and threads are not modelled. The job is one sequential run, and the shared queue is the service's own list.
- Pipeline.RunJob: a cancel-all is modelled only at the loop's activity check before an item (`cancelAt`). Three other landings are not modelled. A cancel during `PlaylistInfo.getInfo` throws a `CancellationException` that the job's outer `catch` takes: the notification "All conversions cancelled." is replaced by "Playlist extraction failed: …", and `CONVERSION_FINISHED` follows the UPDATE_ALL, while the cancel-all touched only the previous job's queue. A cancel during `StreamInfo.getInfo` throws a `CancellationException`; the per-item `catch` then marks that item FAILED with "Error: …" after UPDATE_ALL. A cancel while FFmpeg or the save runs lets the item finish and append its path after the list was cleared.
- Pipeline.OnStartCommand: an intent carrying both a URL and the cancel action is modelled as a whole job followed by a cancel-all. In the code the job is launched and cancelled at once, so it may never start.
- Pipeline.ItemOutcome: the save step's success is one input, so a copy that throws after the media-store row was created is only "no path returned". The row it leaves pending is not recorded.
- SingleVideo.Convert: `FFmpeg.execute` and the `IS_PENDING` copy on success run in a coroutine without its own `catch`. An exception from either is not modelled: the exit code is a plain number. Neither are the toasts, only the status line.
- Playback.CreateTime: `String.format("%d:%02d", …)` prints the default locale's digits. The model prints ASCII digits, so it assumes a locale with ASCII digits, and so does `Playback.CreateTimeRoundTrip`.
- SleepTimer.OnBackPressed: the "Sleep timer set for HH:MM" toast is built with `String.format("%02d:%02d", …)` and is modelled with ASCII digits, as for `Playback.CreateTime`. The `SecurityException` and generic exception handlers of `scheduleSleepTimer` are not modelled, and neither are the exact-alarm permission request's own toasts.
- SleepTimer.DelayUntil: a day is 86,400,000 ms. Calendar days of another length (daylight-saving changes) are not modelled.
- SleepTimer.DelayUntil: `midnight` is an input; in the code it is the start of the day that holds `now`, so the clock always lies within that day.
- Songs.StringHash: Java hashes UTF-16 code units, while a Dafny `char` is a Unicode scalar value. A character outside the Basic Multilingual Plane therefore counts as one unit here, not two.
- Songs.FileHash: `File.hashCode` is taken as the hash of the path string xor 1234321 (the Unix file system). The path is taken as already absolute; `File` normalisation is not modelled.
- Songs.TitleFromFileName: the pattern's `$` also matches before a final line terminator. The model treats `$` as the end of the name, since file names here carry no line terminator.
- Common.ToIntOrNull: only ASCII digits are accepted, where the JVM also accepts other Unicode decimal digits.
- Sanitize.CleanTitle: `\s` is Java's ASCII whitespace class, which is what the pattern uses. Kotlin's `trim()` uses the wider `isWhitespace`, but after the filter only ' ' can remain, so the two agree here.
- Song metadata (`extractAlbumTitle`, `extractArtists`, `extractAlbumArt`) and Room persistence are outside the core.

## Findings

| source | as written | input that shows it | evidently intended | confidence | as-written member | corrected member |
|---|---|---|---|---|---|---|
| app/src/main/java/com/example/musicplayer2/data/Song.kt:111-120 | `hashCode` mixes in the file, title, album, path and folder, while `equals` (lines 73-75) compares only `songId` | two songs with the same id and file and titles "a" and "b": `equals` is true, the hash codes differ | equal songs hash equally: the hash is the id's hash | not executed | Songs.HashCodeAsWrittenBreaksEquals | Songs.EqualSongsHashEqually |

=== FILE: common.dfy ===
/**
 * Shared vocabulary of the model: optional values, the outcome of a call that
 * may throw, 32-bit integer wrap-around, decimal rendering and parsing as the
 * Kotlin/Java runtime does it, and the few string operations (trim, take,
 * split, join) the application relies on.
 */
module Common {

  /** Kotlin's nullable `T?`. */
  datatype Option<+T> = None | Some(value: T) {
    /** Kotlin's elvis operator `x ?: default`. */
    function GetOr(default: T): T {
      if Some? then value else default
    }
  }

  /** The result of a call that either returns or throws an exception whose
      (nullable) message is kept. */
  datatype Attempt<+T> = Ok(value: T) | Threw(message: Option<string>)

  /** How string templates render a nullable exception message. */
  function MessageText(m: Option<string>): string {
    m.GetOr("null")
  }

  // ---------------------------------------------------------------------
  // 32-bit integers
  // ---------------------------------------------------------------------

  const TwoTo31: int := 0x8000_0000
  const TwoTo32: int := 0x1_0000_0000

  predicate IsInt32(x: int) {
    -TwoTo31 <= x < TwoTo31
  }

  /** The value a Kotlin `Int` computation yields: the unique 32-bit value
      congruent to `x` modulo 2^32. */
  function WrapInt32(x: int): (r: int)
    ensures IsInt32(r)
    ensures (x - r) % TwoTo32 == 0
    ensures IsInt32(x) ==> r == x
  {
    var m := x % TwoTo32;
    assert x - m == TwoTo32 * (x / TwoTo32);
    if m < TwoTo31 then m else m - TwoTo32
  }

  /** Quotient and remainder are determined by `y == q * n + r` with
      `0 <= r < n`. */
  lemma DivModUnique(y: int, n: nat, q: int, r: int)
    requires n > 0 && 0 <= r < n && y == q * n + r
    ensures y / n == q && y % n == r
  {
    var d := q - y / n;
    assert d * n == y % n - r;
    if d >= 1 {
      MulAtLeast(d, n);
    } else if d <= -1 {
      MulAtLeast(-d, n);
    }
  }

  lemma MulAtLeast(d: int, n: nat)
    requires d >= 1
    ensures d * n >= n
  {
  }

  // ---------------------------------------------------------------------
  // Decimal digits
  // ---------------------------------------------------------------------

  predicate IsDigit(c: char) {
    '0' <= c <= '9'
  }

  predicate AllDigits(s: string) {
    forall i | 0 <= i < |s| :: IsDigit(s[i])
  }

  function DigitChar(d: nat): (c: char)
    requires d < 10
    ensures IsDigit(c)
  {
    ('0' as int + d) as char
  }

  function DigitValue(c: char): (d: nat)
    requires IsDigit(c)
    ensures d < 10
  {
    c as int - '0' as int
  }

  function Pow10(n: nat): (r: nat)
    ensures r >= 1
  {
    if n == 0 then 1 else 10 * Pow10(n - 1)
  }

  /** The number a string of decimal digits denotes (leading zeros allowed). */
  function DigitsValue(s: string): nat
    requires AllDigits(s)
    decreases |s|
  {
    if |s| == 0 then 0 else 10 * DigitsValue(s[..|s| - 1]) + DigitValue(s[|s| - 1])
  }

  /** Kotlin `toString()` of a non-negative integer: shortest decimal form. */
  function NatToString(n: nat): (s: string)
    ensures |s| > 0 && AllDigits(s)
    ensures |s| > 1 ==> s[0] != '0'
    decreases n
  {
    if n < 10 then [DigitChar(n)] else NatToString(n / 10) + [DigitChar(n % 10)]
  }

  /** Kotlin `toString()` / `"%d"` of any integer. */
  function IntToString(i: int): (s: string)
    ensures |s| > 0
  {
    if i < 0 then "-" + NatToString(-i) else NatToString(i)
  }

  lemma {:induction false} NatToStringValue(n: nat)
    ensures DigitsValue(NatToString(n)) == n
    decreases n
  {
    if n >= 10 {
      NatToStringValue(n / 10);
      var s := NatToString(n);
      assert s[..|s| - 1] == NatToString(n / 10);
      assert DigitValue(DigitChar(n % 10)) == n % 10;
    } else {
      assert DigitValue(DigitChar(n)) == n;
    }
  }

  lemma NatToStringInjective(a: nat, b: nat)
    requires NatToString(a) == NatToString(b)
    ensures a == b
  {
    NatToStringValue(a);
    NatToStringValue(b);
  }

  lemma {:induction false} DigitsValueAppend(a: string, b: string)
    requires AllDigits(a) && AllDigits(b)
    ensures AllDigits(a + b)
    ensures DigitsValue(a + b) == DigitsValue(a) * Pow10(|b|) + DigitsValue(b)
    decreases |b|
  {
    var ab := a + b;
    assert AllDigits(ab) by {
      forall i | 0 <= i < |ab| ensures IsDigit(ab[i]) {
        if i < |a| { assert ab[i] == a[i]; } else { assert ab[i] == b[i - |a|]; }
      }
    }
    if |b| == 0 {
      assert ab == a;
    } else {
      var b' := b[..|b| - 1];
      assert ab[..|ab| - 1] == a + b';
      assert ab[|ab| - 1] == b[|b| - 1];
      DigitsValueAppend(a, b');
      var x, p, y, d := DigitsValue(a), Pow10(|b'|), DigitsValue(b'), DigitValue(b[|b| - 1]);
      assert DigitsValue(ab) == 10 * (x * p + y) + d;
      assert DigitsValue(b) == 10 * y + d;
      assert Pow10(|b|) == 10 * p;
      Distribute(x, p, y, d);
    }
  }

  lemma Distribute(x: int, p: int, y: int, d: int)
    ensures 10 * (x * p + y) + d == x * (10 * p) + (10 * y + d)
  {
  }

  function Repeat(c: char, n: nat): (s: string)
    ensures |s| == n
    ensures forall i | 0 <= i < n :: s[i] == c
  {
    if n == 0 then "" else [c] + Repeat(c, n - 1)
  }

  lemma {:induction false} ZerosValue(n: nat)
    ensures AllDigits(Repeat('0', n)) && DigitsValue(Repeat('0', n)) == 0
    decreases n
  {
    if n > 0 {
      ZerosValue(n - 1);
      var z := Repeat('0', n);
      assert z[..n - 1] == Repeat('0', n - 1);
    }
  }

  /** Java's `String.format("%0<width>d", n)` for a non-negative `n`. */
  function ZeroPad(n: nat, width: nat): (s: string)
    ensures AllDigits(s)
    ensures DigitsValue(s) == n
    ensures |s| == if |NatToString(n)| < width then width else |NatToString(n)|
  {
    var digits := NatToString(n);
    var zeros := Repeat('0', if |digits| < width then width - |digits| else 0);
    ZerosValue(|zeros|);
    DigitsValueAppend(zeros, digits);
    NatToStringValue(n);
    zeros + digits
  }

  /** Kotlin `String.toIntOrNull()` (radix 10): an optional sign followed by
      at least one digit, and a value that fits in an `Int`. */
  function ToIntOrNull(s: string): (r: Option<int>)
    ensures r.Some? ==> IsInt32(r.value)
  {
    if |s| == 0 then None
    else if s[0] == '-' || s[0] == '+' then
      var digits := s[1..];
      if |digits| == 0 || !AllDigits(digits) then None
      else
        var v: int := if s[0] == '-' then 0 - DigitsValue(digits) as int else DigitsValue(digits);
        if IsInt32(v) then Some(v) else None
    else if AllDigits(s) then
      var v := DigitsValue(s);
      if IsInt32(v) then Some(v) else None
    else None
  }

  /** Parsing inverts printing on the whole `Int` range. */
  lemma ToIntOrNullRoundTrip(i: int)
    requires IsInt32(i)
    ensures ToIntOrNull(IntToString(i)) == Some(i)
  {
    if i < 0 {
      var s := IntToString(i);
      assert s[1..] == NatToString(-i);
      NatToStringValue(-i);
    } else {
      var s := NatToString(i);
      assert IsDigit(s[0]);
      NatToStringValue(i);
    }
  }

  // ---------------------------------------------------------------------
  // Strings
  // ---------------------------------------------------------------------

  predicate StartsWith(s: string, prefix: string) {
    |prefix| <= |s| && s[..|prefix|] == prefix
  }

  /** Kotlin `CharSequence.contains(other)`. */
  predicate Contains(s: string, sub: string)
    decreases |s|
  {
    StartsWith(s, sub) || (|s| > 0 && Contains(s[1..], sub))
  }

  lemma {:induction false} ContainsAt(s: string, sub: string, i: nat)
    requires i + |sub| <= |s| && s[i..i + |sub|] == sub
    ensures Contains(s, sub)
    decreases i
  {
    if i > 0 {
      assert s[1..][i - 1..i - 1 + |sub|] == s[i..i + |sub|];
      ContainsAt(s[1..], sub, i - 1);
    } else {
      assert s[..|sub|] == sub;
    }
  }

  /** Kotlin `Char.isWhitespace()` on the JVM: Java whitespace or a Unicode
      space separator. */
  predicate IsWhitespace(c: char) {
    ('\t' <= c <= '\r') || ('\U{1C}' <= c <= ' ') || c == '\U{A0}' || c == '\U{1680}'
    || ('\U{2000}' <= c <= '\U{200A}') || c == '\U{2028}' || c == '\U{2029}'
    || c == '\U{202F}' || c == '\U{205F}' || c == '\U{3000}'
  }

  predicate IsBlank(s: string) {
    forall i | 0 <= i < |s| :: IsWhitespace(s[i])
  }

  /** Kotlin `trimStart()`: the suffix after the longest whitespace prefix. */
  function TrimStart(s: string): (r: string)
    ensures |r| <= |s| && r == s[|s| - |r|..]
    ensures IsBlank(s[..|s| - |r|])
    ensures |r| > 0 ==> !IsWhitespace(r[0])
    decreases |s|
  {
    if |s| > 0 && IsWhitespace(s[0]) then TrimStart(s[1..]) else s
  }

  /** Kotlin `trimEnd()`: the prefix before the longest whitespace suffix. */
  function TrimEnd(s: string): (r: string)
    ensures |r| <= |s| && r == s[..|r|]
    ensures IsBlank(s[|r|..])
    ensures |r| > 0 ==> !IsWhitespace(r[|r| - 1])
    decreases |s|
  {
    if |s| > 0 && IsWhitespace(s[|s| - 1]) then TrimEnd(s[..|s| - 1]) else s
  }

  /** Kotlin `trim()`. */
  function Trim(s: string): (r: string)
    ensures |r| <= |s|
    ensures |r| > 0 ==> !IsWhitespace(r[0]) && !IsWhitespace(r[|r| - 1])
    ensures |r| == 0 <==> IsBlank(s)
  {
    var t := TrimStart(s);
    var r := TrimEnd(t);
    assert s[..|s|] == s;
    r
  }

  /** Kotlin `take(n)`. */
  function Take(s: string, n: nat): (r: string)
    ensures |r| == if |s| < n then |s| else n
    ensures r == s[..|r|]
  {
    if |s| <= n then s else s[..n]
  }

  /** Position of the last occurrence of `c`, if any. */
  function LastIndexOf(s: string, c: char): (r: Option<nat>)
    ensures r.Some? ==> (r.value < |s| && s[r.value] == c
                         && forall j | r.value < j < |s| :: s[j] != c)
    ensures r.None? ==> c !in s
    decreases |s|
  {
    if |s| == 0 then None
    else if s[|s| - 1] == c then Some(|s| - 1)
    else LastIndexOf(s[..|s| - 1], c)
  }

  /** Kotlin `split(sep)` with a one-character delimiter: every delimiter
      separates two (possibly empty) parts, so there is always one more part
      than there are delimiters. */
  function SplitOn(s: string, sep: char): (parts: seq<string>)
    ensures |parts| >= 1
    ensures forall i | 0 <= i < |parts| :: sep !in parts[i]
    decreases |s|
  {
    if |s| == 0 then [""]
    else if s[0] == sep then [""] + SplitOn(s[1..], sep)
    else
      var rest := SplitOn(s[1..], sep);
      [[s[0]] + rest[0]] + rest[1..]
  }

  /** Kotlin `joinToString(sep)`. */
  function JoinWith(parts: seq<string>, sep: char): string
    decreases |parts|
  {
    if |parts| == 0 then ""
    else if |parts| == 1 then parts[0]
    else parts[0] + [sep] + JoinWith(parts[1..], sep)
  }

  /** Joining the parts of a split gives back the original string. */
  lemma {:induction false} JoinSplit(s: string, sep: char)
    ensures JoinWith(SplitOn(s, sep), sep) == s
    decreases |s|
  {
    if |s| > 0 {
      JoinSplit(s[1..], sep);
      var rest := SplitOn(s[1..], sep);
      if s[0] == sep {
        assert ([""] + rest)[1..] == rest;
      } else {
        var parts := [[s[0]] + rest[0]] + rest[1..];
        if |rest| == 1 {
          assert JoinWith(parts, sep) == [s[0]] + rest[0];
        } else {
          assert parts[1..] == rest[1..];
          assert JoinWith(rest, sep) == rest[0] + [sep] + JoinWith(rest[1..], sep);
          assert JoinWith(parts, sep) == [s[0]] + rest[0] + [sep] + JoinWith(rest[1..], sep);
        }
      }
    }
  }

  lemma {:induction false} SplitNoSep(a: string, sep: char)
    requires sep !in a
    ensures SplitOn(a, sep) == [a]
    decreases |a|
  {
    if |a| > 0 {
      SplitNoSep(a[1..], sep);
      assert [a[0]] + a[1..] == a;
    }
  }

  lemma {:induction false} SplitAtSep(a: string, b: string, sep: char)
    requires sep !in a
    ensures SplitOn(a + [sep] + b, sep) == [a] + SplitOn(b, sep)
    decreases |a|
  {
    var s := a + [sep] + b;
    if |a| == 0 {
      assert s[1..] == b;
    } else {
      assert s[1..] == a[1..] + [sep] + b;
      SplitAtSep(a[1..], b, sep);
      assert [a[0]] + a[1..] == a;
    }
  }

  /** Splitting a join of separator-free parts gives back the parts. */
  lemma {:induction false} SplitJoin(parts: seq<string>, sep: char)
    requires |parts| >= 1
    requires forall i | 0 <= i < |parts| :: sep !in parts[i]
    ensures SplitOn(JoinWith(parts, sep), sep) == parts
    decreases |parts|
  {
    if |parts| == 1 {
      SplitNoSep(parts[0], sep);
    } else {
      SplitJoin(parts[1..], sep);
      SplitAtSep(parts[0], JoinWith(parts[1..], sep), sep);
      assert [parts[0]] + parts[1..] == parts;
    }
  }

  lemma NotInSlice(s: string, c: char, lo: nat, hi: nat)
    requires lo <= hi <= |s| && c !in s
    ensures c !in s[lo..hi]
  {
  }

  lemma NotInConcat(a: string, b: string, c: char)
    requires c !in a && c !in b
    ensures c !in a + b
  {
  }
}

=== FILE: conversion_item.dfy ===
/**
 * One entry of the conversion queue and its status enumeration.
 * `id`, `title` and `url` are fixed at construction; the pipeline only ever
 * rewrites `status` and `progress` (and could set `job`).
 */
module ConversionItems {
  import opened Common

  datatype ConversionStatus = Waiting | Converting | Completed | Failed | Cancelled {
    /** A status the pipeline never moves an item out of. */
    predicate IsTerminal() {
      Completed? || Failed? || Cancelled?
    }
  }

  /** An opaque reference to a coroutine job. */
  datatype JobHandle = JobHandle(handle: nat)

  datatype ConversionItem = ConversionItem(
    id: string,
    title: string,
    url: string,
    status: ConversionStatus,
    job: Option<JobHandle>,
    progress: string)

  /** The constructor call with `job` and `progress` left at their defaults. */
  function NewItem(id: string, title: string, url: string, status: ConversionStatus): (item: ConversionItem)
    ensures item.job == None && item.progress == ""
    ensures item.id == id && item.title == title && item.url == url && item.status == status
  {
    ConversionItem(id, title, url, status, None, "")
  }

  /** The in-place update `item.status = s; item.progress = p`. */
  function Update(item: ConversionItem, status: ConversionStatus, progress: string): (r: ConversionItem)
    ensures r.id == item.id && r.title == item.title && r.url == item.url && r.job == item.job
    ensures r.status == status && r.progress == progress
  {
    item.(status := status, progress := progress)
  }
}

=== FILE: import_export.dfy ===
/**
 * The M3U export of a stored playlist: a "#EXTM3U" header and a blank
 * line, then for every song in list order an "#EXTINF:<index>, " prefix,
 * the song's title run through a `trimIndent` template, the song's path
 * and a blank line. The index printed is `indexOf(song)`, which compares
 * songs by id.
 */
module ImportExport {
  import opened Common
  import opened Songs

  // ---------------------------------------------------------------------
  // Kotlin's lines() and trimIndent()
  // ---------------------------------------------------------------------

  predicate IsLineBreak(c: char) {
    c == '\n' || c == '\r'
  }

  predicate NoBreaks(s: string) {
    forall i | 0 <= i < |s| :: !IsLineBreak(s[i])
  }

  /** `lines()`: split at "\r\n", "\n" and "\r", keeping empty lines. */
  function Lines(s: string): (lines: seq<string>)
    ensures |lines| >= 1
    ensures forall i | 0 <= i < |lines| :: NoBreaks(lines[i])
    decreases |s|
  {
    if |s| == 0 then [""]
    else if s[0] == '\r' && |s| > 1 && s[1] == '\n' then [""] + Lines(s[2..])
    else if IsLineBreak(s[0]) then [""] + Lines(s[1..])
    else
      var rest := Lines(s[1..]);
      [[s[0]] + rest[0]] + rest[1..]
  }

  lemma {:induction false} LinesNoBreak(a: string)
    requires NoBreaks(a)
    ensures Lines(a) == [a]
    decreases |a|
  {
    if |a| > 0 {
      LinesNoBreak(a[1..]);
      assert [a[0]] + a[1..] == a;
    }
  }

  lemma {:induction false} LinesAtNewline(a: string, b: string)
    requires NoBreaks(a)
    ensures Lines(a + "\n" + b) == [a] + Lines(b)
    decreases |a|
  {
    var s := a + "\n" + b;
    if |a| == 0 {
      assert s[1..] == b;
    } else {
      assert s[1..] == a[1..] + "\n" + b;
      LinesAtNewline(a[1..], b);
      assert [a[0]] + a[1..] == a;
    }
  }

  /** `indentWidth`: the number of leading whitespace characters. */
  function IndentWidth(line: string): (w: nat)
    ensures w <= |line|
    ensures IsBlank(line[..w])
    ensures w < |line| ==> !IsWhitespace(line[w])
  {
    |line| - |TrimStart(line)|
  }

  /** The smallest indent among the non-blank lines, if there is one. */
  function MinIndent(lines: seq<string>): (m: Option<nat>)
    ensures m.None? ==> forall i | 0 <= i < |lines| :: IsBlank(lines[i])
    decreases |lines|
  {
    if |lines| == 0 then None
    else
      var rest := MinIndent(lines[1..]);
      if IsBlank(lines[0]) then
        assert forall i | 1 <= i < |lines| :: lines[i] == lines[1..][i - 1];
        rest
      else
        var w := IndentWidth(lines[0]);
        if rest.None? || w <= rest.value then Some(w) else rest
  }

  /** The minimum is absent only when every line is blank, is at most the
      indent of every non-blank line, and is the indent of one of them. */
  lemma {:induction false} MinIndentIsLeast(lines: seq<string>)
    ensures MinIndent(lines).None? <==> forall i | 0 <= i < |lines| :: IsBlank(lines[i])
    ensures MinIndent(lines).Some? ==>
      forall i | 0 <= i < |lines| && !IsBlank(lines[i]) :: MinIndent(lines).value <= IndentWidth(lines[i])
    ensures MinIndent(lines).Some? ==>
      exists i | 0 <= i < |lines| :: !IsBlank(lines[i]) && MinIndent(lines).value == IndentWidth(lines[i])
    decreases |lines|
  {
    if |lines| > 0 {
      var tail := lines[1..];
      MinIndentIsLeast(tail);
      var rest := MinIndent(tail);
      assert forall i | 1 <= i < |lines| :: lines[i] == tail[i - 1];
      if rest.Some? {
        var j :| 0 <= j < |tail| && !IsBlank(tail[j]) && rest.value == IndentWidth(tail[j]);
        assert lines[j + 1] == tail[j];
      }
    }
  }

  /** `drop(n)`. */
  function Drop(s: string, n: nat): (r: string)
    ensures r == if n < |s| then s[n..] else ""
  {
    if n < |s| then s[n..] else ""
  }

  /** The re-indented lines, first and last dropped when blank. */
  function Reindent(lines: seq<string>, cut: nat, i: nat): (r: seq<string>)
    requires i <= |lines|
    decreases |lines| - i
  {
    if i == |lines| then []
    else if (i == 0 || i == |lines| - 1) && IsBlank(lines[i]) then Reindent(lines, cut, i + 1)
    else [Drop(lines[i], cut)] + Reindent(lines, cut, i + 1)
  }

  /** `trimIndent()`: drop a blank first and last line, remove the common
      indent of the non-blank lines from every line, join with "\n". */
  function TrimIndent(s: string): (r: string)
    ensures NoBreaks(s) ==> r == if IsBlank(s) then "" else TrimStart(s)
  {
    var lines := Lines(s);
    OneLineReindent(s);
    JoinWith(Reindent(lines, MinIndent(lines).GetOr(0), 0), '\n')
  }

  /** A single line is its own only line: blank, it is dropped; otherwise
      its whole indent is the common one. */
  lemma OneLineReindent(s: string)
    ensures NoBreaks(s) ==>
      JoinWith(Reindent(Lines(s), MinIndent(Lines(s)).GetOr(0), 0), '\n') == if IsBlank(s) then "" else TrimStart(s)
  {
    if NoBreaks(s) {
      LinesNoBreak(s);
      var lines := [s];
      if IsBlank(s) {
        assert MinIndent(lines) == None;
        assert Reindent(lines, 0, 1) == [];
      } else {
        var w := IndentWidth(s);
        assert MinIndent(lines) == Some(w);
        assert Reindent(lines, w, 1) == [];
        assert Reindent(lines, w, 0) == [Drop(s, w)];
      }
    }
  }

  // ---------------------------------------------------------------------
  // The export
  // ---------------------------------------------------------------------

  /** The four spaces of indentation in the raw-string template. */
  const Pad: string := "    "

  lemma PadFacts()
    ensures |Pad| == 4 && IsBlank(Pad) && NoBreaks(Pad) && Lines(Pad) == [Pad]
  {
    LinesNoBreak(Pad);
  }

  /** The raw-string template around the title: a line break, the title
      indented by four spaces, a line of four spaces, and a last line of
      four spaces. */
  function TitleTemplate(title: string): string {
    "\n" + Pad + title + "\n" + Pad + "\n" + Pad
  }

  /** The lines of the template around a title without line breaks. */
  function TemplateLines(title: string): seq<string> {
    ["", Pad + title, Pad, Pad]
  }

  lemma LinesOfTemplate(title: string)
    requires NoBreaks(title)
    ensures Lines(TitleTemplate(title)) == TemplateLines(title)
  {
    PadFacts();
    var t := Pad + title;
    assert NoBreaks(t) by {
      forall i | 0 <= i < |t| ensures !IsLineBreak(t[i]) {
        if i >= 4 { assert t[i] == title[i - 4]; }
      }
    }
    var tail2 := Pad + "\n" + Pad;
    var tail1 := t + "\n" + tail2;
    assert TitleTemplate(title) == "" + "\n" + tail1;
    LinesAtNewline("", tail1);
    LinesAtNewline(t, tail2);
    LinesAtNewline(Pad, Pad);
  }

  /** The indent width is the one position where a blank prefix meets a
      non-whitespace character (or the end). */
  lemma IndentWidthUnique(line: string, v: nat)
    requires v <= |line| && IsBlank(line[..v]) && (v < |line| ==> !IsWhitespace(line[v]))
    ensures IndentWidth(line) == v
  {
  }

  lemma LeadingBlank(pad: string, title: string)
    requires IsBlank(pad)
    ensures IsBlank((pad + title)[..|pad| + IndentWidth(title)])
  {
    var t := pad + title;
    var w := IndentWidth(title);
    var lead := t[..|pad| + w];
    var tl := title[..w];
    forall i | 0 <= i < |pad| + w ensures IsWhitespace(lead[i]) {
      if i >= |pad| { assert lead[i] == tl[i - |pad|]; } else { assert lead[i] == pad[i]; }
    }
  }

  /** Indenting a non-blank line by a blank prefix adds the prefix's
      length to its indent, and dropping the new indent gives the line
      without its own leading whitespace. */
  lemma IndentOfIndented(pad: string, title: string)
    requires IsBlank(pad) && !IsBlank(title)
    ensures IndentWidth(pad + title) == |pad| + IndentWidth(title)
    ensures Drop(pad + title, |pad| + IndentWidth(title)) == TrimStart(title)
  {
    IndentOfIndentedWidth(pad, title);
    DropIndent(pad, title);
  }

  lemma IndentOfIndentedWidth(pad: string, title: string)
    requires IsBlank(pad) && !IsBlank(title)
    ensures IndentWidth(pad + title) == |pad| + IndentWidth(title)
  {
    var t := pad + title;
    var w := IndentWidth(title);
    assert w < |title|;
    assert t[|pad| + w] == title[w];
    LeadingBlank(pad, title);
    IndentWidthUnique(t, |pad| + w);
  }

  lemma DropIndent(pad: string, title: string)
    ensures Drop(pad + title, |pad| + IndentWidth(title)) == TrimStart(title)
  {
    var w := IndentWidth(title);
    assert (pad + title)[|pad| + w..] == title[w..];
  }

  lemma MinIndentOfTemplate(title: string)
    ensures !IsBlank(title) ==> MinIndent(TemplateLines(title)) == Some(IndentWidth(Pad + title))
    ensures IsBlank(title) ==> MinIndent(TemplateLines(title)) == None
  {
    PadFacts();
    var lines := TemplateLines(title);
    assert IsBlank(title) <==> IsBlank(Pad + title) by {
      var t := Pad + title;
      assert forall i | 0 <= i < |title| :: t[4 + i] == title[i];
    }
    MinIndentIsLeast([Pad, Pad]);
    assert lines[1..] == [Pad + title, Pad, Pad];
    assert lines[1..][1..] == [Pad, Pad];
  }

  lemma ReindentTemplate(title: string, cut: nat)
    ensures Reindent(TemplateLines(title), cut, 0) == [Drop(Pad + title, cut), Drop(Pad, cut)]
  {
    PadFacts();
    var lines := TemplateLines(title);
    assert Reindent(lines, cut, 3) == [];
    assert Reindent(lines, cut, 2) == [Drop(Pad, cut)];
    assert Reindent(lines, cut, 1) == [Drop(Pad + title, cut), Drop(Pad, cut)];
  }

  lemma JoinTwo(a: string, b: string)
    ensures JoinWith([a, b], '\n') == a + "\n" + b
  {
    assert [a, b][1..] == [b];
  }

  /** For a non-blank title without line breaks the template reduces to
      the title without its leading whitespace, followed by one line
      break. */
  lemma TrimIndentOfTitle(title: string)
    requires NoBreaks(title) && !IsBlank(title)
    ensures TrimIndent(TitleTemplate(title)) == TrimStart(title) + "\n"
  {
    LinesOfTemplate(title);
    MinIndentOfTemplate(title);
    PadFacts();
    IndentOfIndented(Pad, title);
    var w := 4 + IndentWidth(title);
    ReindentTemplate(title, w);
    assert Drop(Pad, w) == "";
    JoinTwo(TrimStart(title), "");
  }

  /** A blank title has no indent to remove: the two four-space lines
      around it survive. */
  lemma TrimIndentOfBlankTitle(title: string)
    requires NoBreaks(title) && IsBlank(title)
    ensures TrimIndent(TitleTemplate(title)) == Pad + title + "\n" + Pad
  {
    LinesOfTemplate(title);
    MinIndentOfTemplate(title);
    ReindentTemplate(title, 0);
    JoinTwo(Pad + title, Pad);
  }

  /** `songList.indexOf(s)`: the first position holding a song equal to
      `s` (same id), or -1. */
  function IndexOf(songs: seq<Song>, s: Song): (r: int)
    ensures -1 <= r < |songs|
    ensures r == -1 <==> forall j | 0 <= j < |songs| :: songs[j].songId != s.songId
    ensures r >= 0 ==> songs[r].songId == s.songId && forall j | 0 <= j < r :: songs[j].songId != s.songId
    decreases |songs|
  {
    if |songs| == 0 then -1
    else if SongEquals(s, Some(songs[0])) then 0
    else
      var r := IndexOf(songs[1..], s);
      assert forall j | 1 <= j < |songs| :: songs[j] == songs[1..][j - 1];
      if r == -1 then -1 else r + 1
  }

  const ExportHeader: string := "#EXTM3U"
  const InfoTag: string := "#EXTINF:"

  /** The text written for the song at position `i`. */
  function EntryText(songs: seq<Song>, i: nat): string
    requires i < |songs|
  {
    var s := songs[i];
    InfoTag + IntToString(IndexOf(songs, s)) + ", " + TrimIndent(TitleTemplate(s.title)) + s.file + "\n\n"
  }

  /** The entries of the songs from position `i` on, in list order. */
  function EntriesFrom(songs: seq<Song>, i: nat): string
    requires i <= |songs|
    decreases |songs| - i
  {
    if i == |songs| then "" else EntryText(songs, i) + EntriesFrom(songs, i + 1)
  }

  /** The text `m3uConverter` writes. */
  function ExportText(songs: seq<Song>): (text: string)
    ensures StartsWith(text, ExportHeader + "\n\n")
  {
    var text := ExportHeader + "\n\n" + EntriesFrom(songs, 0);
    assert text[..|ExportHeader + "\n\n"|] == ExportHeader + "\n\n";
    text
  }

  /** The index printed for position `i` is `i` itself exactly when no
      earlier song has the same id; otherwise it is the earlier position. */
  lemma PrintedIndex(songs: seq<Song>, i: nat)
    requires i < |songs|
    ensures 0 <= IndexOf(songs, songs[i]) <= i
    ensures IndexOf(songs, songs[i]) == i <==> forall j | 0 <= j < i :: songs[j].songId != songs[i].songId
  {
  }

  /** Songs with pairwise distinct ids are numbered by their positions. */
  lemma DistinctSongsNumberedInOrder(songs: seq<Song>)
    requires forall j, k | 0 <= j < k < |songs| :: songs[j].songId != songs[k].songId
    ensures forall i | 0 <= i < |songs| :: IndexOf(songs, songs[i]) == i
  {
  }

  /** The title line written for position `i` of a song with an ordinary
      title (not blank, no line break). */
  function InfoLine(songs: seq<Song>, i: nat): string
    requires i < |songs|
  {
    InfoTag + IntToString(IndexOf(songs, songs[i])) + ", " + TrimStart(songs[i].title)
  }

  predicate Ordinary(s: Song) {
    NoBreaks(s.title) && !IsBlank(s.title) && NoBreaks(s.file)
  }

  /** The lines of the entries from `i` on: info line, path, blank line. */
  function BodyLinesFrom(songs: seq<Song>, i: nat): (lines: seq<string>)
    requires i <= |songs|
    ensures |lines| == 3 * (|songs| - i)
    decreases |songs| - i
  {
    if i == |songs| then [] else [InfoLine(songs, i), songs[i].file, ""] + BodyLinesFrom(songs, i + 1)
  }

  lemma NoBreaksConcat(a: string, b: string)
    requires NoBreaks(a) && NoBreaks(b)
    ensures NoBreaks(a + b)
  {
    forall k | 0 <= k < |a + b| ensures !IsLineBreak((a + b)[k]) {
      if k >= |a| { assert (a + b)[k] == b[k - |a|]; }
    }
  }

  lemma NoBreaksInTrimStart(s: string)
    requires NoBreaks(s)
    ensures NoBreaks(TrimStart(s))
  {
    var t := TrimStart(s);
    assert forall k | 0 <= k < |t| :: t[k] == s[|s| - |t| + k];
  }

  lemma NoBreaksInDigits(s: string)
    requires AllDigits(s)
    ensures NoBreaks(s)
  {
  }

  lemma IntToStringNoBreaks(i: int)
    ensures NoBreaks(IntToString(i))
  {
    if i >= 0 {
      NoBreaksInDigits(NatToString(i));
    } else {
      assert IntToString(i) == "-" + NatToString(-i);
      NoBreaksInDigits(NatToString(-i));
      NoBreaksConcat("-", NatToString(-i));
    }
  }

  lemma NoBreaksInInfoLine(songs: seq<Song>, i: nat)
    requires i < |songs| && Ordinary(songs[i])
    ensures NoBreaks(InfoLine(songs, i))
  {
    var d := IntToString(IndexOf(songs, songs[i]));
    var t := TrimStart(songs[i].title);
    IntToStringNoBreaks(IndexOf(songs, songs[i]));
    NoBreaksInTrimStart(songs[i].title);
    assert NoBreaks(InfoTag) && NoBreaks(", ");
    NoBreaksConcat(InfoTag, d);
    NoBreaksConcat(InfoTag + d, ", ");
    NoBreaksConcat(InfoTag + d + ", ", t);
  }

  /** An ordinary song's entry is its info line, a line break, its path
      and two line breaks. */
  lemma EntryShape(songs: seq<Song>, i: nat)
    requires i < |songs| && Ordinary(songs[i])
    ensures EntryText(songs, i) == InfoLine(songs, i) + "\n" + songs[i].file + "\n\n"
  {
    var p := InfoTag + IntToString(IndexOf(songs, songs[i])) + ", ";
    var x := TrimStart(songs[i].title);
    TrimIndentOfTitle(songs[i].title);
    assert EntryText(songs, i) == p + (x + "\n") + songs[i].file + "\n\n";
    Regroup(p, x, songs[i].file);
  }

  lemma Regroup(p: string, x: string, f: string)
    ensures p + (x + "\n") + f + "\n\n" == (p + x) + "\n" + f + "\n\n"
  {
  }

  lemma LinesOfEntry(a: string, b: string, rest: string)
    requires NoBreaks(a) && NoBreaks(b)
    ensures Lines(a + "\n" + b + "\n\n" + rest) == [a, b, ""] + Lines(rest)
  {
    var tail2 := "" + "\n" + rest;
    var tail1 := b + "\n" + tail2;
    assert a + "\n" + b + "\n\n" + rest == a + "\n" + tail1;
    LinesAtNewline(a, tail1);
    LinesAtNewline(b, tail2);
    LinesAtNewline("", rest);
  }

  lemma {:induction false} EntriesLines(songs: seq<Song>, i: nat)
    requires i <= |songs|
    requires forall j | 0 <= j < |songs| :: Ordinary(songs[j])
    ensures Lines(EntriesFrom(songs, i)) == BodyLinesFrom(songs, i) + [""]
    decreases |songs| - i
  {
    if i == |songs| {
      LinesNoBreak("");
    } else {
      var file := songs[i].file;
      var info := InfoLine(songs, i);
      var rest := EntriesFrom(songs, i + 1);
      EntryShape(songs, i);
      NoBreaksInInfoLine(songs, i);
      EntriesLines(songs, i + 1);
      LinesOfEntry(info, file, rest);
    }
  }

  lemma HeaderLines(body: string)
    ensures Lines(ExportHeader + "\n\n" + body) == [ExportHeader, ""] + Lines(body)
  {
    var tail := "" + "\n" + body;
    assert ExportHeader + "\n\n" + body == ExportHeader + "\n" + tail;
    assert NoBreaks(ExportHeader);
    LinesAtNewline(ExportHeader, tail);
    LinesAtNewline("", body);
  }

  /** Reading the export back line by line: the header, a blank line, then
      for every song in list order its "#EXTINF:<index>, <title>" line, its
      path and a blank line, and the empty tail after the last break. */
  lemma ExportRoundTrip(songs: seq<Song>)
    requires forall j | 0 <= j < |songs| :: Ordinary(songs[j])
    ensures Lines(ExportText(songs)) == [ExportHeader, ""] + BodyLinesFrom(songs, 0) + [""]
  {
    EntriesLines(songs, 0);
    HeaderRoundTrip(EntriesFrom(songs, 0), BodyLinesFrom(songs, 0));
  }

  lemma HeaderRoundTrip(body: string, bodyLines: seq<string>)
    requires Lines(body) == bodyLines + [""]
    ensures Lines(ExportHeader + "\n\n" + body) == [ExportHeader, ""] + bodyLines + [""]
  {
    HeaderLines(body);
  }
}

=== FILE: manifest.dfy ===
/**
 * The M3U manifest the playlist service writes after its conversion loop:
 * a "#EXTM3U" header line, then for every saved path, in order, an
 * "#EXTINF:-1,<name without extension>" line followed by the bare file name.
 */
module Manifest {
  import opened Common

  const Header: string := "#EXTM3U"
  const InfoPrefix: string := "#EXTINF:-1,"

  /** `File(path).name`: the text after the last '/'. */
  function FileName(path: string): (name: string)
    ensures '/' !in name
    ensures |name| <= |path| && name == path[|path| - |name|..]
    ensures |name| < |path| ==> path[|path| - |name| - 1] == '/'
    ensures '/' !in path ==> name == path
  {
    match LastIndexOf(path, '/')
    case None => path
    case Some(k) =>
      var name := path[k + 1..];
      assert forall j | 0 <= j < |name| :: name[j] == path[k + 1 + j];
      name
  }

  /** `File.nameWithoutExtension`: the name up to (not including) its last
      '.', or the whole name when it has none. */
  function NameWithoutExtension(name: string): (stem: string)
    ensures |stem| <= |name| && stem == name[..|stem|]
    ensures '.' !in name ==> stem == name
    ensures '.' in name ==> |stem| < |name| && name[|stem|] == '.' && '.' !in name[|stem| + 1..]
  {
    match LastIndexOf(name, '.')
    case None => name
    case Some(k) =>
      var tail := name[k + 1..];
      assert forall j | 0 <= j < |tail| :: tail[j] == name[k + 1 + j];
      name[..k]
  }

  /** The two lines one saved path contributes. */
  function EntryLines(path: string): (lines: seq<string>)
    ensures |lines| == 2 && StartsWith(lines[0], InfoPrefix)
  {
    var name := FileName(path);
    var info := InfoPrefix + NameWithoutExtension(name);
    assert info[..|InfoPrefix|] == InfoPrefix;
    [info, name]
  }

  /** The body appended after the header, one entry per path in order. */
  function Entries(paths: seq<string>): string
    decreases |paths|
  {
    if |paths| == 0 then ""
    else
      var e := EntryLines(paths[0]);
      e[0] + "\n" + e[1] + "\n" + Entries(paths[1..])
  }

  /** The text handed to `writeText`. */
  function ManifestText(paths: seq<string>): (text: string)
    ensures StartsWith(text, Header + "\n")
  {
    var text := Header + "\n" + Entries(paths);
    assert text[..|Header + "\n"|] == Header + "\n";
    text
  }

  /** No line of the manifest contains a line break when no saved path does. */
  predicate NoLineBreaks(paths: seq<string>) {
    forall i | 0 <= i < |paths| :: '\n' !in paths[i]
  }

  /** The lines of the entries, one pair per path in order. */
  function BodyLines(paths: seq<string>): (lines: seq<string>)
    ensures |lines| == 2 * |paths|
    decreases |paths|
  {
    if |paths| == 0 then [] else EntryLines(paths[0]) + BodyLines(paths[1..])
  }

  /** The manifest as a list of lines, header first. */
  function ManifestLines(paths: seq<string>): (lines: seq<string>)
    ensures |lines| == 1 + 2 * |paths| && lines[0] == Header
  {
    [Header] + BodyLines(paths)
  }

  lemma EntryLinesNoBreak(path: string)
    requires '\n' !in path
    ensures '\n' !in EntryLines(path)[0] && '\n' !in EntryLines(path)[1]
  {
    var name := FileName(path);
    var stem := NameWithoutExtension(name);
    NotInSlice(path, '\n', |path| - |name|, |path|);
    NotInSlice(name, '\n', 0, |stem|);
    NotInConcat(InfoPrefix, stem, '\n');
  }

  lemma SplitEntry(a: string, b: string, rest: string)
    requires '\n' !in a && '\n' !in b
    ensures SplitOn(a + "\n" + b + "\n" + rest, '\n') == [a, b] + SplitOn(rest, '\n')
  {
    assert a + "\n" + b + "\n" + rest == a + ['\n'] + (b + ['\n'] + rest);
    SplitAtSep(a, b + ['\n'] + rest, '\n');
    SplitAtSep(b, rest, '\n');
  }

  lemma {:induction false} SplitEntries(paths: seq<string>)
    requires NoLineBreaks(paths)
    ensures SplitOn(Entries(paths), '\n') == BodyLines(paths) + [""]
    decreases |paths|
  {
    if |paths| > 0 {
      var e := EntryLines(paths[0]);
      EntryLinesNoBreak(paths[0]);
      assert NoLineBreaks(paths[1..]) by {
        forall i | 0 <= i < |paths[1..]| ensures '\n' !in paths[1..][i] {
          assert paths[1..][i] == paths[i + 1];
        }
      }
      SplitEntries(paths[1..]);
      SplitEntry(e[0], e[1], Entries(paths[1..]));
    } else {
      assert SplitOn("", '\n') == [""];
    }
  }

  /** Reading the manifest back line by line gives the header, the two
      lines of every saved path in order, and the empty tail after the
      final line break. */
  lemma ManifestRoundTrip(paths: seq<string>)
    requires NoLineBreaks(paths)
    ensures SplitOn(ManifestText(paths), '\n') == ManifestLines(paths) + [""]
  {
    SplitEntries(paths);
    SplitHeader(Entries(paths), BodyLines(paths));
  }

  lemma SplitHeader(body: string, bodyLines: seq<string>)
    requires SplitOn(body, '\n') == bodyLines + [""]
    ensures SplitOn(Header + "\n" + body, '\n') == [Header] + bodyLines + [""]
  {
    assert Header + "\n" + body == Header + ['\n'] + body;
    SplitAtSep(Header, body, '\n');
  }

  /** Number of lines that start with "#EXTINF:". */
  function CountInfoLines(lines: seq<string>): nat
    decreases |lines|
  {
    if |lines| == 0 then 0
    else (if StartsWith(lines[0], "#EXTINF:") then 1 else 0) + CountInfoLines(lines[1..])
  }

  lemma {:induction false} CountInfoLinesAppend(a: seq<string>, b: seq<string>)
    ensures CountInfoLines(a + b) == CountInfoLines(a) + CountInfoLines(b)
    decreases |a|
  {
    if |a| > 0 {
      CountInfoLinesAppend(a[1..], b);
      assert (a + b)[1..] == a[1..] + b;
    } else {
      assert a + b == b;
    }
  }

  lemma CountEntry(path: string)
    requires !StartsWith(FileName(path), "#EXTINF:")
    ensures CountInfoLines(EntryLines(path)) == 1
  {
    var e := EntryLines(path);
    assert e[0][..|InfoPrefix|] == InfoPrefix;
    assert e[0][..8] == e[0][..|InfoPrefix|][..8];
    assert StartsWith(e[0], "#EXTINF:");
    assert e[1..] == [e[1]];
    assert CountInfoLines([e[1]]) == 0 by {
      assert [e[1]][1..] == [];
    }
  }

  lemma {:induction false} CountBody(paths: seq<string>)
    requires forall i | 0 <= i < |paths| :: !StartsWith(FileName(paths[i]), "#EXTINF:")
    ensures CountInfoLines(BodyLines(paths)) == |paths|
    decreases |paths|
  {
    if |paths| > 0 {
      var tail := paths[1..];
      assert forall i | 0 <= i < |tail| :: tail[i] == paths[i + 1];
      CountBody(tail);
      CountInfoLinesAppend(EntryLines(paths[0]), BodyLines(tail));
      CountEntry(paths[0]);
    }
  }

  /** There is exactly one "#EXTINF" line per saved path, provided no saved
      file name itself starts with "#EXTINF:". */
  lemma InfoLinePerPath(paths: seq<string>)
    requires forall i | 0 <= i < |paths| :: !StartsWith(FileName(paths[i]), "#EXTINF:")
    ensures CountInfoLines(ManifestLines(paths)) == |paths|
  {
    CountBody(paths);
    var lines := ManifestLines(paths);
    assert lines[1..] == BodyLines(paths);
    assert !StartsWith(Header, "#EXTINF:");
  }
}

=== FILE: pipeline.dfy ===
/**
 * The playlist conversion service. A job fetches the playlist, fills the
 * shared queue with one WAITING item per video, then processes the items in
 * order: each goes CONVERTING and ends COMPLETED, FAILED or (when a
 * cancel-all lands) CANCELLED. Saved paths are collected and written out as
 * an M3U manifest at the end.
 *
 * Everything the service asks of the outside world (playlist and stream
 * lookup, FFmpeg, the media store, the clock, the moment a cancel-all
 * arrives) is an input: `JobWorld` for the job, `ItemWorld` per video.
 */
module Pipeline {
  import opened Common
  import opened Sanitize
  import opened ConversionItems
  import Manifest

  // ---------------------------------------------------------------------
  // Inputs and state
  // ---------------------------------------------------------------------

  /** The `ACTION` extra of a progress broadcast; `UpdateItem` carries `INDEX`. */
  datatype Action = QueueReady | UpdateItem(index: nat) | UpdateAll | ConversionFinished

  datatype AudioStream = AudioStream(url: Option<string>, bitrate: int)

  datatype StreamInfo = StreamInfo(name: Option<string>, audioStreams: seq<AudioStream>)

  /** What the outside world does while one video is processed. */
  datatype ItemWorld = ItemWorld(
    streamInfo: Attempt<StreamInfo>,  // StreamInfo.getInfo(url)
    exitCode: Attempt<int>,           // FFmpeg.execute(command)
    saved: bool,                      // saveFile got as far as returning a path
    convertStamp: string,             // "yyyyMMdd_HHmm" sampled by convertToMp3
    saveStamp: string)                // "yyyyMMdd_HHmm" sampled by saveFile

  /** One related item of the playlist, with the millis read when its queue
      id was built and the world it meets when processed. */
  datatype PlaylistEntry = PlaylistEntry(name: Option<string>, url: string, enqueueMillis: nat, world: ItemWorld)

  datatype PlaylistInfo = PlaylistInfo(name: Option<string>, relatedItems: seq<PlaylistEntry>)

  /** What the outside world does during one job. `cancelAt == Some(k)` means
      a cancel-all is handled just before the loop's activity check for
      item k. */
  datatype JobWorld = JobWorld(
    playlist: Attempt<PlaylistInfo>,  // PlaylistInfo.getInfo(url)
    nowMillis: nat,                   // System.currentTimeMillis() for the name fallback
    musicDir: string,                 // the public Music directory
    cacheDir: string,
    manifestWritten: bool,            // writeText of the .m3u succeeded
    cancelAt: Option<nat>)

  datatype M3UFile = M3UFile(path: string, content: string)

  datatype Service = Service(
    jobActive: bool,                  // mainConversionJob?.isActive == true
    queue: seq<ConversionItem>,       // the companion conversionQueue
    playlistSongs: seq<string>,
    playlistName: Option<string>,
    playlistFolder: Option<string>,
    events: seq<Action>,              // broadcasts sent, oldest first
    notification: string,             // text of the last notification posted
    manifests: seq<M3UFile>,          // .m3u files written
    leftoverTemps: seq<string>,       // cache files the service never deletes
    stopRequested: bool)              // stopSelf() was called

  // ---------------------------------------------------------------------
  // Best stream: Kotlin maxByOrNull over bitrate
  // ---------------------------------------------------------------------

  /** `k` is the earliest position holding the largest bitrate. */
  predicate IsFirstMax(streams: seq<AudioStream>, k: nat) {
    k < |streams|
    && (forall j | 0 <= j < |streams| :: streams[j].bitrate <= streams[k].bitrate)
    && (forall j | 0 <= j < k :: streams[j].bitrate < streams[k].bitrate)
  }

  /** The scan `maxByOrNull` performs: replace the candidate only on a
      strictly larger value. */
  function ScanMax(streams: seq<AudioStream>, best: nat, i: nat): (k: nat)
    requires best < i <= |streams|
    requires forall j | 0 <= j < i :: streams[j].bitrate <= streams[best].bitrate
    requires forall j | 0 <= j < best :: streams[j].bitrate < streams[best].bitrate
    ensures IsFirstMax(streams, k)
    decreases |streams| - i
  {
    if i == |streams| then best
    else if streams[best].bitrate < streams[i].bitrate then ScanMax(streams, i, i + 1)
    else ScanMax(streams, best, i + 1)
  }

  function BestIndex(streams: seq<AudioStream>): (r: Option<nat>)
    ensures r.None? <==> |streams| == 0
    ensures r.Some? ==> IsFirstMax(streams, r.value)
  {
    if |streams| == 0 then None else Some(ScanMax(streams, 0, 1))
  }

  /** `audioStreams.maxByOrNull { it.bitrate }`. */
  function BestAudio(streams: seq<AudioStream>): (r: Option<AudioStream>)
    ensures r.None? <==> |streams| == 0
    ensures r.Some? ==> exists k: nat | IsFirstMax(streams, k) :: r.value == streams[k]
  {
    match BestIndex(streams)
    case None => None
    case Some(k) => Some(streams[k])
  }

  /** There is only one earliest maximum, so the choice is determined. */
  lemma FirstMaxUnique(streams: seq<AudioStream>, a: nat, b: nat)
    requires IsFirstMax(streams, a) && IsFirstMax(streams, b)
    ensures a == b
  {
    assert streams[b].bitrate <= streams[a].bitrate && streams[a].bitrate <= streams[b].bitrate;
  }

  // ---------------------------------------------------------------------
  // Queue population
  // ---------------------------------------------------------------------

  /** `"${System.currentTimeMillis()}_$index"`. */
  function ItemId(millis: nat, index: nat): string {
    NatToString(millis) + "_" + NatToString(index)
  }

  /** `item.name ?: "Unknown ${index + 1}"`. */
  function EntryTitle(name: Option<string>, index: nat): string {
    match name
    case Some(n) => n
    case None => "Unknown " + NatToString(index + 1)
  }

  function QueueItem(entries: seq<PlaylistEntry>, i: nat): ConversionItem
    requires i < |entries|
  {
    NewItem(ItemId(entries[i].enqueueMillis, i), EntryTitle(entries[i].name, i), entries[i].url, Waiting)
  }

  /** The cleared queue refilled with one WAITING item per related item. */
  function Populate(entries: seq<PlaylistEntry>): (q: seq<ConversionItem>)
    ensures |q| == |entries|
    ensures forall i | 0 <= i < |q| :: q[i] == QueueItem(entries, i)
    ensures forall i | 0 <= i < |q| ::
      q[i].status == Waiting && q[i].url == entries[i].url && q[i].progress == "" && q[i].job == None
  {
    seq(|entries|, i requires 0 <= i < |entries| => QueueItem(entries, i))
  }

  lemma NoUnderscoreInDigits(n: nat)
    ensures '_' !in NatToString(n)
  {
  }

  /** An id splits at its '_' back into the millis and the index. */
  lemma ItemIdRoundTrip(millis: nat, index: nat)
    ensures SplitOn(ItemId(millis, index), '_') == [NatToString(millis), NatToString(index)]
    ensures DigitsValue(NatToString(millis)) == millis && DigitsValue(NatToString(index)) == index
  {
    NoUnderscoreInDigits(millis);
    NoUnderscoreInDigits(index);
    var parts := [NatToString(millis), NatToString(index)];
    assert JoinWith(parts, '_') == ItemId(millis, index) by {
      assert parts[1..] == [NatToString(index)];
    }
    SplitJoin(parts, '_');
    NatToStringValue(millis);
    NatToStringValue(index);
  }

  /** Items at different positions get different ids, whatever the clock
      reads. */
  lemma ItemIdsDistinct(m1: nat, i: nat, m2: nat, j: nat)
    requires i != j
    ensures ItemId(m1, i) != ItemId(m2, j)
  {
    ItemIdRoundTrip(m1, i);
    ItemIdRoundTrip(m2, j);
    if ItemId(m1, i) == ItemId(m2, j) {
      NatToStringInjective(i, j);
    }
  }

  lemma PopulateIdsDistinct(entries: seq<PlaylistEntry>)
    ensures var q := Populate(entries);
      forall i, j | 0 <= i < j < |q| :: q[i].id != q[j].id
  {
    var q := Populate(entries);
    forall i, j | 0 <= i < j < |q| ensures q[i].id != q[j].id {
      ItemIdsDistinct(entries[i].enqueueMillis, i, entries[j].enqueueMillis, j);
    }
  }

  // ---------------------------------------------------------------------
  // One item
  // ---------------------------------------------------------------------

  /** The item's status and progress text at one UPDATE_ITEM broadcast. */
  datatype ItemView = ItemView(status: ConversionStatus, progress: string)

  const Fetching: ItemView := ItemView(Converting, "Fetching stream info...")
  const Encoding: ItemView := ItemView(Converting, "Converting to MP3...")
  const SavedText: string := "\U{2705} Saved successfully!"

  /** What processing one item shows and leaves behind: whether it got as far
      as "Converting to MP3...", its final state, the path it was saved under
      and a temporary file the pipeline leaves in the cache. */
  datatype Outcome = Outcome(encoded: bool, final: ItemView, saved: Option<string>, leftover: Option<string>)

  /** The item's states at its UPDATE_ITEM broadcasts, in order. */
  function Shown(o: Outcome): (views: seq<ItemView>)
    ensures 2 <= |views| <= 3 && views[0] == Fetching && views[|views| - 1] == o.final
    ensures |views| == 3 <==> o.encoded
  {
    [Fetching] + (if o.encoded then [Encoding] else []) + [o.final]
  }

  function Mp3Path(dir: string, stem: string): string {
    dir + "/" + stem + ".mp3"
  }

  /** `"Error: ${e.message}"`. */
  function ErrorText(m: Option<string>): string {
    "Error: " + MessageText(m)
  }

  /** True when the stream lookup yields a best stream that has a URL. */
  predicate HasPlayableStream(w: ItemWorld) {
    w.streamInfo.Ok?
    && var best := BestAudio(w.streamInfo.value.audioStreams);
       best.Some? && best.value.url.Some?
  }

  /** The title used for file names: `streamInfo.name ?: "Unknown"`. */
  function StreamTitle(info: StreamInfo): string {
    info.name.GetOr("Unknown")
  }

  /** The temporary file convertToMp3 writes. */
  function TempPath(cacheDir: string, w: ItemWorld): string
    requires w.streamInfo.Ok?
  {
    Mp3Path(cacheDir, FileStem(Some(StreamTitle(w.streamInfo.value)), w.convertStamp))
  }

  /** The path saveFile returns. */
  function SavedPath(folder: string, w: ItemWorld): string
    requires w.streamInfo.Ok?
  {
    Mp3Path(folder, FileStem(Some(StreamTitle(w.streamInfo.value)), w.saveStamp))
  }

  /** The body of the per-item try/catch, given the folder the service
      saves into and the cache directory of the temporary file. */
  function ItemOutcome(folder: string, cacheDir: string, w: ItemWorld): (o: Outcome)
    ensures o.final.status == Completed || o.final.status == Failed
    ensures o.final.status == Completed <==> o.saved.Some?
    ensures o.encoded <==> HasPlayableStream(w)
    ensures o.saved.Some? ==> w.streamInfo.Ok? && o.saved.value == SavedPath(folder, w)
    ensures o.leftover.Some? ==> w.streamInfo.Ok? && o.leftover.value == TempPath(cacheDir, w)
  {
    match w.streamInfo
    case Threw(m) => Outcome(false, ItemView(Failed, ErrorText(m)), None, None)
    case Ok(info) =>
      if !HasPlayableStream(w) then Outcome(false, ItemView(Failed, "No audio stream found"), None, None)
      else
        match w.exitCode
        case Threw(m) => Outcome(true, ItemView(Failed, ErrorText(m)), None, Some(TempPath(cacheDir, w)))
        case Ok(rc) =>
          if rc != 0 then Outcome(true, ItemView(Failed, "Conversion failed"), None, Some(TempPath(cacheDir, w)))
          else if w.saved then Outcome(true, ItemView(Completed, SavedText), Some(SavedPath(folder, w)), None)
          else Outcome(true, ItemView(Failed, "Failed to save file"), None, None)
  }

  /** An item completes exactly when a stream with a URL is found, FFmpeg
      returns 0 and the save step returns a path. */
  lemma ItemCompletes(folder: string, cacheDir: string, w: ItemWorld)
    ensures ItemOutcome(folder, cacheDir, w).final.status == Completed
            <==> HasPlayableStream(w) && w.exitCode == Ok(0) && w.saved
  {
    var o := ItemOutcome(folder, cacheDir, w);
    if w.streamInfo.Ok? && HasPlayableStream(w) && w.exitCode.Ok? {
      assert o.final.status == Completed <==> w.exitCode.value == 0 && w.saved;
    } else {
      assert o.final.status == Failed;
    }
  }

  /** The failure texts name the step that failed. */
  lemma ItemFailureTexts(folder: string, cacheDir: string, w: ItemWorld)
    ensures var v := ItemOutcome(folder, cacheDir, w).final;
      && (w.streamInfo.Threw? ==> v == ItemView(Failed, ErrorText(w.streamInfo.message)))
      && (w.streamInfo.Ok? && !HasPlayableStream(w) ==> v == ItemView(Failed, "No audio stream found"))
      && (HasPlayableStream(w) && w.exitCode.Threw? ==> v == ItemView(Failed, ErrorText(w.exitCode.message)))
      && (HasPlayableStream(w) && w.exitCode.Ok? && w.exitCode.value != 0
          ==> v == ItemView(Failed, "Conversion failed"))
      && (HasPlayableStream(w) && w.exitCode == Ok(0) && !w.saved
          ==> v == ItemView(Failed, "Failed to save file"))
  {
  }

  /** The temporary file is deleted (by saveFile's finally) exactly when
      FFmpeg returned 0; on a non-zero code or an FFmpeg exception it is
      left in the cache. */
  lemma TempLeftExactlyWhenFFmpegFails(folder: string, cacheDir: string, w: ItemWorld)
    ensures ItemOutcome(folder, cacheDir, w).leftover.Some?
            <==> HasPlayableStream(w) && w.exitCode != Ok(0)
  {
    var o := ItemOutcome(folder, cacheDir, w);
    if !HasPlayableStream(w) {
      assert o.leftover.None?;
    } else if w.exitCode.Threw? || w.exitCode.value != 0 {
      assert o.leftover.Some?;
    } else {
      assert o.leftover.None?;
    }
  }

  /** convertToMp3 and saveFile derive the same file name when their clock
      readings agree, so the saved file carries the temporary file's name. */
  lemma ConvertAndSaveAgree(folder: string, cacheDir: string, w: ItemWorld)
    requires w.convertStamp == w.saveStamp && HasPlayableStream(w) && w.exitCode == Ok(0) && w.saved
    requires '/' !in w.saveStamp
    ensures var o := ItemOutcome(folder, cacheDir, w);
      o.saved.Some? && Manifest.FileName(o.saved.value) == Manifest.FileName(TempPath(cacheDir, w))
  {
    var stem := FileStem(Some(StreamTitle(w.streamInfo.value)), w.saveStamp);
    FileStemShape(Some(StreamTitle(w.streamInfo.value)), w.saveStamp);
    var o := ItemOutcome(folder, cacheDir, w);
    assert o.saved == Some(SavedPath(folder, w));
    assert SavedPath(folder, w) == Mp3Path(folder, stem);
    assert TempPath(cacheDir, w) == Mp3Path(cacheDir, stem);
    Mp3FileName(folder, stem);
    Mp3FileName(cacheDir, stem);
  }

  lemma Mp3FileName(dir: string, stem: string)
    requires '/' !in stem
    ensures Manifest.FileName(Mp3Path(dir, stem)) == stem + ".mp3"
  {
    var p := Mp3Path(dir, stem);
    var name := Manifest.FileName(p);
    var suffix := stem + ".mp3";
    assert p == (dir + "/") + suffix;
    assert '/' !in suffix by {
      NotInConcat(stem, ".mp3", '/');
    }
    assert p[|dir|] == '/';
  }

  function OptionSeq<T>(o: Option<T>): (s: seq<T>)
    ensures |s| == if o.Some? then 1 else 0
  {
    if o.Some? then [o.value] else []
  }

  /** `count` broadcasts of UPDATE_ITEM for `index`. */
  function UpdateEvents(index: nat, count: nat): (es: seq<Action>)
    ensures |es| == count && forall e | e in es :: e == UpdateItem(index)
  {
    seq(count, _ => UpdateItem(index))
  }

  /** The item after the loop body: its final status and progress. */
  function Settle(item: ConversionItem, o: Outcome): ConversionItem {
    Update(item, o.final.status, o.final.progress)
  }

  /** One iteration of the loop body on item `i`, whose try/catch ended
      with outcome `o`: the item is settled, the saved path, the broadcasts
      and any leftover temporary file are recorded. */
  function ProcessItem(s: Service, i: nat, o: Outcome): (r: Service)
    requires i < |s.queue|
    ensures |r.queue| == |s.queue|
    ensures forall j | 0 <= j < |s.queue| && j != i :: r.queue[j] == s.queue[j]
    ensures r.queue[i] == Settle(s.queue[i], o)
    ensures r.playlistSongs == s.playlistSongs + OptionSeq(o.saved)
    ensures r.events == s.events + UpdateEvents(i, |Shown(o)|)
    ensures r.leftoverTemps == s.leftoverTemps + OptionSeq(o.leftover)
    ensures r.playlistFolder == s.playlistFolder && r.playlistName == s.playlistName
    ensures r.manifests == s.manifests && r.notification == s.notification
    ensures r.jobActive == s.jobActive && r.stopRequested == s.stopRequested
  {
    s.(queue := s.queue[i := Settle(s.queue[i], o)],
       playlistSongs := s.playlistSongs + OptionSeq(o.saved),
       events := s.events + UpdateEvents(i, |Shown(o)|),
       leftoverTemps := s.leftoverTemps + OptionSeq(o.leftover))
  }

  // ---------------------------------------------------------------------
  // Cancel-all
  // ---------------------------------------------------------------------

  const CancelledText: string := "Cancelled by user"

  function CancelItem(item: ConversionItem): (r: ConversionItem)
    ensures r.status.IsTerminal()
    ensures item.status.IsTerminal() ==> r == item
    ensures !item.status.IsTerminal() ==> r == Update(item, Cancelled, CancelledText)
  {
    if item.status == Waiting || item.status == Converting then Update(item, Cancelled, CancelledText)
    else item
  }

  function CancelItems(q: seq<ConversionItem>): (r: seq<ConversionItem>)
    ensures |r| == |q|
    ensures forall i | 0 <= i < |q| :: r[i] == CancelItem(q[i])
    decreases |q|
  {
    if |q| == 0 then [] else CancelItems(q[..|q| - 1]) + [CancelItem(q[|q| - 1])]
  }

  /** `cancelAllConversions()`. */
  function CancelAll(s: Service): (r: Service)
    ensures |r.queue| == |s.queue|
    ensures forall i | 0 <= i < |r.queue| :: r.queue[i].status.IsTerminal()
    ensures forall i | 0 <= i < |s.queue| ::
      if s.queue[i].status.IsTerminal() then r.queue[i] == s.queue[i]
      else r.queue[i].status == Cancelled && r.queue[i].progress == CancelledText
           && r.queue[i].id == s.queue[i].id && r.queue[i].title == s.queue[i].title
           && r.queue[i].url == s.queue[i].url
    ensures r.playlistSongs == [] && r.events == s.events + [UpdateAll]
    ensures !r.jobActive && r.stopRequested
    ensures r.playlistName == s.playlistName && r.playlistFolder == s.playlistFolder
    ensures r.manifests == s.manifests && r.leftoverTemps == s.leftoverTemps
  {
    s.(jobActive := false,
       queue := CancelItems(s.queue),
       playlistSongs := [],
       events := s.events + [UpdateAll],
       notification := "All conversions cancelled.",
       stopRequested := true)
  }

  /** A second cancel-all changes no item. */
  lemma CancelAllIdempotent(s: Service)
    ensures CancelAll(CancelAll(s)).queue == CancelAll(s).queue
  {
  }

  // ---------------------------------------------------------------------
  // The job
  // ---------------------------------------------------------------------

  /** The loop over the videos from position `k`: check for cancellation,
      then run the body. The body of item `k` ends with outcome `os[k]`:
      an outcome depends only on the item's world and on the playlist
      folder, which the loop never changes, so the outcomes are listed
      before the loop starts (see `Outcomes`). */
  function Loop(s: Service, os: seq<Outcome>, k: nat, cancelAt: Option<nat>): (r: Service)
    requires |s.queue| == |os| && k <= |os|
    ensures |r.queue| == |s.queue|
    ensures r.playlistFolder == s.playlistFolder && r.playlistName == s.playlistName
    ensures r.manifests == s.manifests
    decreases |os| - k
  {
    if k == |os| then s
    else if cancelAt == Some(k) then CancelAll(s)
    else Loop(ProcessItem(s, k, os[k]), os, k + 1, cancelAt)
  }

  /** The index at which the loop stops: where a cancel-all lands, or the
      end of the playlist. */
  function StopAt(cancelAt: Option<nat>, k: nat, n: nat): (stop: nat)
    requires k <= n
    ensures k <= stop <= n
  {
    if cancelAt.Some? && k <= cancelAt.value < n then cancelAt.value else n
  }

  /** The outcome of every video's loop body, in playlist order. */
  function Outcomes(folder: string, cacheDir: string, entries: seq<PlaylistEntry>): (os: seq<Outcome>)
    ensures |os| == |entries|
    ensures forall j | 0 <= j < |os| :: os[j] == ItemOutcome(folder, cacheDir, entries[j].world)
    ensures AllFinal(os)
  {
    seq(|entries|, j requires 0 <= j < |entries| => ItemOutcome(folder, cacheDir, entries[j].world))
  }

  /** Every loop body ends with its item in a final state. */
  predicate AllFinal(os: seq<Outcome>) {
    forall j | 0 <= j < |os| :: os[j].final.status.IsTerminal()
  }

  /** The paths saved by items `k..stop`, in order. */
  function SavedFrom(os: seq<Outcome>, k: nat, stop: nat): seq<string>
    requires stop <= |os|
    decreases stop - k
  {
    if k >= stop then [] else OptionSeq(os[k].saved) + SavedFrom(os, k + 1, stop)
  }

  /** The broadcasts sent by the bodies of items `k..stop`, in order. */
  function EventsFrom(os: seq<Outcome>, k: nat, stop: nat): seq<Action>
    requires stop <= |os|
    decreases stop - k
  {
    if k >= stop then [] else UpdateEvents(k, |Shown(os[k])|) + EventsFrom(os, k + 1, stop)
  }

  /** The queue `q` after the loop ran over positions `k..` of `q0`: earlier
      items untouched, items before `stop` settled by their outcome, the
      rest cancelled. */
  predicate SettledFrom(q0: seq<ConversionItem>, q: seq<ConversionItem>, os: seq<Outcome>, k: nat, stop: nat)
    requires |q0| == |os| && |q| == |os|
  {
    forall j | 0 <= j < |os| ::
      q[j] == if j < k then q0[j] else if j < stop then Settle(q0[j], os[j]) else CancelItem(q0[j])
  }

  lemma {:induction false} LoopQueue(s: Service, os: seq<Outcome>, k: nat, cancelAt: Option<nat>)
    requires |s.queue| == |os| && k <= |os|
    requires AllFinal(os)
    requires forall j | 0 <= j < k :: s.queue[j].status.IsTerminal()
    ensures SettledFrom(s.queue, Loop(s, os, k, cancelAt).queue, os, k, StopAt(cancelAt, k, |os|))
    decreases |os| - k, 1
  {
    if k == |os| {
    } else if cancelAt == Some(k) {
      CancelledFrom(s.queue, CancelAll(s).queue, os, k);
    } else {
      LoopQueueStep(s, os, k, cancelAt);
    }
  }

  /** The loop step that processes item `k` and goes on. */
  lemma {:induction false} LoopQueueStep(s: Service, os: seq<Outcome>, k: nat, cancelAt: Option<nat>)
    requires |s.queue| == |os| && k < |os| && cancelAt != Some(k)
    requires AllFinal(os)
    requires forall j | 0 <= j < k :: s.queue[j].status.IsTerminal()
    ensures SettledFrom(s.queue, Loop(s, os, k, cancelAt).queue, os, k, StopAt(cancelAt, k, |os|))
    decreases |os| - k, 0
  {
    var s1 := ProcessItem(s, k, os[k]);
    var stop := StopAt(cancelAt, k, |os|);
    assert StopAt(cancelAt, k + 1, |os|) == stop;
    LoopUnfold(s, os, k, cancelAt);
    LoopQueue(s1, os, k + 1, cancelAt);
    SettledStep(s.queue, s1.queue, Loop(s1, os, k + 1, cancelAt).queue, os, k, stop);
  }

  /** One turn of the loop: process item `k`, then go on from `k + 1`. */
  lemma LoopUnfold(s: Service, os: seq<Outcome>, k: nat, cancelAt: Option<nat>)
    requires |s.queue| == |os| && k < |os| && cancelAt != Some(k)
    ensures Loop(s, os, k, cancelAt) == Loop(ProcessItem(s, k, os[k]), os, k + 1, cancelAt)
  {
  }

  /** A cancel-all at position `k` leaves the already final items alone and
      cancels the rest. */
  lemma CancelledFrom(q0: seq<ConversionItem>, q: seq<ConversionItem>, os: seq<Outcome>, k: nat)
    requires |q0| == |os| && q == CancelItems(q0) && k <= |os|
    requires forall j | 0 <= j < k :: q0[j].status.IsTerminal()
    ensures SettledFrom(q0, q, os, k, k)
  {
  }

  /** Processing item `k` and then the rest is the loop from `k`. */
  lemma SettledStep(q0: seq<ConversionItem>, q1: seq<ConversionItem>, q: seq<ConversionItem>,
                    os: seq<Outcome>, k: nat, stop: nat)
    requires |q0| == |os| && |q1| == |os| && |q| == |os| && k < stop <= |os|
    requires q1[k] == Settle(q0[k], os[k])
    requires forall j | 0 <= j < |os| && j != k :: q1[j] == q0[j]
    requires SettledFrom(q1, q, os, k + 1, stop)
    ensures SettledFrom(q0, q, os, k, stop)
  {
  }

  lemma {:induction false} LoopSongs(s: Service, os: seq<Outcome>, k: nat, cancelAt: Option<nat>)
    requires |s.queue| == |os| && k <= |os|
    ensures var stop := StopAt(cancelAt, k, |os|);
      Loop(s, os, k, cancelAt).playlistSongs == if stop < |os| then [] else s.playlistSongs + SavedFrom(os, k, stop)
    decreases |os| - k, 1
  {
    if k < |os| && cancelAt != Some(k) {
      LoopSongsStep(s, os, k, cancelAt);
    }
  }

  lemma {:induction false} LoopSongsStep(s: Service, os: seq<Outcome>, k: nat, cancelAt: Option<nat>)
    requires |s.queue| == |os| && k < |os| && cancelAt != Some(k)
    ensures var stop := StopAt(cancelAt, k, |os|);
      Loop(s, os, k, cancelAt).playlistSongs == if stop < |os| then [] else s.playlistSongs + SavedFrom(os, k, stop)
    decreases |os| - k, 0
  {
    var s1 := ProcessItem(s, k, os[k]);
    var stop := StopAt(cancelAt, k, |os|);
    assert StopAt(cancelAt, k + 1, |os|) == stop;
    LoopUnfold(s, os, k, cancelAt);
    LoopSongs(s1, os, k + 1, cancelAt);
    SongsStep(s.playlistSongs, s1.playlistSongs, Loop(s1, os, k + 1, cancelAt).playlistSongs, os, k, stop, |os|);
  }

  /** Processing item `k` appends its saved path ahead of the later ones. */
  lemma SongsStep(songs0: seq<string>, songs1: seq<string>, songs: seq<string>, os: seq<Outcome>, k: nat, stop: nat, n: nat)
    requires k < |os| && stop <= |os| && k < stop
    requires songs1 == songs0 + OptionSeq(os[k].saved)
    requires songs == if stop < n then [] else songs1 + SavedFrom(os, k + 1, stop)
    ensures songs == if stop < n then [] else songs0 + SavedFrom(os, k, stop)
  {
    assert SavedFrom(os, k, stop) == OptionSeq(os[k].saved) + SavedFrom(os, k + 1, stop);
  }

  lemma {:induction false} LoopEvents(s: Service, os: seq<Outcome>, k: nat, cancelAt: Option<nat>)
    requires |s.queue| == |os| && k <= |os|
    ensures var stop := StopAt(cancelAt, k, |os|);
      Loop(s, os, k, cancelAt).events
        == s.events + EventsFrom(os, k, stop) + (if stop < |os| then [UpdateAll] else [])
    decreases |os| - k, 1
  {
    if k < |os| && cancelAt != Some(k) {
      LoopEventsStep(s, os, k, cancelAt);
    }
  }

  lemma {:induction false} LoopEventsStep(s: Service, os: seq<Outcome>, k: nat, cancelAt: Option<nat>)
    requires |s.queue| == |os| && k < |os| && cancelAt != Some(k)
    ensures var stop := StopAt(cancelAt, k, |os|);
      Loop(s, os, k, cancelAt).events
        == s.events + EventsFrom(os, k, stop) + (if stop < |os| then [UpdateAll] else [])
    decreases |os| - k, 0
  {
    var s1 := ProcessItem(s, k, os[k]);
    var stop := StopAt(cancelAt, k, |os|);
    assert StopAt(cancelAt, k + 1, |os|) == stop;
    LoopUnfold(s, os, k, cancelAt);
    LoopEvents(s1, os, k + 1, cancelAt);
    EventsStep(s.events, s1.events, Loop(s1, os, k + 1, cancelAt).events, os, k, stop, |os|);
  }

  /** Processing item `k` sends its broadcasts ahead of the later ones. */
  lemma EventsStep(es0: seq<Action>, es1: seq<Action>, es: seq<Action>, os: seq<Outcome>, k: nat, stop: nat, n: nat)
    requires k < |os| && stop <= |os| && k < stop
    requires es1 == es0 + UpdateEvents(k, |Shown(os[k])|)
    requires es == es1 + EventsFrom(os, k + 1, stop) + (if stop < n then [UpdateAll] else [])
    ensures es == es0 + EventsFrom(os, k, stop) + (if stop < n then [UpdateAll] else [])
  {
    assert EventsFrom(os, k, stop) == UpdateEvents(k, |Shown(os[k])|) + EventsFrom(os, k + 1, stop);
  }

  /** The folder a playlist's files go to. */
  function FolderOf(w: JobWorld, info: PlaylistInfo): string {
    w.musicDir + "/" + PlaylistName(info.name, w.nowMillis)
  }

  const FinishedText: string := "Conversion and playlist creation finished!"

  /** The launched coroutine of `startConversion`, run to its end. */
  function RunJob(s: Service, w: JobWorld): (r: Service)
    ensures !r.jobActive && r.stopRequested
    ensures |r.events| > 0 && r.events[|r.events| - 1] == ConversionFinished
    ensures w.playlist.Threw? ==>
      && r.queue == s.queue && r.playlistSongs == s.playlistSongs
      && r.events == s.events + [ConversionFinished]
      && r.notification == "Playlist extraction failed: " + MessageText(w.playlist.message)
    ensures w.playlist.Ok? ==>
      && |r.queue| == |w.playlist.value.relatedItems|
      && r.notification == FinishedText
      && r.playlistName == Some(PlaylistName(w.playlist.value.name, w.nowMillis))
  {
    match w.playlist
    case Threw(m) =>
      s.(jobActive := false,
         notification := "Playlist extraction failed: " + MessageText(m),
         events := s.events + [ConversionFinished],
         stopRequested := true)
    case Ok(info) =>
      var name := PlaylistName(info.name, w.nowMillis);
      var folder := FolderOf(w, info);
      var s1 := s.(playlistName := Some(name),
                   playlistFolder := Some(folder),
                   playlistSongs := [],
                   queue := Populate(info.relatedItems),
                   events := s.events + [QueueReady]);
      var s2 := Loop(s1, Outcomes(folder, w.cacheDir, info.relatedItems), 0, w.cancelAt);
      var m3u := M3UFile(folder + "/" + name + ".m3u", Manifest.ManifestText(s2.playlistSongs));
      s2.(jobActive := false,
          manifests := if w.manifestWritten then s2.manifests + [m3u] else s2.manifests,
          notification := FinishedText,
          events := s2.events + [ConversionFinished],
          stopRequested := true)
  }

  /** `onStartCommand`: a playlist URL starts a job unless one is active (in
      which case the call returns at once, cancel action or not); the cancel
      action then cancels everything. */
  function OnStartCommand(s: Service, playlistUrl: Option<string>, action: Option<string>, w: JobWorld): (r: Service)
    ensures playlistUrl.Some? && s.jobActive ==> r == s
    ensures playlistUrl.None? && action != Some("ACTION_CANCEL_ALL") ==> r == s
    ensures playlistUrl.None? && action == Some("ACTION_CANCEL_ALL") ==> r == CancelAll(s)
    ensures playlistUrl.Some? && !s.jobActive && action != Some("ACTION_CANCEL_ALL") ==>
      r == RunJob(s.(notification := "Starting conversion..."), w)
    ensures playlistUrl.Some? && !s.jobActive && action == Some("ACTION_CANCEL_ALL") ==>
      r == CancelAll(RunJob(s.(notification := "Starting conversion..."), w))
  {
    if playlistUrl.Some? && s.jobActive then s
    else
      var s1 := if playlistUrl.Some? then RunJob(s.(notification := "Starting conversion..."), w) else s;
      if action == Some("ACTION_CANCEL_ALL") then CancelAll(s1) else s1
  }

  // ---------------------------------------------------------------------
  // What a job guarantees
  // ---------------------------------------------------------------------

  /** Number of COMPLETED items. */
  function CountCompleted(q: seq<ConversionItem>): nat
    decreases |q|
  {
    if |q| == 0 then 0
    else (if q[|q| - 1].status == Completed then 1 else 0) + CountCompleted(q[..|q| - 1])
  }

  /** Pressing cancel once a job over a fetched playlist has ended changes
      no item: every item of a finished job is already final. */
  lemma CancelAfterJobKeepsQueue(s: Service, w: JobWorld)
    requires w.playlist.Ok?
    ensures CancelAll(RunJob(s, w)).queue == RunJob(s, w).queue
  {
    RunJobQueue(s, w);
  }

  /** The final queue of a job over a fetched playlist: the items before the
      stop point carry their outcome, the rest are CANCELLED; ids, titles and
      urls are those assigned at population. */
  lemma RunJobQueue(s: Service, w: JobWorld)
    requires w.playlist.Ok?
    ensures var info := w.playlist.value;
      var entries := info.relatedItems;
      var r := RunJob(s, w);
      var stop := StopAt(w.cancelAt, 0, |entries|);
      && |r.queue| == |entries|
      && forall j | 0 <= j < |entries| ::
        && r.queue[j].status.IsTerminal()
        && r.queue[j].id == ItemId(entries[j].enqueueMillis, j)
        && r.queue[j].title == EntryTitle(entries[j].name, j)
        && r.queue[j].url == entries[j].url
        && (j < stop ==> r.queue[j] == Settle(QueueItem(entries, j), ItemOutcome(FolderOf(w, info), w.cacheDir, entries[j].world)))
        && (j >= stop ==> r.queue[j].status == Cancelled && r.queue[j].progress == CancelledText)
  {
    var info := w.playlist.value;
    var entries := info.relatedItems;
    var name := PlaylistName(info.name, w.nowMillis);
    var s1 := s.(playlistName := Some(name),
                 playlistFolder := Some(FolderOf(w, info)),
                 playlistSongs := [],
                 queue := Populate(entries),
                 events := s.events + [QueueReady]);
    LoopQueue(s1, Outcomes(FolderOf(w, info), w.cacheDir, entries), 0, w.cancelAt);
  }

  /** Saved paths of a job that ran to the end: one per COMPLETED item, in
      queue order; a cancel-all empties the list. */
  lemma RunJobSongs(s: Service, w: JobWorld)
    requires w.playlist.Ok?
    ensures var info := w.playlist.value;
      var entries := info.relatedItems;
      var r := RunJob(s, w);
      var stop := StopAt(w.cancelAt, 0, |entries|);
      var os := Outcomes(FolderOf(w, info), w.cacheDir, entries);
      && (stop < |entries| ==> r.playlistSongs == [])
      && (stop == |entries| ==> r.playlistSongs == SavedFrom(os, 0, |entries|)
                                && |r.playlistSongs| == CountCompleted(r.queue))
  {
    var info := w.playlist.value;
    var entries := info.relatedItems;
    var name := PlaylistName(info.name, w.nowMillis);
    var s1 := s.(playlistName := Some(name),
                 playlistFolder := Some(FolderOf(w, info)),
                 playlistSongs := [],
                 queue := Populate(entries),
                 events := s.events + [QueueReady]);
    LoopSongs(s1, Outcomes(FolderOf(w, info), w.cacheDir, entries), 0, w.cancelAt);
    var stop := StopAt(w.cancelAt, 0, |entries|);
    if stop == |entries| {
      var r := RunJob(s, w);
      RunJobQueue(s, w);
      CompletedMatchesSaved(r.queue, FolderOf(w, info), w.cacheDir, entries);
    }
  }

  lemma CompletedMatchesSaved(q: seq<ConversionItem>, folder: string, cacheDir: string, entries: seq<PlaylistEntry>)
    requires |q| == |entries|
    requires forall j | 0 <= j < |entries| ::
      q[j] == Settle(QueueItem(entries, j), ItemOutcome(folder, cacheDir, entries[j].world))
    ensures |SavedFrom(Outcomes(folder, cacheDir, entries), 0, |entries|)| == CountCompleted(q)
  {
    var os := Outcomes(folder, cacheDir, entries);
    SavedCountsCompleted(os, q, 0);
  }

  /** Number of COMPLETED items in `q[k..]`. */
  function CompletedFrom(q: seq<ConversionItem>, k: nat): nat
    requires k <= |q|
    decreases |q| - k
  {
    if k == |q| then 0 else (if q[k].status == Completed then 1 else 0) + CompletedFrom(q, k + 1)
  }

  lemma {:induction false} CompletedFromAppend(q: seq<ConversionItem>)
    ensures CompletedFrom(q, 0) == CountCompleted(q)
    decreases |q|
  {
    if |q| > 0 {
      var init := q[..|q| - 1];
      CompletedFromAppend(init);
      CompletedFromSnoc(q, 0);
    }
  }

  lemma {:induction false} CompletedFromSnoc(q: seq<ConversionItem>, k: nat)
    requires k < |q|
    ensures CompletedFrom(q, k) == CompletedFrom(q[..|q| - 1], k) + (if q[|q| - 1].status == Completed then 1 else 0)
    decreases |q| - k
  {
    if k < |q| - 1 {
      CompletedFromSnoc(q, k + 1);
    }
  }

  lemma {:induction false} SavedCountsCompleted(os: seq<Outcome>, q: seq<ConversionItem>, k: nat)
    requires |q| == |os| && k <= |os|
    requires forall j | 0 <= j < |os| :: q[j].status == os[j].final.status
    requires forall j | 0 <= j < |os| :: os[j].final.status == Completed <==> os[j].saved.Some?
    ensures |SavedFrom(os, k, |os|)| == CompletedFrom(q, k)
    ensures k == 0 ==> |SavedFrom(os, 0, |os|)| == CountCompleted(q)
    decreases |os| - k
  {
    if k < |os| {
      SavedCountsCompleted(os, q, k + 1);
    }
    if k == 0 {
      CompletedFromAppend(q);
    }
  }

  /** The broadcasts of a job: QUEUE_READY once before any item, then only
      UPDATE_ITEM broadcasts for items before the stop point (and UPDATE_ALL
      if a cancel-all landed), then CONVERSION_FINISHED. */
  lemma RunJobEvents(s: Service, w: JobWorld)
    requires w.playlist.Ok?
    ensures var info := w.playlist.value;
      var entries := info.relatedItems;
      var r := RunJob(s, w);
      var stop := StopAt(w.cancelAt, 0, |entries|);
      var os := Outcomes(FolderOf(w, info), w.cacheDir, entries);
      var mid := EventsFrom(os, 0, stop);
      && r.events == s.events + [QueueReady] + mid
                     + (if stop < |entries| then [UpdateAll] else []) + [ConversionFinished]
      && forall e | e in mid :: e.UpdateItem? && e.index < stop
  {
    var info := w.playlist.value;
    var entries := info.relatedItems;
    var name := PlaylistName(info.name, w.nowMillis);
    var s1 := s.(playlistName := Some(name),
                 playlistFolder := Some(FolderOf(w, info)),
                 playlistSongs := [],
                 queue := Populate(entries),
                 events := s.events + [QueueReady]);
    LoopEvents(s1, Outcomes(FolderOf(w, info), w.cacheDir, entries), 0, w.cancelAt);
    var os := Outcomes(FolderOf(w, info), w.cacheDir, entries);
    EventsFromIndices(os, 0, StopAt(w.cancelAt, 0, |entries|));
  }

  lemma {:induction false} EventsFromIndices(os: seq<Outcome>, k: nat, stop: nat)
    requires stop <= |os|
    ensures forall e | e in EventsFrom(os, k, stop) :: e.UpdateItem? && k <= e.index < stop
    decreases stop - k
  {
    if k < stop {
      EventsFromIndices(os, k + 1, stop);
    }
  }

  /** The manifest written at the end lists exactly the saved paths; after a
      cancel-all it is the bare header. */
  lemma RunJobManifest(s: Service, w: JobWorld)
    requires w.playlist.Ok? && w.manifestWritten
    ensures var info := w.playlist.value;
      var r := RunJob(s, w);
      var name := PlaylistName(info.name, w.nowMillis);
      && |r.manifests| == |s.manifests| + 1
      && r.manifests[|s.manifests|]
         == M3UFile(FolderOf(w, info) + "/" + name + ".m3u", Manifest.ManifestText(r.playlistSongs))
      && (StopAt(w.cancelAt, 0, |info.relatedItems|) < |info.relatedItems|
          ==> r.manifests[|s.manifests|].content == Manifest.Header + "\n")
  {
    var info := w.playlist.value;
    var entries := info.relatedItems;
    var name := PlaylistName(info.name, w.nowMillis);
    var s1 := s.(playlistName := Some(name),
                 playlistFolder := Some(FolderOf(w, info)),
                 playlistSongs := [],
                 queue := Populate(entries),
                 events := s.events + [QueueReady]);
    LoopSongs(s1, Outcomes(FolderOf(w, info), w.cacheDir, entries), 0, w.cancelAt);
  }
}

=== FILE: playback.dfy ===
/**
 * The playback helpers of the player singleton: which queue position the
 * next/previous buttons move to, the "smart back" rule that restarts a song
 * played for more than three seconds, the zero defaults of the player
 * getters, and the "m:ss" duration format.
 */
module Playback {
  import opened Common

  // ---------------------------------------------------------------------
  // Queue stepping
  // ---------------------------------------------------------------------

  /** The parts of the song queue the buttons consult. */
  datatype SongQueue = SongQueue(playingIndex: int, count: nat, isRepeat: bool) {
    predicate Valid() {
      0 <= playingIndex < count
    }
    predicate LastInQueue() {
      playingIndex == count - 1
    }
    predicate FirstInQueue() {
      playingIndex == 0
    }
  }

  /** The index `playNext` leaves selected: unchanged on repeat, wrapping
      from the last song to the first, otherwise one further. */
  function NextIndex(q: SongQueue): (i: int)
    ensures q.Valid() ==> 0 <= i < q.count
  {
    if q.isRepeat then q.playingIndex
    else if q.LastInQueue() then 0
    else q.playingIndex + 1
  }

  /** The index `playPrev` selects once it has decided not to restart:
      unchanged on repeat, wrapping from the first song to the last,
      otherwise one back. */
  function PrevIndex(q: SongQueue): (i: int)
    ensures q.Valid() ==> 0 <= i < q.count
  {
    if q.isRepeat then q.playingIndex
    else if q.FirstInQueue() then q.count - 1
    else q.playingIndex - 1
  }

  /** Without repeat, one step forward is one position further modulo the
      queue length, and one step back undoes it (and vice versa). */
  lemma StepsAreInverse(q: SongQueue)
    requires q.Valid() && !q.isRepeat
    ensures NextIndex(q) == (q.playingIndex + 1) % q.count
    ensures PrevIndex(q.(playingIndex := NextIndex(q))) == q.playingIndex
    ensures NextIndex(q.(playingIndex := PrevIndex(q))) == q.playingIndex
  {
  }

  /** Pressing next `k` times. */
  function NextTimes(q: SongQueue, k: nat): (r: SongQueue)
    ensures r.count == q.count && r.isRepeat == q.isRepeat
    decreases k
  {
    if k == 0 then q else NextTimes(q.(playingIndex := NextIndex(q)), k - 1)
  }

  /** Pressing next `k` times advances `k` positions around the queue; after
      `count` presses the same song plays again. */
  lemma {:induction false} NextTimesCycles(q: SongQueue, k: nat)
    requires q.Valid() && !q.isRepeat
    ensures NextTimes(q, k).playingIndex == (q.playingIndex + k) % q.count
    decreases k
  {
    if k > 0 {
      var q1 := q.(playingIndex := NextIndex(q));
      StepsAreInverse(q);
      NextTimesCycles(q1, k - 1);
      ModAddOne(q.playingIndex, k - 1, q.count);
    }
  }

  lemma ModAddOne(i: int, k: nat, n: nat)
    requires n > 0
    ensures ((i + 1) % n + k) % n == (i + k + 1) % n
  {
    var a := (i + 1) % n;
    assert i + 1 == ((i + 1) / n) * n + a;
    assert (a + k) % n == (a + k + ((i + 1) / n) * n) % n by {
      ModShift(a + k, (i + 1) / n, n);
    }
  }

  lemma ModShift(x: int, m: int, n: nat)
    requires n > 0
    ensures (x + m * n) % n == x % n
  {
    var q := x / n;
    var r := x % n;
    assert x + m * n == (q + m) * n + r;
    DivModUnique(x + m * n, n, q + m, r);
  }

  /** On repeat both buttons keep the current song. */
  lemma RepeatStays(q: SongQueue)
    requires q.isRepeat
    ensures NextIndex(q) == q.playingIndex && PrevIndex(q) == q.playingIndex
  {
  }

  // ---------------------------------------------------------------------
  // The player and playPrev's restart rule
  // ---------------------------------------------------------------------

  const RestartThresholdMs: int := 3000

  /** The media player: absent, or present with getters that either answer
      or throw `IllegalStateException`. */
  datatype Player = NoPlayer | Player(currentPosition: Attempt<int>, duration: Attempt<int>)

  /** `isStopped`: there is no player. */
  predicate IsStopped(p: Player): (stopped: bool)
    ensures stopped ==> Position(p) == 0 && Duration(p) == 0
  {
    p.NoPlayer?
  }

  /** `position`: 0 without a player or when the getter throws. */
  function Position(p: Player): (ms: int)
    ensures p.NoPlayer? || p.currentPosition.Threw? ==> ms == 0
    ensures p.Player? && p.currentPosition.Ok? ==> ms == p.currentPosition.value
  {
    match p
    case NoPlayer => 0
    case Player(pos, _) => if pos.Ok? then pos.value else 0
  }

  /** `duration`: 0 without a player or when the getter throws. */
  function Duration(p: Player): (ms: int)
    ensures p.NoPlayer? || p.duration.Threw? ==> ms == 0
    ensures p.Player? && p.duration.Ok? ==> ms == p.duration.value
  {
    match p
    case NoPlayer => 0
    case Player(_, d) => if d.Ok? then d.value else 0
  }

  /** A stopped player reads position and duration 0; a running one whose
      getters answer reads their values, so a non-zero reading means the
      player is not stopped. */
  lemma StoppedReadsZero(p: Player)
    ensures IsStopped(p) ==> Position(p) == 0 && Duration(p) == 0
    ensures !IsStopped(p) && p.currentPosition.Ok? ==> Position(p) == p.currentPosition.value
    ensures !IsStopped(p) && p.duration.Ok? ==> Duration(p) == p.duration.value
    ensures Position(p) != 0 || Duration(p) != 0 ==> !IsStopped(p)
  {
  }

  datatype PrevDecision =
    | NoQueue               // no song queue: nothing happens
    | Restart               // seek to 0 and reset the start time
    | Select(index: int)    // start the song at this position

  /** `playPrev`: restart when the position or the wall-clock time since the
      song started exceeds three seconds, otherwise step back (restarting
      on repeat). `songStartTime` is 0 after `stop()`. */
  function PlayPrev(songs: Option<SongQueue>, p: Player, songStartTime: int, now: int): (d: PrevDecision)
    ensures songs.None? <==> d == NoQueue
    ensures d.Select? ==> songs.Some? && !songs.value.isRepeat && d.index == PrevIndex(songs.value)
  {
    match songs
    case None => NoQueue
    case Some(q) =>
      var timePlayed := now - songStartTime;
      if Position(p) > RestartThresholdMs || timePlayed > RestartThresholdMs then Restart
      else if q.isRepeat then Restart
      else Select(PrevIndex(q))
  }

  /** The back button moves to another song exactly when neither the
      position nor the time played exceeds three seconds and repeat is off. */
  lemma PrevSelectsIff(q: SongQueue, p: Player, songStartTime: int, now: int)
    ensures PlayPrev(Some(q), p, songStartTime, now).Select?
            <==> Position(p) <= RestartThresholdMs && now - songStartTime <= RestartThresholdMs && !q.isRepeat
  {
  }

  /** After `stop()` the start time is 0, so once the clock is past three
      seconds the back button only ever restarts. */
  lemma StoppedPrevRestarts(q: SongQueue, p: Player, now: int)
    requires now > RestartThresholdMs
    ensures PlayPrev(Some(q), p, 0, now) == Restart
  {
  }

  datatype NextDecision = NoNextQueue | SelectNext(index: int)

  /** `playNext`. */
  function PlayNext(songs: Option<SongQueue>): (d: NextDecision)
    ensures songs.None? <==> d == NoNextQueue
    ensures d.SelectNext? ==> d.index == NextIndex(songs.value)
  {
    match songs
    case None => NoNextQueue
    case Some(q) => SelectNext(NextIndex(q))
  }

  /** Next and an immediate back within three seconds return to the song
      that was playing. */
  lemma NextThenQuickPrev(q: SongQueue, p: Player, songStartTime: int, now: int)
    requires q.Valid() && !q.isRepeat
    requires Position(p) <= RestartThresholdMs && now - songStartTime <= RestartThresholdMs
    ensures var n := PlayNext(Some(q));
      PlayPrev(Some(q.(playingIndex := n.index)), p, songStartTime, now) == Select(q.playingIndex)
  {
    StepsAreInverse(q);
  }

  // ---------------------------------------------------------------------
  // createTime
  // ---------------------------------------------------------------------

  /** `createTime(duration)`: `"%d:%02d"` of whole minutes and the
      remaining seconds, negative durations counted as 0. */
  function CreateTime(duration: int): (s: string)
    ensures ':' in s
  {
    var safe: nat := if duration < 0 then 0 else duration;
    var min := safe / 1000 / 60;
    var sec := safe / 1000 % 60;
    var text := NatToString(min) + ":" + ZeroPad(sec, 2);
    assert text[|NatToString(min)|] == ':';
    text
  }

  lemma ShortNumber(n: nat)
    requires n < 100
    ensures |NatToString(n)| <= 2
  {
    if n >= 10 {
      assert NatToString(n) == NatToString(n / 10) + [DigitChar(n % 10)];
    }
  }

  lemma NoColonInDigits(s: string)
    requires AllDigits(s)
    ensures ':' !in s
  {
  }

  /** Reading the text back: it splits at its one ':' into a minutes part
      and a two-digit seconds part, and minutes * 60 + seconds is the whole
      number of seconds in the (clamped) duration. */
  lemma CreateTimeRoundTrip(duration: int)
    ensures var safe := if duration < 0 then 0 else duration;
      var parts := SplitOn(CreateTime(duration), ':');
      && |parts| == 2 && |parts[1]| == 2
      && AllDigits(parts[0]) && AllDigits(parts[1])
      && DigitsValue(parts[1]) < 60
      && DigitsValue(parts[0]) * 60 + DigitsValue(parts[1]) == safe / 1000
  {
    var safe: nat := if duration < 0 then 0 else duration;
    var min := safe / 1000 / 60;
    var sec := safe / 1000 % 60;
    var m := NatToString(min);
    var z := ZeroPad(sec, 2);
    ShortNumber(sec);
    NoColonInDigits(m);
    NoColonInDigits(z);
    assert JoinWith([m, z], ':') == m + ":" + z by {
      assert [m, z][1..] == [z];
    }
    SplitJoin([m, z], ':');
    NatToStringValue(min);
  }

  /** A negative duration shows as "0:00". */
  lemma NegativeDurationIsZero(duration: int)
    requires duration < 0
    ensures CreateTime(duration) == "0:00"
  {
    assert ZeroPad(0, 2) == "00" by {
      assert Repeat('0', 1) == "0";
    }
  }
}

=== FILE: playlist_screen.dfy ===
/**
 * The playlist screen: it sends the trimmed playlist URL to the service,
 * reacts to the service's progress broadcasts, and enables its two buttons
 * from whether the service runs and whether the shared queue has items.
 */
module PlaylistScreen {
  import opened Common
  import Pipeline

  // ---------------------------------------------------------------------
  // Buttons
  // ---------------------------------------------------------------------

  datatype Buttons = Buttons(convertEnabled: bool, cancelEnabled: bool)

  /** `updateButtonStates()`. */
  function ButtonStates(serviceRunning: bool, queueSize: nat): (b: Buttons)
    ensures b.convertEnabled <==> !serviceRunning
    ensures b.cancelEnabled <==> serviceRunning && queueSize > 0
  {
    Buttons(!serviceRunning, serviceRunning && queueSize > 0)
  }

  /** The two buttons are never enabled together, and both are disabled
      exactly while the service runs over an empty queue. */
  lemma ButtonsExclusive(serviceRunning: bool, queueSize: nat)
    ensures var b := ButtonStates(serviceRunning, queueSize);
      && !(b.convertEnabled && b.cancelEnabled)
      && (!b.convertEnabled && !b.cancelEnabled <==> serviceRunning && queueSize == 0)
  {
  }

  // ---------------------------------------------------------------------
  // Starting and cancelling
  // ---------------------------------------------------------------------

  datatype StartRequest =
    | EmptyUrlToast                 // "Please enter a playlist URL"
    | StartService(playlistUrl: string)

  /** `startConversionService()` on the text of the input field. */
  function StartConversionService(input: string): (r: StartRequest)
    ensures r.StartService? ==> r.playlistUrl == Trim(input) && |r.playlistUrl| > 0
  {
    var url := Trim(input);
    if |url| == 0 then EmptyUrlToast else StartService(url)
  }

  /** The service is started exactly when the input is not blank. */
  lemma StartsIffNotBlank(input: string)
    ensures StartConversionService(input).StartService? <==> !IsBlank(input)
  {
  }

  /** What the service does with the start intent: a blank input never
      reaches `onStartCommand`, any other input reaches it as the trimmed
      URL with no action. */
  function SendStart(s: Pipeline.Service, input: string, w: Pipeline.JobWorld): (r: Pipeline.Service)
    ensures IsBlank(input) ==> r == s
    ensures !IsBlank(input) ==> r == Pipeline.OnStartCommand(s, Some(Trim(input)), None, w)
  {
    match StartConversionService(input)
    case EmptyUrlToast => s
    case StartService(url) => Pipeline.OnStartCommand(s, Some(url), None, w)
  }

  /** The cancel button's intent: the cancel action and no URL. */
  function SendCancel(s: Pipeline.Service, w: Pipeline.JobWorld): (r: Pipeline.Service)
    ensures r == Pipeline.CancelAll(s)
  {
    Pipeline.OnStartCommand(s, None, Some("ACTION_CANCEL_ALL"), w)
  }

  // ---------------------------------------------------------------------
  // Broadcasts
  // ---------------------------------------------------------------------

  /** A broadcast as the receiver reads it: the `ACTION` extra and
      `getIntExtra("INDEX", -1)`. */
  datatype Broadcast = Broadcast(action: Option<string>, index: int)

  /** `sendUpdate(action, index)`: the index extra is only put when it is
      not -1, so an absent index reads back as -1. */
  function Encode(a: Pipeline.Action): (b: Broadcast)
    ensures b.action.Some?
    ensures a.UpdateItem? ==> b.index == a.index
    ensures !a.UpdateItem? ==> b.index == -1
  {
    match a
    case QueueReady => Broadcast(Some("QUEUE_READY"), -1)
    case UpdateItem(i) => Broadcast(Some("UPDATE_ITEM"), i)
    case UpdateAll => Broadcast(Some("UPDATE_ALL"), -1)
    case ConversionFinished => Broadcast(Some("CONVERSION_FINISHED"), -1)
  }

  /** How the adapter is told to redraw. */
  datatype Refresh = RefreshAll | RefreshRow(row: int)

  /** What one broadcast changes on screen; `None` fields are untouched. */
  datatype Reaction = Reaction(status: Option<string>, refresh: Option<Refresh>, buttons: Option<Buttons>)

  const Ignored: Reaction := Reaction(None, None, None)

  const LoadedStatus: string := "Status: Conversion queue loaded."
  const UpdatedStatus: string := "Status: Queue updated."
  const FinishedStatus: string := "Status: Conversion and playlist creation finished! \U{2705}"

  /** The four action strings the receiver dispatches on. */
  predicate KnownAction(action: Option<string>) {
    action.Some? && action.value in {"QUEUE_READY", "UPDATE_ITEM", "UPDATE_ALL", "CONVERSION_FINISHED"}
  }

  /** `conversionUpdateReceiver.onReceive`. The queue is the service's own
      list, so its size is the service queue's size. */
  function OnReceive(b: Broadcast, queueSize: nat, serviceRunning: bool): (r: Reaction)
    ensures r.buttons.Some? ==> r.buttons.value == ButtonStates(serviceRunning, queueSize)
    ensures r.refresh == Some(RefreshAll) ==> b.action == Some("QUEUE_READY") || b.action == Some("UPDATE_ALL")
  {
    var buttons := Some(ButtonStates(serviceRunning, queueSize));
    match b.action
    case None => Ignored
    case Some(a) =>
      if a == "QUEUE_READY" then
        Reaction(Some(LoadedStatus), Some(RefreshAll), buttons)
      else if a == "UPDATE_ITEM" then
        if b.index != -1 && b.index < queueSize then Reaction(None, Some(RefreshRow(b.index)), buttons)
        else Ignored
      else if a == "UPDATE_ALL" then
        Reaction(Some(UpdatedStatus), Some(RefreshAll), buttons)
      else if a == "CONVERSION_FINISHED" then
        Reaction(Some(FinishedStatus), None, buttons)
      else Ignored
  }

  /** Every event the service sends, with an item index inside the queue,
      has its own effect on the screen once encoded and received: the
      buttons are refreshed, and the status text and redraw are the ones
      belonging to that event. */
  lemma ReceiveEncoded(a: Pipeline.Action, queueSize: nat, serviceRunning: bool)
    requires a.UpdateItem? ==> a.index < queueSize
    ensures var r := OnReceive(Encode(a), queueSize, serviceRunning);
      && r.buttons == Some(ButtonStates(serviceRunning, queueSize))
      && (a.QueueReady? ==> r.status == Some(LoadedStatus) && r.refresh == Some(RefreshAll))
      && (a.UpdateItem? ==> r.status.None? && r.refresh == Some(RefreshRow(a.index)))
      && (a.UpdateAll? ==> r.status == Some(UpdatedStatus) && r.refresh == Some(RefreshAll))
      && (a.ConversionFinished? ==> r.status == Some(FinishedStatus) && r.refresh.None?)
  {
  }

  /** Distinct events stay distinct on screen: the receiver's reaction to
      an encoded event determines the event. */
  lemma ReceiveEncodedInjective(a1: Pipeline.Action, a2: Pipeline.Action, queueSize: nat, serviceRunning: bool)
    requires a1.UpdateItem? ==> a1.index < queueSize
    requires a2.UpdateItem? ==> a2.index < queueSize
    requires OnReceive(Encode(a1), queueSize, serviceRunning) == OnReceive(Encode(a2), queueSize, serviceRunning)
    ensures a1 == a2
  {
    ReceiveEncoded(a1, queueSize, serviceRunning);
    ReceiveEncoded(a2, queueSize, serviceRunning);
  }

  /** A broadcast is ignored exactly when its action is missing or unknown,
      or it is an UPDATE_ITEM whose index fails the guard. */
  lemma OnlyKnownActionsAct(b: Broadcast, queueSize: nat, serviceRunning: bool)
    ensures OnReceive(b, queueSize, serviceRunning) == Ignored
            <==> !KnownAction(b.action)
                 || (b.action == Some("UPDATE_ITEM") && !(b.index != -1 && b.index < queueSize))
  {
  }

  /** Every item update the service sends during a job names a row of the
      queue, so the screen redraws that row. */
  lemma ServiceUpdatesAreApplied(i: nat, queueSize: nat, serviceRunning: bool)
    requires i < queueSize
    ensures OnReceive(Encode(Pipeline.UpdateItem(i)), queueSize, serviceRunning).refresh == Some(RefreshRow(i))
  {
  }

  /** An UPDATE_ITEM is applied exactly when its index is not -1 and below
      the queue size; the guard lets a negative index other than -1
      through. */
  lemma UpdateItemGuard(index: int, queueSize: nat, serviceRunning: bool)
    ensures OnReceive(Broadcast(Some("UPDATE_ITEM"), index), queueSize, serviceRunning).refresh.Some?
            <==> index != -1 && index < queueSize
    ensures OnReceive(Broadcast(Some("UPDATE_ITEM"), -2), queueSize, serviceRunning).refresh == Some(RefreshRow(-2))
  {
  }
}

=== FILE: sanitize.dfy ===
/**
 * The name sanitisers of the conversion code, written out character by
 * character instead of as regular expressions:
 *   - the title cleaner used for audio file names (ConversionService and the
 *     two single-video converters): drop every character outside
 *     [A-Za-z0-9 \-_], replace each whitespace run by one space, trim, keep
 *     the first 50 characters;
 *   - the playlist-name cleaner: the same filter, each whitespace run becomes
 *     "_", keep the first 50 characters, no trim;
 *   - the file stem "<clean>_<timestamp>" with its "Audio_<timestamp>" fallback.
 */
module Sanitize {
  import opened Common

  /** The characters the pattern `[^A-Za-z0-9 \-_]` leaves in place. */
  predicate IsAllowed(c: char) {
    ('A' <= c <= 'Z') || ('a' <= c <= 'z') || ('0' <= c <= '9') || c == ' ' || c == '-' || c == '_'
  }

  /** Java's `\s`: space, tab, newline, vertical tab, form feed, return. */
  predicate IsRegexSpace(c: char) {
    c == ' ' || c == '\t' || c == '\n' || c == '\U{B}' || c == '\U{C}' || c == '\r'
  }

  predicate AllAllowed(s: string) {
    forall i | 0 <= i < |s| :: IsAllowed(s[i])
  }

  /** No two neighbouring characters are both whitespace. */
  predicate NoDoubleSpace(s: string) {
    forall i | 0 <= i < |s| - 1 :: !(IsRegexSpace(s[i]) && IsRegexSpace(s[i + 1]))
  }

  /** Some character survives the filter and is not a space. */
  predicate HasVisible(s: string) {
    exists i | 0 <= i < |s| :: IsAllowed(s[i]) && s[i] != ' '
  }

  // ---------------------------------------------------------------------
  // replace(Regex("[^A-Za-z0-9 \\-_]"), "")
  // ---------------------------------------------------------------------

  function StripDisallowed(s: string): (r: string)
    ensures AllAllowed(r)
    ensures |r| <= |s|
    decreases |s|
  {
    if |s| == 0 then "" else (if IsAllowed(s[0]) then [s[0]] else "") + StripDisallowed(s[1..])
  }

  /** The filter works piecewise: filtering a concatenation concatenates the
      filtered pieces. */
  lemma {:induction false} StripDisallowedAppend(a: string, b: string)
    ensures StripDisallowed(a + b) == StripDisallowed(a) + StripDisallowed(b)
    decreases |a|
  {
    if |a| > 0 {
      assert (a + b)[1..] == a[1..] + b;
      StripDisallowedAppend(a[1..], b);
    } else {
      assert a + b == b;
    }
  }

  /** The filter changes a string exactly when it holds a disallowed
      character. */
  lemma {:induction false} StripDisallowedFixpoint(s: string)
    ensures StripDisallowed(s) == s <==> AllAllowed(s)
    decreases |s|
  {
    if |s| > 0 {
      StripDisallowedFixpoint(s[1..]);
      if !IsAllowed(s[0]) {
        assert |StripDisallowed(s)| < |s|;
      } else {
        assert [s[0]] + s[1..] == s;
      }
    }
  }

  /** A character is visible after filtering iff it was visible before. */
  lemma StripDisallowedVisible(s: string)
    ensures HasVisible(StripDisallowed(s)) <==> HasVisible(s)
  {
    StripKeepsVisible(s);
    StripAddsNoVisible(s);
  }

  lemma {:induction false} StripKeepsVisible(s: string)
    ensures HasVisible(s) ==> HasVisible(StripDisallowed(s))
    decreases |s|
  {
    if |s| > 0 && HasVisible(s) {
      var r := StripDisallowed(s);
      var i :| 0 <= i < |s| && IsAllowed(s[i]) && s[i] != ' ';
      if i == 0 {
        assert r[0] == s[0];
      } else {
        var rest := StripDisallowed(s[1..]);
        assert s[1..][i - 1] == s[i];
        StripKeepsVisible(s[1..]);
        var k :| 0 <= k < |rest| && IsAllowed(rest[k]) && rest[k] != ' ';
        assert r[|r| - |rest| + k] == rest[k];
      }
    }
  }

  lemma {:induction false} StripAddsNoVisible(s: string)
    ensures HasVisible(StripDisallowed(s)) ==> HasVisible(s)
    decreases |s|
  {
    var r := StripDisallowed(s);
    if |s| > 0 && HasVisible(r) {
      var k :| 0 <= k < |r| && IsAllowed(r[k]) && r[k] != ' ';
      if IsAllowed(s[0]) && k == 0 {
        assert s[0] == r[0];
      } else {
        var rest := StripDisallowed(s[1..]);
        var off := if IsAllowed(s[0]) then 1 else 0;
        assert rest[k - off] == r[k];
        StripAddsNoVisible(s[1..]);
        var j :| 0 <= j < |s[1..]| && IsAllowed(s[1..][j]) && s[1..][j] != ' ';
        assert s[j + 1] == s[1..][j];
      }
    }
  }

  // ---------------------------------------------------------------------
  // replace(Regex("\\s+"), rep)
  // ---------------------------------------------------------------------

  /** The input after its leading whitespace run. */
  function DropSpaceRun(s: string): (r: string)
    ensures |r| <= |s| && r == s[|s| - |r|..]
    ensures |r| > 0 ==> !IsRegexSpace(r[0])
    decreases |s|
  {
    if |s| > 0 && IsRegexSpace(s[0]) then DropSpaceRun(s[1..]) else s
  }

  /** Every maximal whitespace run replaced by `rep`, the rest kept. */
  function ReplaceSpaceRuns(s: string, rep: string): (r: string)
    ensures |s| > 0 && !IsRegexSpace(s[0]) ==> |r| > 0 && r[0] == s[0]
    ensures (forall i | 0 <= i < |rep| :: !IsRegexSpace(rep[i])) ==> forall i | 0 <= i < |r| :: !IsRegexSpace(r[i])
    ensures rep == " " ==> NoDoubleSpace(r)
    decreases |s|
  {
    if |s| == 0 then ""
    else if IsRegexSpace(s[0]) then
      var rest := DropSpaceRun(s);
      assert |rest| < |s|;
      rep + ReplaceSpaceRuns(rest, rep)
    else [s[0]] + ReplaceSpaceRuns(s[1..], rep)
  }

  /** The input with every whitespace character removed. */
  function Visible(s: string): (r: string)
    decreases |s|
  {
    if |s| == 0 then "" else (if IsRegexSpace(s[0]) then "" else [s[0]]) + Visible(s[1..])
  }

  lemma {:induction false} VisibleDropsRun(s: string)
    ensures Visible(DropSpaceRun(s)) == Visible(s)
    decreases |s|
  {
    if |s| > 0 && IsRegexSpace(s[0]) {
      VisibleDropsRun(s[1..]);
    }
  }

  /** Collapsing whitespace keeps every other character, in order. */
  lemma {:induction false} ReplaceSpaceRunsKeepsVisible(s: string)
    ensures Visible(ReplaceSpaceRuns(s, " ")) == Visible(s)
    decreases |s|
  {
    if |s| > 0 {
      if IsRegexSpace(s[0]) {
        var rest := DropSpaceRun(s);
        ReplaceSpaceRunsKeepsVisible(rest);
        VisibleDropsRun(s);
        assert (" " + ReplaceSpaceRuns(rest, " "))[1..] == ReplaceSpaceRuns(rest, " ");
      } else {
        ReplaceSpaceRunsKeepsVisible(s[1..]);
        assert ([s[0]] + ReplaceSpaceRuns(s[1..], " "))[1..] == ReplaceSpaceRuns(s[1..], " ");
      }
    }
  }

  /** A string that already has single spaces only between other characters
      passes the collapse unchanged. */
  lemma {:induction false} ReplaceSpaceRunsIdentity(s: string)
    requires NoDoubleSpace(s)
    requires forall i | 0 <= i < |s| :: IsRegexSpace(s[i]) ==> s[i] == ' '
    ensures ReplaceSpaceRuns(s, " ") == s
    decreases |s|
  {
    if |s| > 0 {
      var t := s[1..];
      forall i | 0 <= i < |t| - 1 ensures !(IsRegexSpace(t[i]) && IsRegexSpace(t[i + 1])) {
        assert t[i] == s[i + 1] && t[i + 1] == s[i + 2];
      }
      forall i | 0 <= i < |t| ensures IsRegexSpace(t[i]) ==> t[i] == ' ' {
        assert t[i] == s[i + 1];
      }
      ReplaceSpaceRunsIdentity(t);
      if IsRegexSpace(s[0]) {
        if |s| > 1 {
          assert !IsRegexSpace(s[1]);
        }
        assert DropSpaceRun(s) == t;
        assert ReplaceSpaceRuns(s, " ") == " " + t;
      } else {
        assert ReplaceSpaceRuns(s, " ") == [s[0]] + t;
      }
      assert [s[0]] + t == s;
    }
  }

  // ---------------------------------------------------------------------
  // Title cleaner and file stem
  // ---------------------------------------------------------------------

  const MaxNameLength: nat := 50

  /** `title.replace(disallowed, "").replace(\s+, " ").trim().take(50)`. */
  function CleanTitle(title: string): (r: string)
    ensures |r| <= MaxNameLength
    ensures AllAllowed(r)
    ensures NoDoubleSpace(r)
    ensures |r| > 0 ==> r[0] != ' '
  {
    var kept := StripDisallowed(title);
    CleanTitleShape(kept);
    Take(Trim(ReplaceSpaceRuns(kept, " ")), MaxNameLength)
  }

  /** The shape every cleaned title has. */
  predicate CleanShape(r: string) {
    AllAllowed(r) && NoDoubleSpace(r) && (|r| > 0 ==> r[0] != ' ')
  }

  lemma CleanTitleShape(kept: string)
    requires AllAllowed(kept)
    ensures CleanShape(Take(Trim(ReplaceSpaceRuns(kept, " ")), MaxNameLength))
  {
    var collapsed := ReplaceSpaceRuns(kept, " ");
    ReplaceKeepsAllowed(kept, " ");
    TakeTrimShape(collapsed);
  }

  lemma TakeTrimShape(collapsed: string)
    requires AllAllowed(collapsed) && NoDoubleSpace(collapsed)
    ensures CleanShape(Take(Trim(collapsed), MaxNameLength))
  {
    var t := Trim(collapsed);
    var k := TrimOffset(collapsed);
    assert k + |t| <= |collapsed| && t == collapsed[k..k + |t|];
    assert |t| > 0 ==> !IsWhitespace(t[0]);
    TakeShape(collapsed, k, t);
  }

  /** Cutting a slice of a well-shaped string whose first character is not
      blank keeps the shape. */
  lemma TakeShape(c: string, k: nat, t: string)
    requires AllAllowed(c) && NoDoubleSpace(c)
    requires k + |t| <= |c| && t == c[k..k + |t|]
    requires |t| > 0 ==> !IsWhitespace(t[0])
    ensures CleanShape(Take(t, MaxNameLength))
  {
    var r := Take(t, MaxNameLength);
    SliceOfSlice(c, k, |t|, |r|);
    SliceKeepsShape(c, k, k + |r|);
  }

  lemma SliceOfSlice(s: string, k: nat, n: nat, m: nat)
    requires m <= n && k + n <= |s|
    ensures s[k..k + n][..m] == s[k..k + m]
  {
  }

  /** Where the piece `Trim` keeps starts in its input. */
  function TrimOffset(s: string): (k: nat)
    ensures k + |Trim(s)| <= |s| && Trim(s) == s[k..k + |Trim(s)|]
  {
    |s| - |TrimStart(s)|
  }

  lemma SliceKeepsShape(s: string, lo: nat, hi: nat)
    requires lo <= hi <= |s|
    requires AllAllowed(s) && NoDoubleSpace(s)
    ensures AllAllowed(s[lo..hi]) && NoDoubleSpace(s[lo..hi])
  {
    var t := s[lo..hi];
    forall i | 0 <= i < |t| - 1 ensures !(IsRegexSpace(t[i]) && IsRegexSpace(t[i + 1])) {
      assert t[i] == s[lo + i] && t[i + 1] == s[lo + i + 1];
    }
  }

  /** Among the allowed characters the space is the only whitespace, for the
      regular expression and for `trim()` alike. */
  lemma AllowedWhitespace(c: char)
    requires IsAllowed(c)
    ensures IsRegexSpace(c) <==> c == ' '
    ensures IsWhitespace(c) <==> c == ' '
  {
  }

  lemma {:induction false} ReplaceKeepsAllowed(s: string, rep: string)
    requires AllAllowed(s) && AllAllowed(rep)
    ensures AllAllowed(ReplaceSpaceRuns(s, rep))
    decreases |s|
  {
    if |s| > 0 {
      if IsRegexSpace(s[0]) {
        var rest := DropSpaceRun(s);
        assert AllAllowed(rest) by {
          forall i | 0 <= i < |rest| ensures IsAllowed(rest[i]) {
            assert rest[i] == s[|s| - |rest| + i];
          }
        }
        ReplaceKeepsAllowed(rest, rep);
      } else {
        ReplaceKeepsAllowed(s[1..], rep);
      }
    }
  }

  /** A title that is already clean and short comes back unchanged; a longer
      one is only cut. */
  lemma CleanTitleOfClean(t: string)
    requires AllAllowed(t) && NoDoubleSpace(t)
    requires |t| > 0 ==> t[0] != ' ' && t[|t| - 1] != ' '
    ensures CleanTitle(t) == Take(t, MaxNameLength)
  {
    StripDisallowedFixpoint(t);
    forall i | 0 <= i < |t| ensures IsRegexSpace(t[i]) ==> t[i] == ' ' {
      AllowedWhitespace(t[i]);
    }
    ReplaceSpaceRunsIdentity(t);
    if |t| > 0 {
      AllowedWhitespace(t[0]);
      AllowedWhitespace(t[|t| - 1]);
      assert TrimStart(t) == t;
      assert TrimEnd(t) == t;
    }
  }

  /** The cleaned title is empty exactly when the title has no letter, digit,
      '-' or '_' at all; that is when the "Audio" fallback applies. */
  lemma CleanTitleEmpty(title: string)
    ensures CleanTitle(title) == "" <==> !HasVisible(title)
  {
    var kept := StripDisallowed(title);
    var collapsed := ReplaceSpaceRuns(kept, " ");
    StripDisallowedVisible(title);
    ReplaceSpaceRunsKeepsVisible(kept);
    if HasVisible(kept) {
      var i :| 0 <= i < |kept| && IsAllowed(kept[i]) && kept[i] != ' ';
      AllowedWhitespace(kept[i]);
      VisibleNonEmpty(kept, i);
      ReplaceKeepsAllowed(kept, " ");
      VisibleSubset(collapsed);
      assert !IsBlank(collapsed);
    } else {
      forall i | 0 <= i < |collapsed| ensures IsWhitespace(collapsed[i]) {
        CollapsedBlank(kept, i);
      }
    }
  }

  lemma {:induction false} VisibleNonEmpty(s: string, i: nat)
    requires i < |s| && !IsRegexSpace(s[i])
    ensures |Visible(s)| > 0
    decreases |s|
  {
    if i > 0 && IsRegexSpace(s[0]) {
      VisibleNonEmpty(s[1..], i - 1);
    }
  }

  /** If some character survives `Visible`, the string is not blank. */
  lemma {:induction false} VisibleSubset(s: string)
    requires AllAllowed(s)
    requires |Visible(s)| > 0
    ensures !IsBlank(s)
    decreases |s|
  {
    AllowedWhitespace(s[0]);
    if IsRegexSpace(s[0]) {
      VisibleSubset(s[1..]);
      var i :| 0 <= i < |s[1..]| && !IsWhitespace(s[1..][i]);
      assert s[i + 1] == s[1..][i];
    }
  }

  /** Without a visible character, collapsing yields whitespace only. */
  lemma CollapsedBlank(kept: string, i: nat)
    requires AllAllowed(kept) && !HasVisible(kept)
    requires i < |ReplaceSpaceRuns(kept, " ")|
    ensures IsWhitespace(ReplaceSpaceRuns(kept, " ")[i])
  {
    AllSpacesCollapse(kept);
  }

  lemma {:induction false} AllSpacesCollapse(s: string)
    requires forall i | 0 <= i < |s| :: s[i] == ' '
    ensures ReplaceSpaceRuns(s, " ") == "" || ReplaceSpaceRuns(s, " ") == " "
  {
    if |s| > 0 {
      assert DropSpaceRun(s) == "";
    }
  }

  /** When nothing is cut off, the cleaned title does not end in a space. */
  lemma CleanTitleNoTrailingSpaceWhenShort(title: string)
    requires |Trim(ReplaceSpaceRuns(StripDisallowed(title), " "))| <= MaxNameLength
    ensures var r := CleanTitle(title); |r| > 0 ==> r[|r| - 1] != ' '
  {
    var collapsed := ReplaceSpaceRuns(StripDisallowed(title), " ");
    assert CleanTitle(title) == Take(Trim(collapsed), MaxNameLength);
    ShortTrimNoTrailingSpace(collapsed);
  }

  lemma ShortTrimNoTrailingSpace(u: string)
    requires |Trim(u)| <= MaxNameLength
    ensures var r := Take(Trim(u), MaxNameLength); |r| > 0 ==> r[|r| - 1] != ' '
  {
    assert Take(Trim(u), MaxNameLength) == Trim(u);
  }

  /** Trimming happens before truncation, so a cut-off title can end in a
      space: 49 letters, a space and one more letter keep the space at
      position 50. */
  lemma CleanTitleMayEndInSpace(word: string)
    requires |word| == 49 && forall i | 0 <= i < 49 :: 'a' <= word[i] <= 'z'
    ensures CleanTitle(word + " b") == word + " "
  {
    var t := word + " b";
    WordSpaceLetterIsClean(word);
    CleanTitleOfClean(t);
    assert t[..50] == word + " ";
  }

  lemma WordSpaceLetterIsClean(word: string)
    requires |word| == 49 && forall i | 0 <= i < 49 :: 'a' <= word[i] <= 'z'
    ensures var t := word + " b"; AllAllowed(t) && NoDoubleSpace(t) && t[0] != ' ' && t[|t| - 1] != ' '
  {
    var t := word + " b";
    forall i | 0 <= i < |t| ensures IsAllowed(t[i]) && (i != 49 ==> !IsRegexSpace(t[i])) {
      if i < 49 { assert t[i] == word[i]; }
    }
  }

  /** `if (clean.isNotEmpty()) "<clean>_<ts>" else "Audio_<ts>"`, where the
      title may be null in the single-video converters. */
  function FileStem(title: Option<string>, timeStamp: string): (stem: string)
    ensures var k := |stem| - |timeStamp| - 1;
      1 <= k <= MaxNameLength && stem[k..] == "_" + timeStamp && AllAllowed(stem[..k]) && stem[0] != ' '
  {
    StemBase(title) + "_" + timeStamp
  }

  /** The part of the stem before "_<timestamp>": the cleaned title, or
      "Audio" when the title is null or cleans to nothing. */
  function StemBase(title: Option<string>): (base: string)
    ensures 0 < |base| <= MaxNameLength && AllAllowed(base) && base[0] != ' '
  {
    var clean := if title.Some? then CleanTitle(title.value) else "";
    if |clean| > 0 then clean
    else
      assert AllAllowed("Audio");
      "Audio"
  }

  /** The fallback is taken exactly when the title is null or has no visible
      allowed character. */
  lemma FileStemFallback(title: Option<string>, timeStamp: string)
    ensures FileStem(title, timeStamp) == "Audio_" + timeStamp
            <== (title.None? || !HasVisible(title.value))
    ensures title.Some? && HasVisible(title.value) ==>
            FileStem(title, timeStamp) == CleanTitle(title.value) + "_" + timeStamp
  {
    if title.Some? {
      CleanTitleEmpty(title.value);
    }
    if title.None? || !HasVisible(title.value) {
      assert StemBase(title) == "Audio";
      assert "Audio" + "_" == "Audio_";
    } else {
      assert StemBase(title) == CleanTitle(title.value);
    }
  }

  /** A title "Audio" and an empty title produce the same stem: the fallback
      does not keep the two apart. */
  lemma FileStemFallbackCollides(timeStamp: string)
    ensures FileStem(Some("Audio"), timeStamp) == FileStem(Some(""), timeStamp)
  {
    var a := "Audio";
    assert AllAllowed(a);
    assert NoDoubleSpace(a);
    CleanTitleOfClean(a);
  }

  /** Characters that never occur in a stem unless the timestamp brings
      them: no path separator, no line break, no '.', never a leading '#'. */
  lemma FileStemShape(title: Option<string>, timeStamp: string)
    ensures var r := FileStem(title, timeStamp);
      && |r| > 0 && r[0] != '#' && '.' !in r[..|r| - |timeStamp|]
      && ('/' !in timeStamp ==> '/' !in r)
      && ('\n' !in timeStamp ==> '\n' !in r)
  {
    StemShape(StemBase(title), timeStamp);
  }

  lemma StemShape(base: string, timeStamp: string)
    requires 0 < |base| && AllAllowed(base) && base[0] != ' '
    ensures var r := base + "_" + timeStamp;
      && |r| > 0 && r[0] != '#' && '.' !in r[..|r| - |timeStamp|]
      && ('/' !in timeStamp ==> '/' !in r)
      && ('\n' !in timeStamp ==> '\n' !in r)
  {
    var r := base + "_" + timeStamp;
    var head := base + "_";
    assert AllAllowed(head);
    assert r == head + timeStamp;
    assert r[..|r| - |timeStamp|] == head;
    AllowedExcludes(head, '.');
    AllowedExcludes(head, '/');
    AllowedExcludes(head, '\n');
    if '/' !in timeStamp {
      NotInConcat(head, timeStamp, '/');
    }
    if '\n' !in timeStamp {
      NotInConcat(head, timeStamp, '\n');
    }
  }

  lemma AllowedExcludes(s: string, c: char)
    requires AllAllowed(s) && !IsAllowed(c)
    ensures c !in s
  {
  }

  // ---------------------------------------------------------------------
  // Playlist name
  // ---------------------------------------------------------------------

  /** `name?.replace(disallowed, "")?.replace(\s+, "_")?.take(50)
      ?: "Playlist_<millis>"`: the fallback only covers a null name. */
  function PlaylistName(name: Option<string>, millis: nat): (r: string)
    ensures name.Some? ==> |r| <= MaxNameLength && AllAllowed(r) && ' ' !in r
    ensures name.None? ==> r == "Playlist_" + NatToString(millis)
  {
    match name
    case Some(n) =>
      var kept := StripDisallowed(n);
      var joined := ReplaceSpaceRuns(kept, "_");
      assert AllAllowed(joined) by { UnderscoreKeepsAllowed(kept); }
      var r := Take(joined, MaxNameLength);
      assert forall i | 0 <= i < |r| :: r[i] == joined[i];
      r
    case None =>
      "Playlist_" + NatToString(millis)
  }

  lemma {:induction false} UnderscoreKeepsAllowed(s: string)
    requires AllAllowed(s)
    ensures AllAllowed(ReplaceSpaceRuns(s, "_"))
    decreases |s|
  {
    if |s| > 0 {
      if IsRegexSpace(s[0]) {
        var rest := DropSpaceRun(s);
        assert AllAllowed(rest) by {
          forall i | 0 <= i < |rest| ensures IsAllowed(rest[i]) {
            assert rest[i] == s[|s| - |rest| + i];
          }
        }
        UnderscoreKeepsAllowed(rest);
      } else {
        UnderscoreKeepsAllowed(s[1..]);
      }
    }
  }

  /** `a` occurs in `b` in order, possibly with other characters between. */
  predicate IsSubsequence(a: string, b: string)
    decreases |b|
  {
    |a| == 0
    || (|b| > 0 && ((a[0] == b[0] && IsSubsequence(a[1..], b[1..])) || IsSubsequence(a, b[1..])))
  }

  lemma {:induction false} SubsequencePrepend(a: string, p: string, b: string)
    requires IsSubsequence(a, b)
    ensures IsSubsequence(a, p + b)
    decreases |p|
  {
    if |p| == 0 {
      assert p + b == b;
    } else if |a| > 0 {
      assert (p + b)[1..] == p[1..] + b;
      SubsequencePrepend(a, p[1..], b);
    }
  }

  /** Replacing each whitespace run by any text keeps every non-whitespace
      character, in order. */
  lemma {:induction false} ReplaceSpaceRunsKeepsOrder(s: string, rep: string)
    ensures IsSubsequence(Visible(s), ReplaceSpaceRuns(s, rep))
    decreases |s|
  {
    if |s| > 0 {
      if IsRegexSpace(s[0]) {
        var rest := DropSpaceRun(s);
        ReplaceSpaceRunsKeepsOrder(rest, rep);
        VisibleDropsRun(s);
        SubsequencePrepend(Visible(s), rep, ReplaceSpaceRuns(rest, rep));
      } else {
        ReplaceSpaceRunsKeepsOrder(s[1..], rep);
        var r := ReplaceSpaceRuns(s, rep);
        assert r[1..] == ReplaceSpaceRuns(s[1..], rep);
        assert Visible(s)[1..] == Visible(s[1..]);
      }
    }
  }

  /** Text without whitespace passes any run replacement unchanged. */
  lemma {:induction false} ReplaceSpaceRunsNoSpace(s: string, rep: string)
    requires forall i | 0 <= i < |s| :: !IsRegexSpace(s[i])
    ensures ReplaceSpaceRuns(s, rep) == s
    decreases |s|
  {
    if |s| > 0 {
      ReplaceSpaceRunsNoSpace(s[1..], rep);
      assert [s[0]] + s[1..] == s;
    }
  }

  /** The playlist-name cleaner keeps the name's allowed non-whitespace
      characters in order: all of them before the cut at 50, and the result
      is a prefix of that uncut text. */
  lemma PlaylistNameKeepsVisible(n: string, millis: nat)
    ensures var joined := ReplaceSpaceRuns(StripDisallowed(n), "_");
      var r := PlaylistName(Some(n), millis);
      && IsSubsequence(Visible(StripDisallowed(n)), joined)
      && StartsWith(joined, r)
      && (|joined| <= MaxNameLength ==> r == joined)
  {
    ReplaceSpaceRunsKeepsOrder(StripDisallowed(n), "_");
  }

  /** A name of at most 50 allowed characters without spaces is used as it
      is. */
  lemma PlaylistNameOfClean(n: string, millis: nat)
    requires |n| <= MaxNameLength && AllAllowed(n) && ' ' !in n
    ensures PlaylistName(Some(n), millis) == n
  {
    StripDisallowedFixpoint(n);
    forall i | 0 <= i < |n| ensures !IsRegexSpace(n[i]) {
      assert IsAllowed(n[i]) && n[i] != ' ';
    }
    ReplaceSpaceRunsNoSpace(n, "_");
  }

  /** Every space turned into an underscore. */
  function Underscored(s: string): (r: string)
    ensures |r| == |s|
  {
    seq(|s|, i requires 0 <= i < |s| => if s[i] == ' ' then '_' else s[i])
  }

  lemma UnderscoredSpace(x: string)
    ensures Underscored(" " + x) == "_" + Underscored(x)
  {
  }

  lemma UnderscoredKeep(c: char, x: string)
    requires c != ' '
    ensures Underscored([c] + x) == [c] + Underscored(x)
  {
  }

  /** Replacing each whitespace run by "_" is the title cleaner's collapse
      to single spaces followed by turning each space into "_": every run
      becomes exactly one underscore, and every other character stays. */
  lemma {:induction false} UnderscoreRunsAreCollapsedSpaces(s: string)
    ensures ReplaceSpaceRuns(s, "_") == Underscored(ReplaceSpaceRuns(s, " "))
    decreases |s|
  {
    if |s| > 0 {
      if IsRegexSpace(s[0]) {
        var rest := DropSpaceRun(s);
        assert ReplaceSpaceRuns(s, "_") == "_" + ReplaceSpaceRuns(rest, "_");
        assert ReplaceSpaceRuns(s, " ") == " " + ReplaceSpaceRuns(rest, " ");
        UnderscoreRunsAreCollapsedSpaces(rest);
        UnderscoredSpace(ReplaceSpaceRuns(rest, " "));
      } else {
        assert ReplaceSpaceRuns(s, "_") == [s[0]] + ReplaceSpaceRuns(s[1..], "_");
        assert ReplaceSpaceRuns(s, " ") == [s[0]] + ReplaceSpaceRuns(s[1..], " ");
        UnderscoreRunsAreCollapsedSpaces(s[1..]);
        UnderscoredKeep(s[0], ReplaceSpaceRuns(s[1..], " "));
      }
    }
  }

  /** The playlist-name cleaner and the title cleaner agree up to the
      separator, the trim and the cut: a non-null name is the filtered
      name collapsed to single spaces, with each space made "_", cut at 50. */
  lemma PlaylistNameIsUnderscoredCollapse(n: string, millis: nat)
    ensures PlaylistName(Some(n), millis)
            == Take(Underscored(ReplaceSpaceRuns(StripDisallowed(n), " ")), MaxNameLength)
  {
    UnderscoreRunsAreCollapsedSpaces(StripDisallowed(n));
  }

  /** A non-null name that filters to nothing yields the empty name rather
      than the "Playlist_<millis>" fallback. */
  lemma PlaylistNameEmpty(n: string, millis: nat)
    requires forall i | 0 <= i < |n| :: !IsAllowed(n[i])
    ensures PlaylistName(Some(n), millis) == ""
  {
    NothingAllowedStripsAll(n);
  }

  lemma {:induction false} NothingAllowedStripsAll(n: string)
    requires forall i | 0 <= i < |n| :: !IsAllowed(n[i])
    ensures StripDisallowed(n) == ""
    decreases |n|
  {
    if |n| > 0 {
      NothingAllowedStripsAll(n[1..]);
    }
  }
}

=== FILE: single_video.dfy ===
/**
 * The single-video converter screen (the activity and its fragment twin run
 * the same code): route the typed URL, pick the best audio stream of a
 * YouTube video, derive the output name and the FFmpeg argument vector, and
 * record what is left in the media store and on disk once FFmpeg returns.
 */
module SingleVideo {
  import opened Common
  import opened Sanitize
  import Pipeline
  import Manifest

  // ---------------------------------------------------------------------
  // Routing
  // ---------------------------------------------------------------------

  datatype Route =
    | EmptyInput          // toast "Please enter a URL", nothing started
    | Extract(url: string)
    | Direct(url: string) // converted with the title "DirectAudio"
    | InvalidUrl

  /** The `when` of `processUrl` on the trimmed input. */
  function RouteOf(input: string): (r: Route)
    ensures r.Extract? || r.Direct? ==> r.url == Trim(input) && |r.url| > 0
  {
    var url := Trim(input);
    if |url| == 0 then EmptyInput
    else if Contains(url, "youtube.com") || Contains(url, "youtu.be") then Extract(url)
    else if StartsWith(url, "http") then Direct(url)
    else InvalidUrl
  }

  /** Nothing is started exactly when the input is blank. */
  lemma EmptyRouteIffBlank(input: string)
    ensures RouteOf(input) == EmptyInput <==> IsBlank(input)
  {
  }

  /** A YouTube host wins over the `http` prefix; the prefix alone gives a
      direct conversion; anything else is rejected. */
  lemma RoutePrecedence(input: string)
    requires !IsBlank(input)
    ensures var url := Trim(input);
      && (Contains(url, "youtube.com") || Contains(url, "youtu.be") <==> RouteOf(input).Extract?)
      && (RouteOf(input).Direct? <==>
            (StartsWith(url, "http") && !Contains(url, "youtube.com") && !Contains(url, "youtu.be")))
      && (RouteOf(input) == InvalidUrl <==>
            (!StartsWith(url, "http") && !Contains(url, "youtube.com") && !Contains(url, "youtu.be")))
  {
  }

  // ---------------------------------------------------------------------
  // The FFmpeg invocation
  // ---------------------------------------------------------------------

  /** The argument vector every converter passes to FFmpeg: drop video,
      encode with LAME at 192 kbit/s and 44.1 kHz, overwrite the output. */
  function Command(url: string, output: string): (cmd: seq<string>)
    ensures |cmd| == 11 && cmd[|cmd| - 1] == output
  {
    ["-i", url, "-vn", "-acodec", "libmp3lame", "-ab", "192k", "-ar", "44100", "-y", output]
  }

  /** The value following the first occurrence of `flag` in `args[k..]`. */
  function ArgAfter(args: seq<string>, flag: string, k: nat): Option<string>
    decreases |args| - k
  {
    if k + 1 >= |args| then None
    else if args[k] == flag then Some(args[k + 1])
    else ArgAfter(args, flag, k + 1)
  }

  /** Reading the vector back as option/value pairs gives the input URL,
      codec, bitrate and sample rate, provided the URL is not itself one of
      the option names. */
  lemma CommandReadsBack(url: string, output: string)
    requires url !in {"-acodec", "-ab", "-ar"}
    ensures var cmd := Command(url, output);
      && ArgAfter(cmd, "-i", 0) == Some(url)
      && ArgAfter(cmd, "-acodec", 0) == Some("libmp3lame")
      && ArgAfter(cmd, "-ab", 0) == Some("192k")
      && ArgAfter(cmd, "-ar", 0) == Some("44100")
  {
    var cmd := Command(url, output);
    SkipArgs(cmd, "-acodec", 0, 3);
    SkipArgs(cmd, "-ab", 0, 5);
    SkipArgs(cmd, "-ar", 0, 7);
  }

  lemma {:induction false} SkipArgs(args: seq<string>, flag: string, k: nat, m: nat)
    requires k <= m < |args|
    requires forall j | k <= j < m :: args[j] != flag
    ensures ArgAfter(args, flag, k) == ArgAfter(args, flag, m)
    decreases m - k
  {
    if k < m {
      SkipArgs(args, flag, k + 1, m);
    }
  }

  // ---------------------------------------------------------------------
  // convertToMp3
  // ---------------------------------------------------------------------

  /** What the outside world does during one conversion. */
  datatype ConvertWorld = ConvertWorld(
    scopedStorage: bool,    // SDK_INT >= Q: go through the media store
    insert: Attempt<bool>,  // resolver.insert: a row (true), null (false) or an exception
    exitCode: int,          // FFmpeg.execute(command)
    stamp: string,          // "yyyyMMdd_HHmm"
    cacheDir: string,
    musicDir: string)

  /** A media-store row the conversion created. */
  datatype Row = NoRow | PendingRow(displayName: string) | PublishedRow(displayName: string)

  datatype Conversion = Conversion(
    status: string,                 // the status line shown last
    command: Option<seq<string>>,   // what FFmpeg was asked to run
    row: Row,
    savedFile: Option<string>,      // the public file, on the legacy path
    leftover: Option<string>)       // a file written but never cleaned up

  /** Every status line is "Status: " followed by its text. */
  const StatusPrefixLength: nat := 8

  function StatusLine(text: string): (s: string)
    ensures |s| == StatusPrefixLength + |text| && s[StatusPrefixLength..] == text
    ensures |text| > 0 ==> s[StatusPrefixLength] == text[0]
  {
    "Status: " + text
  }

  /** The conversion's own status lines carry a check or a cross mark. */
  const CheckMark: char := '\U{2705}'
  const CrossMark: char := '\U{274C}'

  predicate Marked(status: string) {
    |status| > StatusPrefixLength && status[StatusPrefixLength] in {CheckMark, CrossMark}
  }

  function StatusSuccess(fileName: string): (s: string)
    ensures Marked(s)
  {
    StatusLine([CheckMark] + " Success! Saved as " + fileName + ".mp3")
  }

  function StatusFailed(rc: int): (s: string)
    ensures Marked(s)
  {
    StatusLine([CrossMark] + " Failed (RC=" + IntToString(rc) + "). Check logs.")
  }

  function StatusNoEntry(): (s: string)
    ensures Marked(s)
  {
    StatusLine([CrossMark] + " Failed to create MediaStore entry")
  }

  function StatusException(): (s: string)
    ensures Marked(s)
  {
    StatusLine([CrossMark] + " Exception occurred")
  }

  /** The file name before ".mp3": the cleaned title, or "Audio" when the
      title is null or cleans to nothing, then "_<timestamp>". */
  function OutputStem(title: Option<string>, stamp: string): (stem: string)
    ensures stem == StemBase(title) + "_" + stamp
  {
    FileStem(title, stamp)
  }

  /** `convertToMp3(url, title)`, followed to the end of its coroutine. */
  function Convert(url: string, title: Option<string>, cw: ConvertWorld): (c: Conversion)
    ensures c.command.Some? ==> |c.command.value| == 11 && c.command.value[1] == url
    ensures c.savedFile.Some? ==> !cw.scopedStorage
    ensures c.row.PublishedRow? || c.savedFile.Some? ==> c.status == StatusSuccess(OutputStem(title, cw.stamp))
    ensures Marked(c.status)
  {
    var name := OutputStem(title, cw.stamp);
    if cw.scopedStorage then ScopedConvert(url, name, cw) else LegacyConvert(url, name, cw)
  }

  /** Android 10 and later: a media-store row first, FFmpeg into the cache,
      then the copy into the row. */
  function ScopedConvert(url: string, name: string, cw: ConvertWorld): (c: Conversion)
    ensures c.command.Some? ==> |c.command.value| == 11 && c.command.value[1] == url
    ensures c.savedFile.None?
    ensures c.row.PublishedRow? ==> c.status == StatusSuccess(name)
    ensures Marked(c.status)
  {
    match cw.insert
    case Threw(_) => Conversion(StatusException(), None, NoRow, None, None)
    case Ok(created) =>
      if !created then Conversion(StatusNoEntry(), None, NoRow, None, None)
      else
        var temp := Pipeline.Mp3Path(cw.cacheDir, name);
        var cmd := Command(url, temp);
        if cw.exitCode == 0 then Conversion(StatusSuccess(name), Some(cmd), PublishedRow(name + ".mp3"), None, None)
        else Conversion(StatusFailed(cw.exitCode), Some(cmd), PendingRow(name + ".mp3"), None, Some(temp))
  }

  /** Android 9 and earlier: FFmpeg writes straight into the music folder. */
  function LegacyConvert(url: string, name: string, cw: ConvertWorld): (c: Conversion)
    ensures c.command.Some? && |c.command.value| == 11 && c.command.value[1] == url
    ensures c.row == NoRow
    ensures c.savedFile.Some? ==> c.status == StatusSuccess(name)
    ensures Marked(c.status)
  {
    var out := Pipeline.Mp3Path(cw.musicDir, name);
    var cmd := Command(url, out);
    if cw.exitCode == 0 then Conversion(StatusSuccess(name), Some(cmd), NoRow, Some(out), None)
    else Conversion(StatusFailed(cw.exitCode), Some(cmd), NoRow, None, Some(out))
  }

  /** The song is saved exactly when FFmpeg ran and returned 0. */
  lemma ConvertSucceedsIff(url: string, title: Option<string>, cw: ConvertWorld)
    ensures var c := Convert(url, title, cw);
      (c.row.PublishedRow? || c.savedFile.Some?) <==> c.command.Some? && cw.exitCode == 0
  {
  }

  /** A non-zero exit code cleans nothing up: the output file stays and, on
      scoped storage, the media-store row stays pending. The exception path
      leaves nothing behind, since it can only be reached before the row and
      the temporary file exist. */
  lemma NoCleanupOnFailure(url: string, title: Option<string>, cw: ConvertWorld)
    ensures var c := Convert(url, title, cw);
      && (c.command.Some? && cw.exitCode != 0 ==>
            c.leftover == Some(c.command.value[10])
            && (cw.scopedStorage ==> c.row == PendingRow(OutputStem(title, cw.stamp) + ".mp3")))
      && (cw.scopedStorage && cw.insert.Threw? ==> c.row == NoRow && c.leftover.None? && c.command.None?)
  {
    var c := Convert(url, title, cw);
    var name := OutputStem(title, cw.stamp);
    if c.command.Some? && cw.exitCode != 0 {
      var out := Pipeline.Mp3Path(if cw.scopedStorage then cw.cacheDir else cw.musicDir, name);
      assert c.command.value == Command(url, out);
      assert c.leftover == Some(out);
    }
  }

  /** The single-video converter names a file exactly as the playlist
      service's save step does, for the same title and timestamp: FFmpeg's
      output file on both storage paths, and the media-store row on scoped
      storage. */
  lemma SameNameAsService(url: string, title: string, cw: ConvertWorld, folder: string, w: Pipeline.ItemWorld)
    requires w.streamInfo.Ok? && Pipeline.StreamTitle(w.streamInfo.value) == title
    requires w.saveStamp == cw.stamp && (cw.scopedStorage ==> cw.insert == Ok(true))
    requires '/' !in cw.stamp
    ensures var c := Convert(url, Some(title), cw);
      var saved := Manifest.FileName(Pipeline.SavedPath(folder, w));
      && c.command.Some? && Manifest.FileName(c.command.value[10]) == saved
      && (cw.scopedStorage ==> c.row.displayName == saved)
  {
    var stem := FileStem(Some(title), cw.stamp);
    FileStemShape(Some(title), cw.stamp);
    Pipeline.Mp3FileName(folder, stem);
    if cw.scopedStorage {
      ScopedOutput(url, Some(title), cw);
      Pipeline.Mp3FileName(cw.cacheDir, stem);
    } else {
      LegacyOutput(url, Some(title), cw);
      Pipeline.Mp3FileName(cw.musicDir, stem);
    }
  }

  /** Without scoped storage FFmpeg writes straight into the music folder. */
  lemma LegacyOutput(url: string, title: Option<string>, cw: ConvertWorld)
    requires !cw.scopedStorage
    ensures Convert(url, title, cw).command == Some(Command(url, Pipeline.Mp3Path(cw.musicDir, OutputStem(title, cw.stamp))))
  {
  }

  /** With scoped storage and a created row, FFmpeg writes a file of the
      row's display name into the cache folder. */
  lemma ScopedOutput(url: string, title: Option<string>, cw: ConvertWorld)
    requires cw.scopedStorage && cw.insert == Ok(true)
    ensures var c := Convert(url, title, cw);
      var stem := OutputStem(title, cw.stamp);
      && c.command == Some(Command(url, Pipeline.Mp3Path(cw.cacheDir, stem)))
      && c.row.displayName == stem + ".mp3"
  {
  }

  // ---------------------------------------------------------------------
  // processUrl and extractYouTubeUrl
  // ---------------------------------------------------------------------

  /** What the outside world does for one press of the convert button. */
  datatype UrlWorld = UrlWorld(
    streams: Attempt<seq<Pipeline.AudioStream>>,  // first StreamInfo.getInfo(url).audioStreams
    info: Attempt<Pipeline.StreamInfo>,           // second StreamInfo.getInfo(url), for the title
    convert: ConvertWorld)

  datatype Screen = Screen(
    status: Option<string>,          // the status line, if it was changed
    toast: Option<string>,
    conversion: Option<Conversion>)  // the conversion started, if any

  function StatusNoStream(): (s: string)
    ensures !Marked(s)
  {
    StatusLine("No audio stream found")
  }

  function StatusFound(title: string): (s: string)
    ensures !Marked(s)
  {
    StatusLine("Found \"" + title + "\", converting...")
  }

  /** `extractYouTubeUrl(url)`. */
  function ExtractOutcome(url: string, uw: UrlWorld): (s: Screen)
    ensures s.conversion.Some? ==> uw.streams.Ok? && |uw.streams.value| > 0 && uw.info.Ok?
  {
    match uw.streams
    case Threw(m) => Screen(Some(StatusLine("Extraction error")), Some("Extraction failed: " + MessageText(m)), None)
    case Ok(result) =>
      if |result| == 0 then
        Screen(Some(StatusLine("Failed to extract YouTube URL")),
               Some("Failed to extract YouTube URL. Video might be private, restricted, or unsupported."), None)
      else
        var best := Pipeline.BestAudio(result);
        if best.None? then
          Screen(Some(StatusNoStream()), Some("No audio stream found in this video"), None)
        else
          match uw.info
          case Threw(m) => Screen(Some(StatusLine("Extraction error")), Some("Extraction failed: " + MessageText(m)), None)
          case Ok(info) =>
            var title := Pipeline.StreamTitle(info);
            var found := StatusFound(title);
            match best.value.url
            case None => Screen(Some(found), None, None)
            case Some(streamUrl) =>
              var c := Convert(streamUrl, Some(title), uw.convert);
              Screen(Some(c.status), None, Some(c))
  }

  /** The branch of `processUrl()` taken for a route. */
  function RouteScreen(route: Route, uw: UrlWorld): (s: Screen)
    ensures route == EmptyInput ==> s == Screen(None, Some("Please enter a URL"), None)
    ensures route == InvalidUrl ==>
      s == Screen(Some(StatusLine("Invalid URL format")), Some("Please enter a valid URL"), None)
    ensures route.Direct? ==> s.conversion == Some(Convert(route.url, Some("DirectAudio"), uw.convert))
    ensures s.conversion.Some? ==> route.Extract? || route.Direct?
  {
    match route
    case EmptyInput => Screen(None, Some("Please enter a URL"), None)
    case InvalidUrl => Screen(Some(StatusLine("Invalid URL format")), Some("Please enter a valid URL"), None)
    case Direct(url) =>
      var c := Convert(url, Some("DirectAudio"), uw.convert);
      Screen(Some(c.status), None, Some(c))
    case Extract(url) => ExtractOutcome(url, uw)
  }

  /** `processUrl()` on the text in the input field. */
  function ProcessUrl(input: string, uw: UrlWorld): (s: Screen)
    ensures RouteOf(input) == EmptyInput ==> s == Screen(None, Some("Please enter a URL"), None)
    ensures RouteOf(input) == InvalidUrl ==>
      s == Screen(Some(StatusLine("Invalid URL format")), Some("Please enter a valid URL"), None)
    ensures s.conversion.Some? ==> RouteOf(input).Extract? || RouteOf(input).Direct?
  {
    RouteScreen(RouteOf(input), uw)
  }

  /** `maxByOrNull` of a non-empty list is never null, so the "No audio
      stream found" branch cannot be taken. */
  lemma NoAudioBranchUnreachable(input: string, uw: UrlWorld)
    ensures ProcessUrl(input, uw).status != Some(StatusNoStream())
  {
    match RouteOf(input)
    case EmptyInput =>
    case InvalidUrl =>
    case Direct(url) =>
    case Extract(url) =>
      ExtractStatusIsNotNoStream(url, uw);
  }

  lemma ExtractStatusIsNotNoStream(url: string, uw: UrlWorld)
    ensures ExtractOutcome(url, uw).status != Some(StatusNoStream())
  {
    if uw.streams.Ok? && |uw.streams.value| > 0 && uw.info.Ok? {
      var best := Pipeline.BestAudio(uw.streams.value);
      var title := Pipeline.StreamTitle(uw.info.value);
      FoundIsNotNoStream(title);
    }
  }

  lemma FoundIsNotNoStream(title: string)
    ensures StatusFound(title) != StatusNoStream()
  {
    var f := StatusFound(title)[StatusPrefixLength..];
    var n := StatusNoStream()[StatusPrefixLength..];
    assert f[0] == 'F' && n[0] == 'N';
  }

  /** A direct link is converted under the title "DirectAudio". */
  lemma DirectLinkConverts(input: string, uw: UrlWorld)
    requires RouteOf(input).Direct?
    ensures ProcessUrl(input, uw).conversion == Some(Convert(Trim(input), Some("DirectAudio"), uw.convert))
  {
    assert ProcessUrl(input, uw) == RouteScreen(RouteOf(input), uw);
  }

  /** "DirectAudio" survives cleaning unchanged, so a direct link's file is
      named "DirectAudio_<timestamp>.mp3". */
  lemma DirectAudioIsClean()
    ensures CleanTitle("DirectAudio") == "DirectAudio"
  {
    var t := "DirectAudio";
    assert AllAllowed(t);
    assert NoDoubleSpace(t);
    CleanTitleOfClean(t);
  }
}

=== FILE: sleep_timer.dfy ===
/**
 * The sleep timer: the time picker's hour and minute are stored as seconds
 * since midnight, decoded again when the screen opens, turned into an
 * alarm delay when the screen is left with the switch on, and checked by
 * the player screen to show whether the timer is still pending.
 */
module SleepTimer {
  import opened Common

  const SecondsPerDay: int := 24 * 3600
  const MillisPerDay: int := 86_400_000

  /** The value the time picker starts from when nothing is stored: 10:08. */
  const DefaultTimerSeconds: int := 36480

  /** A 24-hour time picker position. */
  predicate ValidTime(hour: int, minute: int) {
    0 <= hour < 24 && 0 <= minute < 60
  }

  /** Kotlin's `/` on `Int`: rounds toward zero. */
  function KDiv(a: int, b: int): (q: int)
    requires b > 0
    ensures a >= 0 ==> q == a / b
  {
    if a >= 0 then a / b else -((-a) / b)
  }

  /** Kotlin's `%` on `Int`: takes the sign of the dividend. */
  function KRem(a: int, b: int): (r: int)
    requires b > 0
    ensures a == KDiv(a, b) * b + r
    ensures a >= 0 ==> r == a % b
  {
    if a >= 0 then a % b else -((-a) % b)
  }

  // ---------------------------------------------------------------------
  // Storing and restoring the picker
  // ---------------------------------------------------------------------

  /** `convertInt()`. */
  function ConvertInt(hour: int, minute: int): (t: int)
    requires ValidTime(hour, minute)
    ensures 0 <= t <= 23 * 3600 + 59 * 60 && t % 60 == 0
  {
    var t := hour * 3600 + minute * 60;
    DivModUnique(t, 60, hour * 60 + minute, 0);
    t
  }

  /** `updateTimePicker()`: hours = t / 60 / 60 and minutes = t / 60 % 60. */
  function DecodeTime(t: int): (hm: (int, int))
    ensures t >= 0 ==> hm.0 >= 0 && 0 <= hm.1 < 60
  {
    (KDiv(KDiv(t, 60), 60), KRem(KDiv(t, 60), 60))
  }

  /** Decoding inverts storing for every picker position. */
  lemma DecodeConvert(hour: int, minute: int)
    requires ValidTime(hour, minute)
    ensures DecodeTime(ConvertInt(hour, minute)) == (hour, minute)
  {
    var t := ConvertInt(hour, minute);
    DivModUnique(t, 60, hour * 60 + minute, 0);
    DivModUnique(hour * 60 + minute, 60, hour, minute);
  }

  /** Storing inverts decoding on every stored value it can produce. */
  lemma ConvertDecode(t: int)
    requires 0 <= t < SecondsPerDay && t % 60 == 0
    ensures ValidTime(DecodeTime(t).0, DecodeTime(t).1)
    ensures ConvertInt(DecodeTime(t).0, DecodeTime(t).1) == t
  {
    var m := t / 60;
    DivModUnique(t, 60, m, 0);
    var h := m / 60;
    var mm := m % 60;
    assert t == h * 3600 + mm * 60;
  }

  /** The default stored value shows 10:08. */
  lemma DefaultIsTenOhEight()
    ensures DecodeTime(DefaultTimerSeconds) == (10, 8)
  {
    DecodeConvert(10, 8);
  }

  /** `amPm`. */
  function AmPm(hour: int): (s: string)
    ensures s == "AM" || s == "PM"
  {
    if hour < 12 then "AM" else "PM"
  }

  lemma AmIffMorning(hour: int)
    ensures AmPm(hour) == "AM" <==> hour < 12
  {
  }

  // ---------------------------------------------------------------------
  // Leaving the screen
  // ---------------------------------------------------------------------

  /**
   * `calculateDelayUntilTime()`: the target is today's midnight plus the
   * picked hour and minute; when that is not after `now` one day (of fixed
   * length) is added.
   */
  function DelayUntil(hour: int, minute: int, midnight: int, now: int): (delay: int)
    requires ValidTime(hour, minute)
    ensures var today := midnight + hour * 3_600_000 + minute * 60_000;
      (now + delay == today || now + delay == today + MillisPerDay)
      && (now < today ==> now + delay == today)
      && (now < today + MillisPerDay ==> delay > 0)
  {
    var today := midnight + hour * 3_600_000 + minute * 60_000;
    var target := if today <= now then today + MillisPerDay else today;
    target - now
  }

  /** When `now` lies within the day starting at `midnight`, the delay is
      positive and at most one day. */
  lemma DelayInRange(hour: int, minute: int, midnight: int, now: int)
    requires ValidTime(hour, minute)
    requires midnight <= now < midnight + MillisPerDay
    ensures 0 < DelayUntil(hour, minute, midnight, now) <= MillisPerDay
  {
  }

  /** What the alarm manager is asked to do. */
  datatype AlarmRequest =
    | Schedule(triggerAt: int)    // exact wake-up alarm at this wall-clock time
    | PermissionRequest           // exact alarms not allowed: ask the user
    | CancelAlarm                 // `cancelSleepTimer()`
    | KeepAlarm                   // the alarm manager is not called: an earlier alarm stays armed

  /** What leaving the screen stores, requests and reports. */
  datatype BackOutcome = BackOutcome(
    storedTime: int,
    storedSwitch: bool,
    alarm: AlarmRequest,
    timerActive: bool,            // the "sleep_timer_active" result extra
    toast: BackToast)

  /** The toast shown on the way out. */
  datatype BackToast =
    | TimerSet(time: string)      // "Sleep timer set for HH:MM"
    | AskPermission               // exact alarms must be allowed first
    | AlreadyPassed               // "Selected time has already passed today. ..."
    | TimerCancelled

  /**
   * `onBackPressed()`. `now` is the clock when the delay is computed,
   * `scheduleClock` the clock when the alarm is set, `exactAllowed` whether
   * exact alarms may be scheduled.
   */
  function OnBackPressed(hour: int, minute: int, switchOn: bool, midnight: int, now: int,
                         scheduleClock: int, exactAllowed: bool): (o: BackOutcome)
    requires ValidTime(hour, minute)
    ensures DecodeTime(o.storedTime) == (hour, minute) && o.storedSwitch == switchOn
    ensures !switchOn ==> o.alarm == CancelAlarm && !o.timerActive
    ensures switchOn ==> o.alarm != CancelAlarm
    ensures o.alarm == KeepAlarm <==> switchOn && !o.timerActive
  {
    DecodeConvert(hour, minute);
    var t := ConvertInt(hour, minute);
    if switchOn then
      var delay := DelayUntil(hour, minute, midnight, now);
      if delay > 0 then
        var alarm := if exactAllowed then Schedule(scheduleClock + delay) else PermissionRequest;
        var toast := if exactAllowed then TimerSet(ZeroPad(hour, 2) + ":" + ZeroPad(minute, 2)) else AskPermission;
        BackOutcome(t, true, alarm, true, toast)
      else
        BackOutcome(t, true, KeepAlarm, false, AlreadyPassed)
    else
      BackOutcome(t, false, CancelAlarm, false, TimerCancelled)
  }

  /** With the clock inside the current day, turning the switch on always
      activates the timer: the "already passed" branch cannot be taken, and
      the alarm fires within one day of the scheduling clock. */
  lemma SwitchOnActivates(hour: int, minute: int, midnight: int, now: int, scheduleClock: int, exactAllowed: bool)
    requires ValidTime(hour, minute)
    requires midnight <= now < midnight + MillisPerDay
    ensures var o := OnBackPressed(hour, minute, true, midnight, now, scheduleClock, exactAllowed);
      && o.timerActive && o.toast != AlreadyPassed
      && (exactAllowed <==> o.alarm.Schedule?)
      && (o.alarm.Schedule? ==> scheduleClock < o.alarm.triggerAt <= scheduleClock + MillisPerDay)
  {
    DelayInRange(hour, minute, midnight, now);
  }

  /** The "already passed" branch is taken only when the clock has left
      the day of `midnight`, which the screen never does (it always passes
      the start of the current day; see `SwitchOnActivates`). Were it taken,
      it would leave any earlier alarm armed, as here with midnight 0 and
      the clock two days later. */
  lemma AlreadyPassedKeepsAlarm()
    ensures var o := OnBackPressed(0, 0, true, 0, 2 * MillisPerDay, 2 * MillisPerDay, true);
      o.toast == AlreadyPassed && o.alarm == KeepAlarm && !o.timerActive
  {
  }

  // ---------------------------------------------------------------------
  // The player screen's check box
  // ---------------------------------------------------------------------

  /** The player's "now": hour * 3600 + minute * 60, seconds ignored. */
  function NowSeconds(hour: int, minute: int): (t: int)
    requires ValidTime(hour, minute)
    ensures t == ConvertInt(hour, minute)
  {
    hour * 3600 + minute * 60
  }

  /** `isSleepTimerStillActive(timerSeconds)` at the clock time `now`, in
      32-bit arithmetic. */
  function IsStillActive(timerSeconds: int, now: int): (active: bool)
    ensures timerSeconds > now ==> active
  {
    if timerSeconds > now then true
    else WrapInt32(WrapInt32(timerSeconds + SecondsPerDay) - now) < SecondsPerDay
  }

  /** The "timer might be tomorrow" branch accepts exactly the timers
      strictly before now, so the check reduces to "the timer is not set to
      the current minute". */
  lemma StillActiveIffNotNow(timerSeconds: int, hour: int, minute: int)
    requires IsInt32(timerSeconds) && ValidTime(hour, minute)
    ensures IsStillActive(timerSeconds, NowSeconds(hour, minute)) <==> timerSeconds != NowSeconds(hour, minute)
  {
  }

  /** The stored preferences the player screen reads; `timerSeconds` is
      absent when nothing was stored (read with default 0). */
  datatype SleepPrefs = SleepPrefs(switchOn: bool, timerSeconds: Option<int>)

  /** `updateSleepTimerState()`: whether the check box ends up checked.
      Reading the preferences and reading the clock may each throw, and
      either failure leaves the box unchecked. */
  function CheckBoxChecked(prefs: Attempt<SleepPrefs>, clock: Attempt<(int, int)>): (checked: bool)
    requires clock.Ok? ==> ValidTime(clock.value.0, clock.value.1)
    requires prefs.Ok? && prefs.value.timerSeconds.Some? ==> IsInt32(prefs.value.timerSeconds.value)
    ensures checked ==> prefs.Ok? && prefs.value.switchOn && clock.Ok?
  {
    match prefs
    case Threw(_) => false
    case Ok(p) =>
      if !p.switchOn then false
      else
        match clock
        case Threw(_) => false
        case Ok(hm) => IsStillActive(p.timerSeconds.GetOr(0), NowSeconds(hm.0, hm.1))
  }

  /** The box is checked exactly when the switch is on and the stored time
      differs from the current minute. */
  lemma CheckBoxIff(p: SleepPrefs, hour: int, minute: int)
    requires ValidTime(hour, minute)
    requires p.timerSeconds.Some? ==> IsInt32(p.timerSeconds.value)
    ensures CheckBoxChecked(Ok(p), Ok((hour, minute)))
            <==> p.switchOn && p.timerSeconds.GetOr(0) != NowSeconds(hour, minute)
  {
    if p.switchOn {
      StillActiveIffNotNow(p.timerSeconds.GetOr(0), hour, minute);
    }
  }

  /** The toast's hours = t / 3600 and minutes = t % 3600 / 60. */
  function ToastTime(t: int): (hm: (int, int))
    ensures t >= 0 ==> 0 <= hm.1 < 60 && hm.0 * 3600 + hm.1 * 60 <= t < hm.0 * 3600 + hm.1 * 60 + 60
    ensures t < 0 ==> hm.0 <= 0 && -60 < hm.1 <= 0
  {
    (KDiv(t, 3600), KDiv(KRem(t, 3600), 60))
  }

  /** The player screen's decoding agrees with the timer screen's on every
      non-negative stored value. */
  lemma ToastAgreesWithPicker(t: int)
    requires t >= 0
    ensures ToastTime(t) == DecodeTime(t)
  {
    var m := t / 60;
    var h := m / 60;
    var mm := m % 60;
    var s := t % 60;
    assert t == h * 3600 + (mm * 60 + s);
    DivModUnique(t, 3600, h, mm * 60 + s);
    DivModUnique(mm * 60 + s, 60, mm, s);
  }
}

=== FILE: song.dfy ===
/**
 * The `Song` entity: its title derived from the file name, identity by
 * `songId`, the parent folder name, the duration read from metadata, and
 * `hashCode` as written next to the identity-consistent hash.
 */
module Songs {
  import opened Common
  import Manifest

  // ---------------------------------------------------------------------
  // Data
  // ---------------------------------------------------------------------

  /** `java.util.UUID` as its two 64-bit halves. */
  datatype Uuid = Uuid(mostSigBits: bv64, leastSigBits: bv64)

  /**
   * A song. `file` is the song's absolute path (so `path == file`);
   * `album` stands for the attached album's own hash code, since the album
   * entity is not part of this model.
   */
  datatype Song = Song(
    songId: Uuid,
    file: string,
    title: string,
    albumID: Option<Uuid>,
    album: Option<int>)

  // ---------------------------------------------------------------------
  // Title from the file name
  // ---------------------------------------------------------------------

  /** `file.name.replace("(?<!^)[.][^.]*$".toRegex(), "")`: the last '.'
      and everything after it are removed, unless that '.' is the first
      character. */
  function TitleFromFileName(name: string): (title: string)
    ensures |title| <= |name| && title == name[..|title|]
    ensures |title| < |name| ==> |title| > 0 && name[|title|] == '.' && '.' !in name[|title| + 1..]
  {
    match LastIndexOf(name, '.')
    case None => name
    case Some(k) =>
      if k == 0 then name
      else
        var tail := name[k + 1..];
        assert forall j | 0 <= j < |tail| :: tail[j] == name[k + 1 + j];
        name[..k]
  }

  /** The second constructor: the title is derived from the file's name. */
  function SongFromFile(songId: Uuid, file: string): (s: Song)
    ensures s.songId == songId && s.file == file && s.albumID.None? && s.album.None?
    ensures s.title == TitleFromFileName(Manifest.FileName(file))
  {
    Song(songId, file, TitleFromFileName(Manifest.FileName(file)), None, None)
  }

  /** A name with no '.', or whose only '.' is its first character, is kept
      whole. */
  lemma TitleKeepsDotlessName(name: string)
    requires '.' !in name || (name[0] == '.' && '.' !in name[1..])
    ensures TitleFromFileName(name) == name
  {
  }

  /** Stripping the extension of "stem.ext" gives back the stem, for any
      non-empty stem and dot-free extension. */
  lemma TitleStripsExtension(stem: string, ext: string)
    requires |stem| > 0 && '.' !in ext
    ensures TitleFromFileName(stem + "." + ext) == stem
  {
    var name := stem + "." + ext;
    assert name[|stem|] == '.';
    assert name[..|stem|] == stem;
  }

  /** The title and the manifest's `nameWithoutExtension` differ only on
      names whose last '.' is the first character, where the title keeps
      the whole name and `nameWithoutExtension` is empty. */
  lemma TitleVersusNameWithoutExtension(name: string)
    ensures (|name| > 0 && name[0] == '.' && '.' !in name[1..])
            <==> TitleFromFileName(name) != Manifest.NameWithoutExtension(name)
  {
    if |name| > 0 && name[0] == '.' && '.' !in name[1..] {
      TitleKeepsDotlessName(name);
    }
  }

  // ---------------------------------------------------------------------
  // Identity
  // ---------------------------------------------------------------------

  /** `equals(other)`: `other` is `None` when it is null or not a `Song`. */
  predicate SongEquals(a: Song, other: Option<Song>): (eq: bool)
    ensures other == Some(a) ==> eq
    ensures eq ==> other.Some?
  {
    other.Some? && other.value.songId == a.songId
  }

  /** `equals` is an equivalence on songs, and two songs are equal exactly
      when their ids are, whatever their files and titles. */
  lemma EqualsIsEquivalence(a: Song, b: Song, c: Song)
    ensures SongEquals(a, Some(a))
    ensures SongEquals(a, Some(b)) <==> SongEquals(b, Some(a))
    ensures SongEquals(a, Some(b)) && SongEquals(b, Some(c)) ==> SongEquals(a, Some(c))
    ensures !SongEquals(a, None)
  {
  }

  // ---------------------------------------------------------------------
  // Folder name and duration
  // ---------------------------------------------------------------------

  /** `folderName`: the second-to-last '/'-separated segment of the path,
      or "Unknown" when the path has no '/'. */
  function FolderName(path: string): (folder: string)
    ensures '/' in path ==> '/' !in folder
    ensures '/' !in path ==> folder == "Unknown"
  {
    var folders := SplitOn(path, '/');
    assert '/' !in path ==> |folders| == 1 by {
      if '/' !in path { SplitNoSep(path, '/'); }
    }
    if |folders| >= 2 then folders[|folders| - 2] else "Unknown"
  }

  lemma {:induction false} SplitLast(x: string, y: string, sep: char)
    requires sep !in y
    ensures SplitOn(x + [sep] + y, sep) == SplitOn(x, sep) + [y]
    decreases |x|
  {
    var s := x + [sep] + y;
    if |x| == 0 {
      assert s[1..] == y;
      SplitNoSep(y, sep);
    } else {
      assert s[1..] == x[1..] + [sep] + y;
      SplitLast(x[1..], y, sep);
    }
  }

  /** For "<dir>/<name>" the folder is the last segment of `dir`; in
      particular "/x.mp3" has the empty folder name. */
  lemma FolderNameIsParent(dir: string, name: string)
    requires '/' !in name
    ensures FolderName(dir + "/" + name) == SplitOn(dir, '/')[|SplitOn(dir, '/')| - 1]
    ensures dir == "" ==> FolderName(dir + "/" + name) == ""
  {
    var path := dir + "/" + name;
    assert path == dir + ['/'] + name;
    SplitLast(dir, name, '/');
    var parts := SplitOn(dir, '/');
    assert SplitOn(path, '/') == parts + [name];
    assert (parts + [name])[|parts| - 1] == parts[|parts| - 1];
    if dir == "" {
      assert SplitOn(dir, '/') == [""];
    }
  }

  /** The folder of "<dir>/<folder>/<name>" is `folder`. */
  lemma FolderNameOfLayout(dir: string, folder: string, name: string)
    requires '/' !in folder && '/' !in name
    ensures FolderName(dir + "/" + folder + "/" + name) == folder
  {
    FolderNameIsParent(dir + "/" + folder, name);
    SplitLast(dir, folder, '/');
  }

  /** `extractDuration()` on the metadata string (absent when the retriever
      has none): its integer value, or 0. */
  function ExtractDuration(metadata: Option<string>): (ms: int)
    ensures IsInt32(ms)
    ensures metadata.None? ==> ms == 0
  {
    match metadata
    case None => 0
    case Some(text) => ToIntOrNull(text).GetOr(0)
  }

  /** A duration the retriever printed is read back exactly, and text that
      is not an `Int` reads as 0. */
  lemma ExtractDurationReadsBack(ms: int, text: string)
    requires IsInt32(ms)
    ensures ExtractDuration(Some(IntToString(ms))) == ms
    ensures ToIntOrNull(text).None? ==> ExtractDuration(Some(text)) == 0
  {
    ToIntOrNullRoundTrip(ms);
  }

  // ---------------------------------------------------------------------
  // Hash codes
  // ---------------------------------------------------------------------

  /** `String.hashCode`: s[0]*31^(n-1) + ... + s[n-1] in 32-bit arithmetic,
      one code unit per character. */
  function StringHash(s: string): (h: int)
    ensures IsInt32(h)
    decreases |s|
  {
    if |s| == 0 then 0 else WrapInt32(31 * StringHash(s[..|s| - 1]) + s[|s| - 1] as int)
  }

  /** The signed `Int` a 32-bit pattern stands for. */
  function Signed32(b: bv32): (x: int)
    ensures IsInt32(x)
  {
    if b as int < TwoTo31 then b as int else b as int - TwoTo32
  }

  /** The bit pattern of a 32-bit value. */
  function Bits32(x: int): bv32
    requires IsInt32(x)
  {
    var v: int := if x < 0 then x + TwoTo32 else x;
    assert 0 <= v < TwoTo32;
    v as bv32
  }

  /** `UUID.hashCode`: the two halves of `mostSig ^ leastSig` xor-ed. */
  function UuidHash(u: Uuid): (h: int)
    ensures IsInt32(h)
  {
    var hilo := u.mostSigBits ^ u.leastSigBits;
    Signed32((((hilo >> 32) ^ hilo) & 0xFFFF_FFFF) as bv32)
  }

  /** `File.hashCode` on Unix: the path's hash xor-ed with 1234321. */
  function FileHash(path: string): (h: int)
    ensures IsInt32(h)
  {
    Signed32(Bits32(StringHash(path)) ^ 1234321)
  }

  /** One step of the `31 * result + x` chain. */
  function Mix(acc: int, x: int): (r: int)
    ensures IsInt32(r)
  {
    WrapInt32(31 * acc + x)
  }

  /** `result = h0; result = 31 * result + h1; ...` over component hashes. */
  function Chain(hs: seq<int>): (r: int)
    requires |hs| >= 1 && IsInt32(hs[0])
    ensures IsInt32(r)
    decreases |hs|
  {
    if |hs| == 1 then hs[0] else Mix(Chain(hs[..|hs| - 1]), hs[|hs| - 1])
  }

  /** The component hashes `hashCode()` combines, in order: id, file,
      title, album id, album, path and folder name. */
  function HashParts(s: Song): (hs: seq<int>)
    ensures |hs| == 7 && IsInt32(hs[0])
  {
    [ UuidHash(s.songId),
      FileHash(s.file),
      StringHash(s.title),
      match s.albumID case Some(u) => UuidHash(u) case None => 0,
      s.album.GetOr(0),
      StringHash(s.file),
      StringHash(FolderName(s.file)) ]
  }

  /** `hashCode()` as written. */
  function HashCodeAsWritten(s: Song): (h: int)
    ensures IsInt32(h)
  {
    Chain(HashParts(s))
  }

  /** 31 is odd, so multiplying by it is a bijection on 32-bit values: one
      mixing step never merges two different accumulators. */
  lemma MixInjective(a: int, b: int, x: int)
    requires IsInt32(a) && IsInt32(b)
    requires Mix(a, x) == Mix(b, x)
    ensures a == b
  {
    var r := Mix(a, x);
    var ka := (31 * a + x - r) / TwoTo32;
    var kb := (31 * b + x - r) / TwoTo32;
    assert 31 * a + x - r == ka * TwoTo32;
    assert 31 * b + x - r == kb * TwoTo32;
    var d := a - b;
    var k := ka - kb;
    assert 31 * d == k * TwoTo32;
    // 31 * 0xBDEF_7BDF == 1 + 23 * 2^32
    assert d * (31 * 0xBDEF_7BDF) == d + d * 23 * TwoTo32;
    assert d == TwoTo32 * (k * 0xBDEF_7BDF - 23 * d);
  }

  /** Two different 32-bit inputs to the same accumulator mix differently. */
  lemma MixSeparates(acc: int, x: int, y: int)
    requires IsInt32(x) && IsInt32(y) && x != y
    ensures Mix(acc, x) != Mix(acc, y)
  {
    var rx := Mix(acc, x);
    var ry := Mix(acc, y);
    assert 31 * acc + x - rx == ((31 * acc + x - rx) / TwoTo32) * TwoTo32;
    assert 31 * acc + y - ry == ((31 * acc + y - ry) / TwoTo32) * TwoTo32;
  }

  /** Changing one component hash after the first changes the whole hash,
      provided all components are 32-bit values. */
  lemma {:induction false} ChainSeparates(hs: seq<int>, gs: seq<int>, i: nat)
    requires |hs| == |gs| && 0 < i < |hs|
    requires forall j | 0 <= j < |hs| :: IsInt32(hs[j]) && IsInt32(gs[j])
    requires forall j | 0 <= j < |hs| && j != i :: hs[j] == gs[j]
    requires hs[i] != gs[i]
    ensures Chain(hs) != Chain(gs)
    decreases |hs|
  {
    var n := |hs| - 1;
    var hp := hs[..n];
    var gp := gs[..n];
    if i == n {
      assert hp == gp;
      MixSeparates(Chain(hp), hs[n], gs[n]);
    } else {
      ChainSeparates(hp, gp, i);
      if Chain(hs) == Chain(gs) {
        MixInjective(Chain(hp), Chain(gp), hs[n]);
      }
    }
  }

  /** The hash as written breaks the `equals`/`hashCode` contract: two
      songs with the same id and file but different titles are equal and
      still hash differently. */
  lemma HashCodeAsWrittenBreaksEquals(id: Uuid, file: string)
    ensures var a := Song(id, file, "a", None, None);
      var b := Song(id, file, "b", None, None);
      SongEquals(a, Some(b)) && HashCodeAsWritten(a) != HashCodeAsWritten(b)
  {
    var a := Song(id, file, "a", None, None);
    var b := Song(id, file, "b", None, None);
    assert StringHash("a") == 97 by { assert "a"[..0] == ""; }
    assert StringHash("b") == 98 by { assert "b"[..0] == ""; }
    ChainSeparates(HashParts(a), HashParts(b), 2);
  }

  /** The hash consistent with `equals`: the id's hash alone. */
  function HashCode(s: Song): (h: int)
    ensures IsInt32(h)
  {
    UuidHash(s.songId)
  }

  /** Equal songs have equal hash codes. */
  lemma EqualSongsHashEqually(a: Song, b: Song)
    requires SongEquals(a, Some(b))
    ensures HashCode(a) == HashCode(b)
  {
  }
}
